=== FILE: README.md ===
# Hyperlocal services backend: request rules in Dafny

This project models the request-handling core of a hyperlocal services
marketplace backend (Express and Mongoose). Users book services offered by
providers. An administrator approves providers and their service listings.
Payment goes through a gateway. Status changes are announced by e-mail
through an in-memory job queue.

Every handler is modelled as a pure function. It reads one snapshot of the
database (`Store.Store`: one id-keyed map per collection) and returns a
`Replies.Reply`: the store after the request, the HTTP status code, and the
side effects it started, in order. The effects are queued e-mails, direct
e-mail sends and queued notifications. Error checks are modelled in the order
the code makes them, and each error path leaves the store unchanged unless the
code writes before it fails.

Modules, following the program's structure:

- `Common`, `Text`: identifiers and ordered scans; JavaScript `trim`, ASCII
  lower-casing, `split(' ')[1]`.
- `Schema`: the five document schemas. This covers enumerations and defaults,
  the password and phone validators, and the pre-save hook that hashes a
  password only when it was modified.
- `Store`: the database value and its queries. `findOne` returns the earliest
  match, and the `lowercase` setter also applies to queries.
- `JobQueue`, `Mail`: the in-memory queue, the e-mail processor's dispatch,
  and the direct-send fallback of `addEmailJob`.
- `Replies`: the reply of a handler.
- `Accounts`, `Middleware`: registration, code verification, login, the two
  password-reset paths, and the `protect(roles)` decision.
- `Services`, `Admin`, `ProviderProfile`: listing creation, edit, verdict and
  deletion; provider approval; the listing and counter routes; the admin and
  provider profile edits.
- `Bookings`, `BookingStatus`, `Reviews`: pagination, booking creation,
  payment verification, cancellation and free slots; the single and bulk
  status routes; review submission and the service rating aggregate.
- `Invariants`: store invariants kept by the account routes.

Ids are natural numbers. A new document gets an id larger than every id in
use, so "natural order" is ascending id and "newest first" is descending id.

## Model

| member | source | states |
|---|---|---|
| Schema.ParseRole | backend/src/routes/auth.js:77-81 | Exactly the three role names select a collection, each its own one; any other name selects none. |
| Schema.NewAccount | backend/src/routes/auth.js:46-53 | A freshly created account is unverified, holds the code and its expiry, and has no reset in progress. |
| Schema.NewProvider | backend/src/models/Provider.js:27-44 | A new provider starts unapproved with status pending, no listings, rating 0 and review count 0. |
| Schema.SaveAccount | backend/src/models/User.js:14-39 | A save succeeds exactly when the password (plain when modified, the stored hash otherwise) is strong and the phone is absent, empty or 10-12 digits. It changes nothing but the password, and hashes a modified password and only a modified one. |
| Schema.SaveHashesOnce | backend/src/models/Admin.js:29-34 | Saving a stored document again unchanged writes back its hash as it is, never a hash of the hash. |
| Store.FindByEmail | backend/src/routes/auth.js:107 | The lookup finds an account exactly when one holds the lower-cased address, and then the earliest such account. |
| Store.FindAfterSameAddress | backend/src/routes/auth.js:107 | Rewriting the account the lookup finds, without changing its address, leaves the lookup finding the same account. |
| JobQueue.NewQueue | backend/src/utils/queue.js:20-26 | A new queue is empty, idle and has no processor. |
| JobQueue.Step | backend/src/utils/queue.js:55-73 | A worker callback on an empty list clears the flag and ends its chain. Otherwise it removes exactly the head and reports it completed or failed, and in both cases the chain carries on. |
| JobQueue.Process | backend/src/utils/queue.js:48-77 | `process` does nothing when the queue is busy, has no processor or is empty. Otherwise it sets the flag, starts one chain and runs the head at once. |
| JobQueue.Add | backend/src/utils/queue.js:28-46 | `add` returns a job with the given data and puts it at the tail. The head runs at once exactly when the queue was idle with a processor. |
| JobQueue.Counts | backend/src/utils/queue.js:83-91 | waiting is the list length, active is 1 exactly while the flag is set, and the other three counters are always 0. |
| JobQueue.Close | backend/src/utils/queue.js:93-97 | `close` empties the list and clears the flag without stopping a scheduled callback. |
| JobQueue.Pause | backend/src/utils/queue.js:99-102 | `pause` keeps every queued job and clears only the flag. |
| JobQueue.Drain | backend/src/utils/queue.js:55-73 | n callbacks of a running chain run the first n waiting jobs in list order and leave the rest waiting. |
| JobQueue.AddKeepsOneWorker | backend/src/utils/queue.js:42-53 | Without pause or close, adding a job never starts a second worker chain. |
| JobQueue.StepKeepsOneWorker | backend/src/utils/queue.js:55-73 | A worker callback keeps "flag set exactly while one chain runs". |
| JobQueue.StepClearsFlagOnlyWhenEmpty | backend/src/utils/queue.js:56-59 | A callback clears the processing flag if and only if it finds the list empty. |
| JobQueue.FailedJobIsDropped | backend/src/utils/queue.js:64-73 | A failing job leaves the queue exactly as a succeeding one would: dropped, not re-queued, with one job fewer. |
| JobQueue.AddedJobRunsLast | backend/src/utils/queue.js:35-61 | A job added while a worker runs is run after every job already waiting (FIFO). |
| JobQueue.PauseThenAddStartsSecondWorker | backend/src/utils/queue.js:99-102 | Pausing a running queue and then adding a job leaves two worker chains taking from the same list. |
| JobQueue.CloseAndPauseCounts | backend/src/utils/queue.js:83-102 | After close every counter is 0; after pause only the waiting jobs are counted. |
| Mail.ParseType | backend/src/utils/queue.js:120-156 | A type string is recognised exactly when it is one of the eleven type names, and it maps to that kind. |
| Mail.Dispatch | backend/src/utils/queue.js:110-168 | The e-mail processor finds a sender exactly for a known type, the one its switch names; it fails on any other. |
| Mail.FallbackSender | backend/src/utils/queue.js:204-227 | The fallback sends exactly for its six types, with the same sender the processor would use. |
| Mail.AddEmailJob | backend/src/utils/queue.js:188-241 | An accepted job is queued (and may run at once). Otherwise the fallback's types get a direct send reported as failed, and other types get null. |
| Mail.AddNotificationJob | backend/src/utils/queue.js:243-253 | A notification is queued at the tail, or null is returned and the queue is unchanged. |
| Mail.DispatchIsOneToOne | backend/src/utils/queue.js:120-153 | Every kind reaches its own sender, and no two kinds share one. |
| Mail.UnknownTypeFails | backend/src/utils/queue.js:154-156 | A job of an unknown type fails in the processor. |
| Mail.FallbackCoverage | backend/src/utils/queue.js:205-227 | The fallback covers the OTP kind and the five booking kinds and no other. |
| Accounts.StoredPhone | backend/src/routes/auth.js:50 | Only a non-empty phone is kept, never for an admin, and it is kept as given. |
| Accounts.StoredCompany | backend/src/routes/auth.js:51 | A company is kept exactly for a provider who gives a non-empty one, trimmed. |
| Accounts.Register | backend/src/routes/auth.js:22-65 | A verified address is refused with 400. An unverified one gets 200 exactly when the account with a fresh ten-minute code passes the save validators, and 500 with nothing written otherwise; the 200 stores the code and sends the e-mail, and nothing else changes. A new address becomes an unverified account (name trimmed, address lower-cased, password hashed) exactly when it passes the validators. |
| Accounts.VerifyOtp | backend/src/routes/auth.js:74-100 | The checks come in order: role 400, account 404, already verified 400, code 400, expiry 400, and each leaves the store unchanged. Success marks the account verified and clears the code. |
| Accounts.SecondVerifyRefused | backend/src/routes/auth.js:86-95 | After a successful verification the account is verified, its code is cleared, and a second verification answers "already verified". |
| Accounts.ExpiryIsStrict | backend/src/routes/auth.js:88 | A code is accepted at the very millisecond of its expiry and refused one millisecond later. |
| Accounts.RegisteredAccount | backend/src/routes/auth.js:45-53 | A successful registration stores, under the fresh identifier, the trimmed name, the lower-cased address, the hashed password, the kept phone and an unverified account holding the code and its expiry. |
| Accounts.VerifyAccepts | backend/src/routes/auth.js:74-95 | An unverified account holding the entered code, asked on or before its expiry, is verified when its stored password and phone pass the validators. |
| Accounts.RegisterThenVerify | backend/src/routes/auth.js:45-95 | The code e-mailed at registration, entered within ten minutes, verifies the new account. |
| Accounts.Login | backend/src/routes/auth.js:104-141 | An unknown address and a wrong password give the same 400. An unverified account gets 400 and an unapproved provider 403, both before the password is compared. The token names the account, its role and the current server start. |
| Accounts.GatesPrecedePassword | backend/src/routes/auth.js:107-118 | Before verification or approval the answer does not depend on the password and is never a success. |
| Accounts.ForgotPassword | backend/src/routes/auth.js:149-180 | A known address under a known role gets 200 exactly when the account passes the save validators, and 500 with nothing written otherwise. The 200 parks the requested password unchecked next to a fresh code and e-mails the code. An unknown role gets 400 and an unknown address 404, with nothing written. |
| Accounts.VerifyResetOtp | backend/src/routes/auth.js:184-212 | The checks come in order: role, account, pending temporary password, code, expiry. Success installs the temporary password (validated, hashed when new), clears it and the code, and changes nothing else. |
| Accounts.ForgotStores | backend/src/routes/auth.js:159-170 | A successful reset request changes only the found account: it parks the requested password with a fresh code and expiry, on an account whose phone passed the validator. |
| Accounts.ResetCodeAccepts | backend/src/routes/auth.js:194-207 | With a non-empty parked password and a matching code not yet expired, the reset succeeds exactly when the parked password is strong, and then stores its hash when it differs from the current one. |
| Accounts.ForgotThenVerifyReset | backend/src/routes/auth.js:166-205 | Requesting a reset and entering the code in time succeeds exactly when the requested password is strong, and installs its hash. |
| Accounts.ResetPassword | backend/src/routes/auth.js:216-244 | The token reset succeeds only for an account whose address, token and unexpired deadline match. It then sets the password and clears the token and its deadline; otherwise nothing changes. |
| Accounts.TokenResetUnreachable | backend/src/routes/auth.js:226-232 | While no account holds a reset token (no route stores one), every token reset is refused with 400. |
| Middleware.BearerToken | backend/src/middleware/auth.js:16-18 | A token is read exactly from a header starting with "Bearer" that has a second space-separated field. |
| Middleware.Decoded | backend/src/middleware/auth.js:18-21 | Claims come only from a non-empty bearer token that verifies, and they are its claims. |
| Middleware.Protect | backend/src/middleware/auth.js:10-76 | A request proceeds if and only if a verifying token from this server run names a known role and an existing account whose role the route admits (an empty list admits all). It is refused with 403 iff only the role check fails, and with 401 otherwise. |
| Middleware.LoginTokenAdmits | backend/src/middleware/auth.js:16-67 | A token issued by a successful login in this run, sent as "Bearer token", admits its holder as the logged-in account on every route listing their role. |
| Middleware.RestartRevokesTokens | backend/src/middleware/auth.js:29-32 | A token issued under another server start time is refused with 401, however valid its signature. |
| Middleware.UnparsableStartRevokesAll | backend/src/middleware/auth.js:29-32 | When the configured start time is not a number, no request proceeds. |
| Middleware.EmptyRoleListAdmitsMore | backend/src/middleware/auth.js:61-64 | A role list only narrows access: whoever passes or is refused with 403 under a list passes without one. |
| Services.Pull | backend/src/routes/service.js:256-258 | `$pull` removes every occurrence of the id and keeps all other entries. |
| Services.Draft | backend/src/routes/service.js:99-108 | A new listing exists exactly when the required fields are given. It belongs to the caller and is pending whatever the body says. A rating, review count or availability the body supplies is kept; the schema defaults (rating 0, count 0, no availability) apply only to the ones it omits. |
| Services.Overwrite | backend/src/routes/service.js:146-150 | An empty update body changes nothing. A carried status or provider is written as given, unchecked; an absent one is kept. |
| Services.CreateService | backend/src/routes/service.js:82-121 | A non-provider gets 403 and an unknown provider 404. A created listing is pending, owned by the caller and appended to the caller's list; nothing else changes. |
| Services.EditStatus | backend/src/routes/service.js:138-144 | A provider's edit writes "approved" exactly when the listing was approved, and otherwise "pending". |
| Services.UpdateService | backend/src/routes/service.js:124-156 | Only an admin or the owner may edit (404, then 403). A provider's status follows the edit rule, an admin's passes through unchecked, and every other carried field is written. |
| Services.ProviderEditKeepsApproval | backend/src/routes/service.js:138-144 | A provider's edit never grants and never withdraws an approval, and leaves a valid status. |
| Services.PatchStatus | backend/src/routes/service.js:159-237 | Admins only (403), approved or rejected only (400), known listing only (404). Rejection e-mails the provider, pulls the id from its list and deletes the listing, and fails with 500 without any change when the provider is gone. Approval writes status and notes; when the provider is gone it then fails with 500, keeping the write and sending nothing. |
| Services.Approve | backend/src/routes/service.js:206-210 | The approval write sets the status to approved and the notes when given, and keeps every other field. |
| Services.DeleteService | backend/src/routes/service.js:240-264 | Only an admin or the owner may delete. The listing is removed and its id pulled from its provider's list. |
| Services.CreateKeepsTracked | backend/src/routes/service.js:107-113 | Creation keeps every listing on its provider's list and every list entry naming a listing of that provider. |
| Services.RemovalKeepsTracked | backend/src/routes/service.js:192-198 | Deleting a listing and pulling it from its owner's list keeps the tracking invariant. |
| Services.DeleteKeepsTracked | backend/src/routes/service.js:253-258 | Deletion keeps the tracking invariant. |
| Services.PatchStatusKeepsTracked | backend/src/routes/service.js:172-210 | Both verdicts of the status patch keep the tracking invariant. |
| Services.UpdateKeepsTracked | backend/src/routes/service.js:146-150 | An edit that does not hand the listing to another provider keeps the tracking invariant. |
| Services.CreateThenDeleteRestores | backend/src/routes/service.js:107-113 | Creating a listing and deleting it as its owner restores the store exactly. |
| Admin.NewestOf | backend/src/routes/admin.js:19-21 | The listed ids are exactly the selected ones, each once, newest first. |
| Admin.ProvidersWith | backend/src/routes/admin.js:13-27 | A non-admin gets 403. An admin gets exactly the providers with the requested approval status, newest first. |
| Admin.ServicesWith | backend/src/routes/admin.js:30-44 | A non-admin gets 403. An admin gets exactly the listings with the requested status, newest first. |
| Admin.WithApproval | backend/src/routes/admin.js:90-91 | The set holds exactly the providers with the given approval status. |
| Admin.WithStatus | backend/src/routes/admin.js:94-95 | The set holds exactly the listings with the given status. |
| Admin.AdminStats | backend/src/routes/admin.js:83-114 | A non-admin gets 403. The totals are the collection sizes. The approved and pending counts are exactly the numbers of providers and listings with that status, and never exceed their totals. |
| Admin.StatsMatchListings | backend/src/routes/admin.js:13-44 | Each counter equals the length of the matching admin listing. |
| Admin.NotesOrEmpty | backend/src/routes/admin.js:199 | Absent or empty notes become the empty string; other notes are kept. |
| Admin.DecideProvider | backend/src/routes/admin.js:183-240 | Admins only (403), known provider only (404). The save re-validates the account (500). Approval sets both approval fields to approved and rejection sets both to rejected; the notes are stored and e-mailed. |
| Admin.DecideKeepsConsistent | backend/src/routes/admin.js:197-229 | Approve and reject keep `isApproved` equivalent to approval status approved for every provider. |
| Admin.WithVerdict | backend/src/routes/admin.js:261-262 | The verdict sets the status and the notes (empty when absent) and keeps every other field of the listing. |
| Admin.ServiceVerdict | backend/src/routes/admin.js:243-283 | Checks in order: 403, 404, then 400 for a verdict other than approved or rejected. A written listing that fails the validators gives 500 with nothing changed. Otherwise the listing is kept with its new status and notes, and the answer is 200 exactly when its provider exists; with the provider gone the verdict stays stored and the answer is 500. |
| Admin.RejectionRoutesDisagree | backend/src/routes/admin.js:256-263 | The admin router keeps a rejected listing, marked rejected; the service router deletes it. |
| Admin.VerdictKeepsTracked | backend/src/routes/admin.js:261-263 | A verdict changes no provider's list of listings and keeps the tracking invariant. |
| Admin.UpdateAdminProfile | backend/src/routes/admin.js:151-180 | Both fields are required (400). The update succeeds exactly when the fields validate, the caller is a stored admin and no other admin holds the address. It stores the trimmed name and the lower-cased address. |
| Admin.AdminProfileKeepsUniqueEmails | backend/src/routes/admin.js:174-175 | A profile update never lets two admins share an address. |
| ProviderProfile.Edited | backend/src/routes/provider.js:79-104 | The name is stored trimmed; company and location are trimmed when given; absent fields are kept. An approved provider keeps its approval, and any other goes back to pending and unapproved. |
| ProviderProfile.UpdateProfile | backend/src/routes/provider.js:48-122 | Request checks (name, address, phone, address in use) give 400, an unknown caller 404, and an invalid written address 500. Otherwise the edited provider is stored and nothing else changes. |
| ProviderProfile.EditApprovalRule | backend/src/routes/provider.js:88-104 | An approved provider keeps both approval fields through an edit; any other becomes pending and unapproved. |
| ProviderProfile.EditKeepsConsistent | backend/src/routes/provider.js:100-104 | A profile edit keeps `isApproved` equivalent to approval status approved. |
| ProviderProfile.EditedEmailFree | backend/src/routes/provider.js:66-71 | After a successful edit no other provider holds the caller's address. |
| ProviderProfile.EditKeepsUniqueEmails | backend/src/routes/provider.js:66-71 | No profile edit lets two providers share an address or stores one with an upper-case letter. |
| ProviderProfile.OwnAddressRecasedRefused | backend/src/routes/provider.js:66-69 | A provider re-submitting their own address in another letter case is refused as "already in use". |
| Invariants.RegisterKeepsInvariants | backend/src/routes/auth.js:25-60 | Registration keeps addresses unique and lower-case, the approval fields consistent, listings tracked, and no reset token stored. |
| Invariants.VerifyOtpKeepsInvariants | backend/src/routes/auth.js:90-93 | Code verification keeps all the store invariants. |
| Invariants.ForgotPasswordKeepsInvariants | backend/src/routes/auth.js:167-170 | A reset request keeps all the store invariants. |
| Invariants.VerifyResetOtpKeepsInvariants | backend/src/routes/auth.js:201-205 | A code-confirmed reset keeps all the store invariants. |
| Bookings.CeilDiv | backend/src/routes/booking.js:42 | The page count is the least integer not below total / limit, for either sign of limit. |
| Bookings.ParamOr | backend/src/routes/booking.js:28-29 | A present non-zero parameter is used as given; the result is 0 only when the default is. |
| Bookings.NewestFirst | backend/src/routes/booking.js:35-38 | Exactly the caller's bookings, newest first. |
| Bookings.Window | backend/src/routes/booking.js:39-40 | skip/limit yields the elements from position skip on, at most limit of them, in order. |
| Bookings.Paginate | backend/src/routes/booking.js:26-57 | A negative skip is refused. Otherwise the page holds the window of the caller's newest-first bookings, with the totals, the current page, and hasNext/hasPrev as the code computes them. |
| Bookings.BeforeLastPage | backend/src/routes/booking.js:42-50 | For a positive limit, a page is before the last exactly when bookings lie beyond it. |
| Bookings.HasNextIffMoreBookings | backend/src/routes/booking.js:50 | With positive parameters, hasNextPage is true exactly when bookings lie beyond the current page. |
| Bookings.EveryBookingOnItsPage | backend/src/routes/booking.js:28-40 | With page and limit at least 1, position j of page p, which starts at (p - 1) * limit, shows the ((p - 1) * limit + j)-th newest booking whenever that booking exists. |
| Bookings.CreateBooking | backend/src/routes/booking.js:92-144 | The answer is 201, 400, 403 or 500. Only a user may book (403), only an approved listing (400); a missing gateway order, a date that does not parse or an empty time then gives 500. The new booking copies provider and price from the listing, awaits payment, belongs to the caller and passes the schema; nothing else changes. |
| Bookings.ForOrder | backend/src/routes/booking.js:159-160 | The payment lookup finds a booking of that order exactly when one exists, and only a booking of that order. |
| Bookings.VerifyPayment | backend/src/routes/booking.js:147-187 | A signature equal to the keyed hash marks the order's booking paid and pending, with the gateway ids (404 without one). Any other signature gives 400 and marks the booking's payment failed, and only that. |
| Bookings.BadSignatureTouchesOnlyPaymentStatus | backend/src/routes/booking.js:175-182 | A rejected signature changes no field but the payment status, and never marks a booking paid. |
| Bookings.Cancel | backend/src/routes/booking.js:464-491 | 404, then 403 unless admin, the booking's user, or its provider on a confirmed booking, then 400 unless payment_pending or confirmed. Success sets the status to cancelled and changes nothing else. |
| Bookings.CancelOnlyBeforePayment | backend/src/routes/booking.js:469-477 | For a booking the schema admits, only a payment_pending one can be cancelled, and a provider who is not the booking's user is always refused. |
| Bookings.CreatedBookingCanBeCancelled | backend/src/routes/booking.js:469-483 | A booking just created can be cancelled by the user who made it. |
| Bookings.Without | backend/src/routes/booking.js:536 | The filter keeps exactly the untaken elements, in their original order. |
| Bookings.TimesWhere | backend/src/routes/booking.js:524-530 | The booked times are exactly the times of the matching bookings, one per booking, in natural order. |
| Bookings.AvailableSlots | backend/src/routes/booking.js:518-542 | An unknown listing gives 404, and then a date that does not parse gives 500. The free slots are exactly the fixed hourly slots not held by a payment_pending, confirmed, scheduled or in_progress booking of that listing on that date, in slot order. The booked list is one time per such booking, in natural order. |
| BookingStatus.KindFor | backend/src/routes/booking.js:396-429 | A target has an e-mail kind exactly when it is one of the five accepted targets. |
| BookingStatus.ApprovalMessage | backend/src/routes/booking.js:397 | The approval text appends the provider's notes exactly when they are non-empty. |
| BookingStatus.StatusEmail | backend/src/routes/booking.js:394-429 | The e-mail for a non-rejecting target goes to the booking's user. |
| BookingStatus.StatusEmailKind | backend/src/routes/booking.js:396-429 | The e-mail for a non-rejecting target is of the kind the target names. |
| BookingStatus.RejectionEmail | backend/src/routes/booking.js:359-364 | The rejection e-mail carries the notes, or the default text when they are absent or empty. |
| BookingStatus.ApplyStatus | backend/src/routes/booking.js:354-449 | A rejection queues one rejection e-mail and deletes only that booking, and fails only when its user or listing is gone. Any other target sets the status and non-empty notes, keeps every other field, and queues the kind's e-mail (when the parties exist) and a notification. |
| BookingStatus.UpdateStatus | backend/src/routes/booking.js:328-461 | Invalid target 400, unknown booking 404, neither admin nor the booking's provider 403, all with no write. Otherwise the status step runs. |
| BookingStatus.NoTransitionGraph | backend/src/routes/booking.js:335-352 | The current status is never consulted: an allowed caller moves any booking to any non-rejecting target, and price, payment status and reviews are kept. |
| BookingStatus.EmailKindFollowsTarget | backend/src/routes/booking.js:396-429 | Each target announces itself with its own e-mail kind, one the fallback also covers; a rejection starts exactly one effect and removes the booking. |
| BookingStatus.BulkRun | backend/src/routes/booking.js:225-314 | Only bookings change. When the loop completes, every id is counted once as updated or rejected; rejected bookings are deleted, updated ones carry the target, and all other bookings are untouched. |
| BookingStatus.BulkRunFails | backend/src/routes/booking.js:225-241 | The loop fails exactly when it rejects and meets a booking whose user or service is gone; an update to any other target never fails. |
| BookingStatus.BulkRunRejects | backend/src/routes/booking.js:225-241 | A bulk rejection deletes the bookings before the first one whose user or service is gone and queues their rejection e-mails in order. It stops there, and those deletions and e-mails stay. |
| BookingStatus.RejectionEmailsAt | backend/src/routes/booking.js:229-236 | There is one rejection e-mail per booking before the first orphan, the i-th for the i-th booking. |
| BookingStatus.BulkRunUpdates | backend/src/routes/booking.js:241-313 | A bulk update to any other target never fails, and queues for each booking in order its status e-mail (when its user and service exist) and then its notification. |
| BookingStatus.BulkGate | backend/src/routes/booking.js:214-219 | The intended gate lets through an admin, or a caller who is the provider of every booking, and answers 403 otherwise. |
| BookingStatus.BulkGateAsWritten | backend/src/routes/booking.js:205-219 | The gate as written lets through admins only: anyone else gets 403, or 500 when the first booking's provider is gone. |
| BookingStatus.OwnerRefusedByWrittenGate | backend/src/routes/booking.js:216 | A provider owning every booking passes the intended gate but is refused with 403 by the written one. |
| BookingStatus.OwnerRefusedExample | backend/src/routes/booking.js:216 | A concrete store and request in which the owning provider is refused. |
| BookingStatus.Found | backend/src/routes/booking.js:205-212 | The lookup yields exactly the requested ids that name bookings, each once, in ascending order. It is never longer than the request, and when it is as long, every requested id names a booking. |
| BookingStatus.BulkUpdate | backend/src/routes/booking.js:192-325 | With the intended access check: a non-array or empty list and an invalid target give 400. A missing or repeated id gives 404. The access check precedes any write (403 with no change). Success accounts for every id and applies the target to all of them. |
| BookingStatus.BulkUpdateAsWritten | backend/src/routes/booking.js:192-219 | With the access check as written: the same 400 and 404 answers. An admin gets what the intended route gives. Anyone else never succeeds and changes nothing: 403, or 500 when the first booking's provider is gone. |
| BookingStatus.BulkUpdateOutcome | backend/src/routes/booking.js:225-324 | Past the 400, 404 and access checks, the bulk route answers 500 exactly when it rejects and one of the bookings has lost its user or service, and 200 otherwise. Its effects are the rejection e-mails of the bookings before the first such one, or each booking's status e-mail and notification in order. |
| BookingStatus.BulkUpdateRuns | backend/src/routes/booking.js:221-324 | Past its checks, the bulk route answers with the loop's store and effects, 500 when the loop failed and 200 otherwise. |
| BookingStatus.BulkOfOneIsSingle | backend/src/routes/booking.js:225-314 | The bulk route on one id answers exactly as the single-booking route does. |
| Reviews.SumRatings | backend/src/routes/booking.js:596-601 | The sum of n ratings within [1, 5] lies within [n, 5n]. |
| Reviews.Contribution | backend/src/routes/booking.js:588-601 | Only a booking of the listing whose status matches /^reviewed$/i contributes reviews. |
| Reviews.ReviewTotals | backend/src/routes/booking.js:588-601 | The aggregate counts reviews only when some booking of the listing matches /^reviewed$/i. With no such booking it is zero. |
| Reviews.TotalsBounded | backend/src/routes/booking.js:588-601 | An aggregate with no matching review sums to 0; over valid ratings its sum lies within [count, 5 * count]. |
| Reviews.TotalsWithout | backend/src/routes/booking.js:596-601 | The aggregate does not depend on the order bookings are visited in: any booking can be counted first. |
| Reviews.Average | backend/src/routes/booking.js:603 | The mean of ratings within [1, 5] lies within [1, 5], and it is 0 when there are no reviews. |
| Reviews.SubmitReview | backend/src/routes/booking.js:544-615 | The answer is 200, 400, 404 or 500. The rating must be in [1, 5] and the comment non-blank (400); a foreign or missing booking gives 404. The booking must be completed or reviewed in any case and not yet reviewed by the caller. The save re-validates the booking (a time, every review rated 1-5 with a comment): a failure answers 500 with nothing written, and 200 holds exactly when all checks and the save pass. Success appends the review, marks the booking reviewed, and recomputes the listing's rating and count. |
| Reviews.ValidBookingSaves | backend/src/routes/booking.js:572-582 | A request passing the route's checks on a booking the schema accepts is answered 200: the save's 500 needs a stored booking that was already invalid. |
| Reviews.ReviewKeepsOneReview | backend/src/routes/booking.js:566-580 | A review is only added to a booking holding none, so a booking never holds more than one. |
| Reviews.SecondReviewRefused | backend/src/routes/booking.js:566-569 | A second review of the same booking by the same user is refused. |
| Reviews.RecomputedAggregate | backend/src/routes/booking.js:585-608 | After a review the listing's count is the other bookings' count plus this booking's reviews, and its rating stays within [1, 5]. |
| Reviews.AggregateAfterAppend | backend/src/routes/booking.js:585-608 | Replacing a booking of the listing by its reviewed copy with one more valid rating adds that review to the count, and the mean stays within [1, 5]. |
| Reviews.TotalsAfterAppend | backend/src/routes/booking.js:596-601 | One more review on a reviewed booking of the listing adds exactly one to the count. |
| Bookings.BookingTakesSlot | backend/src/routes/booking.js:518-542 | A booking just created holds its slot: the slot query for its listing and date lists the time as booked, not free. |
| Reviews.AppendKeepsRatingsValid | backend/src/models/Booking.js:25-30 | Appending a rating within [1, 5] keeps every stored rating within [1, 5]. |

## Behaviour as the code has it

- The bulk status route stops at the first failing item: that item throws,
  the request answers 500, and the items processed before it stay processed.
  The model follows the code (`BookingStatus.BulkRun`'s `failed` flag, which
  `BookingStatus.BulkRunFails` characterises, and `BulkUpdate`'s 500).
- The status route never reads the current status, so there is no transition
  graph. Cancellation tests for `confirmed`, which the schema does not admit.
- The two service-rejection routes differ: `service.js` deletes the listing,
  `admin.js` keeps it as rejected. The admin route checks the listing before
  the verdict, and the service route checks the verdict first.
- The admin `PUT /profile` has no admin guard. Any logged-in caller reaches
  it, and a non-admin gets 404.
- Absent fields in an update body are left untouched, as Mongoose drops
  `undefined` keys from an update.

## Left out

- Timers (the 100 ms spacing of worker callbacks), process signal hooks and the startup self-test: only the order of callbacks is modelled.
- Socket.IO: notifications are only queued and logged.
- E-mail templates and transport: each sender is an opaque action that never fails.
- Foreign primitives are parameters: bcrypt hash and compare, HMAC-SHA256, `jwt.sign`/`jwt.verify`, Razorpay order creation (`order`), the random OTP, the clock, `SERVER_START_TIME`, and the e-mail address regular expression (`emailShape`).
- Non-ASCII case folding: `Text.Lower` folds ASCII letters only.
- The `PUT /profile` handler of `routes/auth.js` (lines 250-298): it is registered with `protect` uncalled, so it never runs as written.
- `routes/protected.js` is not part of this model: its status route is shadowed by the booking router.
- The read-only routes outside the listed core: the public listing, category and per-provider queries of `service.js`, the two `GET` routes of `provider.js`, `GET /bookings/:id`, `/user/all` and `/provider`.
- Inter-request races, such as two registrations of one address passing the lookup together before the unique index.
- Schema.SaveAccount: validates the password and the phone only. The other required fields are assumed present, as every route writes them from validated input.
- Mail.AddEmailJob: whether the queue accepts a job is the `accepts` parameter. In the code `add` does not throw, so the fallback path is modelled but not reached.
- Services.UpdateKeepsTracked: requires that the body does not move the listing to another provider. The code lets an admin (or the owner) rewrite `provider` unchecked, which breaks the provider lists.
- ProviderProfile.UpdateProfile: the 404 after the update (lines 95-97 and 112-114) cannot happen within one snapshot, because the provider was found just before.
- Services.Overwrite: an explicit JSON `null` in the update body cannot be represented. The code passes the body to `findByIdAndUpdate` (service.js:146-150), which writes the null; the model's absent field means the key is absent, so the field is kept.
- Bookings.CreateBooking: the gateway amount (`price * 100`) and the receipt string are not modelled; an unparsable date or a missing gateway order is the 500.
- Reviews.SubmitReview: the rating is taken as a number; JavaScript's coercion of a non-numeric rating is not modelled.
- Reviews.SubmitReview: the stored mean is an exact real, whereas the code divides IEEE doubles (line 603). For ratings 1, 1 and 2 the code stores 1.3333333333333333 and the model stores 4/3.
- Bookings.AvailableSlots: the date is an integer day, or absent when `new Date(date)` cannot parse it (the 500). Date string formats, time zones and the time of day inside the stored date are not modelled.
- BookingStatus.BulkUpdate: models the intended access check (`BulkGate`). The route as written refuses every non-admin (line 216); `BulkUpdateAsWritten` models that route.
- Middleware.Protect: a token's one-day lifetime is part of the `verify` parameter.
- Price and id cast errors (a malformed id or a non-numeric price answering 500) are not modelled: ids are natural numbers and prices integers.

## Findings

| source | as written | input that shows it | evidently intended | confidence | as-written member | corrected member |
|---|---|---|---|---|---|---|
| backend/src/routes/booking.js:205-219 | The bulk access check compares `booking.provider.toString()` with the caller id. The provider path was populated at line 208, so the left side is a document's string form, never an id. | Provider 1 owns booking 2 and sends a bulk update of `[2]`: it gets 403. | A provider may bulk-update bookings it owns, as in the single-booking route (line 347, which does not populate the provider). | not executed | BookingStatus.BulkGateAsWritten, used by BookingStatus.BulkUpdateAsWritten (shown by BookingStatus.OwnerRefusedByWrittenGate and BookingStatus.OwnerRefusedExample) | BookingStatus.BulkGate (used by BookingStatus.BulkUpdate; BookingStatus.BulkOfOneIsSingle proves it agrees with the single-booking route) |

=== FILE: accounts.dfy ===
/**
  The account routes shared by the three roles: registration with an e-mailed
  one-time code, code verification, login, and the two password-reset
  paths. Each account is a small state machine over `isVerified`, the code
  and its expiry, the pending temporary password and the reset token.

  The code itself, the clock, password hashing and comparison, the e-mail
  shape test and the server start time are parameters.
 */
module Accounts {
  import opened Common
  import opened Text
  import opened Schema
  import opened Store
  import opened Mail
  import opened Replies

  /** How long a one-time code stays valid, in milliseconds. */
  const OtpLifetime: int := 10 * 60 * 1000

  /** `otpExpiry < Date.now()`: strict, and a cleared expiry compares as 0. */
  predicate Expired(expiry: Option<int>, now: int)
  {
    (if expiry.None? then 0 else expiry.value) < now
  }

  /** `account.otp === Number(otp)`; `None` on the right stands for a value that is not a number. */
  predicate OtpMatches(stored: Option<int>, given: Option<int>)
  {
    stored.Some? && given == stored
  }

  /** The claims a login token carries; `serverStartTime` is `None` when the start time did not parse. */
  datatype Claims = Claims(id: Id, role: string, serverStartTime: Option<int>)

  // ---------------------------------------------------------- registration

  /** The phone the new document keeps: only a non-empty one, and admins have no phone field. */
  function StoredPhone(role: Role, phone: Option<string>): (r: Option<string>)
    ensures r.Some? ==> Given(phone) && role != AdminRole && r == phone
  {
    if Given(phone) && role != AdminRole then phone else None
  }

  /** The company the new document keeps: only a provider's, only a non-empty one, trimmed. */
  function StoredCompany(role: Role, company: Option<string>): (r: Option<string>)
    ensures r.Some? <==> role == ProviderRole && Given(company)
    ensures r.Some? ==> r.value == Trim(company.value)
  {
    if role == ProviderRole && Given(company) then Some(Trim(company.value)) else None
  }

  /**
    `registerHandler`. An address already registered and verified is
    refused; one registered but unverified gets a fresh code (and nothing
    else changes); a new address becomes a new, unverified account when the
    document passes its validators. The code is e-mailed to the address as
    typed.
   */
  function Register(s: Store, role: Role, name: string, email: string, password: string,
                    phone: Option<string>, company: Option<string>, otp: int, now: int,
                    hash: string -> string, emailShape: string -> bool): (r: Reply)
    ensures var found := FindByEmail(s.Accounts(role), email);
            found.Some? && s.Accounts(role)[found.value].isVerified ==> r == Refuse(s, 400)
    ensures var found := FindByEmail(s.Accounts(role), email);
            found.Some? && !s.Accounts(role)[found.value].isVerified ==>
              var acct := s.Accounts(role)[found.value];
              && (r.code == 200 <==> SaveAccount(Some(acct), acct.(otp := Some(otp), otpExpiry := Some(now + OtpLifetime)),
                                                 hash).Some?)
              && (r.code != 200 ==> r == Refuse(s, 500))
    ensures r.code in {200, 201, 400, 500}
    ensures r.code == 200 ==>
              && FindByEmail(s.Accounts(role), email).Some?
              && var k := FindByEmail(s.Accounts(role), email).value;
              && r.store == s.PutAccount(role, k, s.Accounts(role)[k].(otp := Some(otp),
                                                                      otpExpiry := Some(now + OtpLifetime)))
              && r.effects == [Send(SendOTPEmail, OtpData(email, otp))]
    ensures r.code == 201 <==> FindByEmail(s.Accounts(role), email).None?
                               && ValidNewAccount(name, email, password, StoredPhone(role, phone), emailShape)
    ensures r.code == 201 ==> r.store.Accounts(role).Keys == s.Accounts(role).Keys + {s.NewId()}
    ensures r.code == 201 ==>
              var a := r.store.Accounts(role)[s.NewId()];
              && !a.isVerified && a.otp == Some(otp) && a.otpExpiry == Some(now + OtpLifetime)
              && a.email == Lower(email) && a.name == Trim(name) && a.password == hash(password)
              && r.effects == [Send(SendOTPEmail, OtpData(email, otp))]
    ensures r.code == 201 ==>
              r.store == s.InsertAccount(role, s.NewId(), r.store.Accounts(role)[s.NewId()], StoredCompany(role, company))
    ensures r.code != 200 && r.code != 201 ==> r.store == s && r.effects == []
    ensures r.store.services == s.services && r.store.bookings == s.bookings
  {
    var accts := s.Accounts(role);
    match FindByEmail(accts, email)
    case Some(k) =>
      if accts[k].isVerified then Refuse(s, 400)
      else
        var a := accts[k].(otp := Some(otp), otpExpiry := Some(now + OtpLifetime));
        (match SaveAccount(Some(accts[k]), a, hash)
         case None => Refuse(s, 500)
         case Some(saved) => Reply(s.PutAccount(role, k, saved), 200, [Send(SendOTPEmail, OtpData(email, otp))]))
    case None =>
      var phone' := StoredPhone(role, phone);
      if !ValidNewAccount(name, email, password, phone', emailShape) then Refuse(s, 500)
      else
        var a := NewAccount(Trim(name), Lower(email), hash(password), phone', otp, now + OtpLifetime);
        Reply(s.InsertAccount(role, s.NewId(), a, StoredCompany(role, company)), 201,
              [Send(SendOTPEmail, OtpData(email, otp))])
  }

  // ---------------------------------------------------------- verification

  /**
    `POST /auth/verify-otp`. Checked in order: the role, the account, not yet
    verified, the code, its expiry. Success marks the account verified and
    clears the code.
   */
  function VerifyOtp(s: Store, roleName: string, id: Id, otp: Option<int>, now: int,
                     hash: string -> string): (r: Reply)
    ensures ParseRole(roleName).None? ==> r == Refuse(s, 400)
    ensures ParseRole(roleName).Some? ==>
              var accts := s.Accounts(ParseRole(roleName).value);
              && (id !in accts ==> r == Refuse(s, 404))
              && (id in accts && accts[id].isVerified ==> r == Refuse(s, 400))
              && (id in accts && !accts[id].isVerified && !OtpMatches(accts[id].otp, otp) ==> r == Refuse(s, 400))
              && ((id in accts && !accts[id].isVerified && OtpMatches(accts[id].otp, otp)
                     && Expired(accts[id].otpExpiry, now)) ==> r == Refuse(s, 400))
    ensures r.code == 200 ==>
              var role := ParseRole(roleName).value;
              var a := s.Accounts(role)[id];
              && r.store == s.PutAccount(role, id, a.(isVerified := true, otp := None, otpExpiry := None))
    ensures r.code != 200 ==> r.store == s
    ensures r.effects == []
  {
    match ParseRole(roleName)
    case None => Refuse(s, 400)
    case Some(role) =>
      var accts := s.Accounts(role);
      if id !in accts then Refuse(s, 404)
      else
        var a := accts[id];
        if a.isVerified then Refuse(s, 400)
        else if !OtpMatches(a.otp, otp) then Refuse(s, 400)
        else if Expired(a.otpExpiry, now) then Refuse(s, 400)
        else match SaveAccount(Some(a), a.(isVerified := true, otp := None, otpExpiry := None), hash)
          case None => Refuse(s, 500)
          case Some(saved) => Reply(s.PutAccount(role, id, saved), 200, [])
  }

  /** A verified account answers a second verification with "already verified". */
  lemma SecondVerifyRefused(s: Store, roleName: string, id: Id, otp: Option<int>, now: int, later: int,
                            hash: string -> string)
    requires VerifyOtp(s, roleName, id, otp, now, hash).code == 200
    ensures var s' := VerifyOtp(s, roleName, id, otp, now, hash).store;
            var role := ParseRole(roleName).value;
            && id in s'.Accounts(role) && s'.Accounts(role)[id].isVerified
            && s'.Accounts(role)[id].otp.None?
            && VerifyOtp(s', roleName, id, otp, later, hash) == Refuse(s', 400)
  {
  }

  /**
    A code is still good at the very millisecond of its expiry and refused
    one millisecond later.
   */
  lemma ExpiryIsStrict(s: Store, roleName: string, id: Id, otp: Option<int>, hash: string -> string)
    requires ParseRole(roleName).Some?
    requires var accts := s.Accounts(ParseRole(roleName).value);
             && id in accts && !accts[id].isVerified && OtpMatches(accts[id].otp, otp)
             && accts[id].otpExpiry.Some?
             && StrongPassword(accts[id].password) && PhoneOk(accts[id].phone)
    ensures var e := s.Accounts(ParseRole(roleName).value)[id].otpExpiry.value;
            && VerifyOtp(s, roleName, id, otp, e, hash).code == 200
            && VerifyOtp(s, roleName, id, otp, e + 1, hash).code == 400
  {
  }

  /**
    Registering and then entering the e-mailed code within ten minutes
    verifies the new account (when its stored hash passes the password
    validator, as a bcrypt hash does).
   */
  lemma RegisterThenVerify(s: Store, role: Role, name: string, email: string, password: string,
                           phone: Option<string>, company: Option<string>, otp: int, now: int, later: int,
                           hash: string -> string, emailShape: string -> bool)
    requires Register(s, role, name, email, password, phone, company, otp, now, hash, emailShape).code == 201
    requires now <= later <= now + OtpLifetime
    requires StrongPassword(hash(password))
    ensures var s' := Register(s, role, name, email, password, phone, company, otp, now, hash, emailShape).store;
            VerifyOtp(s', role.Name(), s.NewId(), Some(otp), later, hash).code == 200
  {
    RegisteredAccount(s, role, name, email, password, phone, company, otp, now, hash, emailShape);
    var s' := Register(s, role, name, email, password, phone, company, otp, now, hash, emailShape).store;
    VerifyAccepts(s', role, s.NewId(), otp, later, hash);
  }

  /** The document a successful registration stores under the fresh identifier. */
  lemma RegisteredAccount(s: Store, role: Role, name: string, email: string, password: string,
                          phone: Option<string>, company: Option<string>, otp: int, now: int,
                          hash: string -> string, emailShape: string -> bool)
    requires Register(s, role, name, email, password, phone, company, otp, now, hash, emailShape).code == 201
    ensures var s' := Register(s, role, name, email, password, phone, company, otp, now, hash, emailShape).store;
            && s.NewId() in s'.Accounts(role)
            && s'.Accounts(role)[s.NewId()]
                 == NewAccount(Trim(name), Lower(email), hash(password), StoredPhone(role, phone), otp, now + OtpLifetime)
            && PhoneOk(StoredPhone(role, phone))
  {
    assert FindByEmail(s.Accounts(role), email).None?;
  }

  /**
    An unverified account holding the entered code, asked on or before its
    expiry, is verified when the validators accept its stored fields.
   */
  lemma VerifyAccepts(s: Store, role: Role, id: Id, otp: int, now: int, hash: string -> string)
    requires id in s.Accounts(role)
    requires var a := s.Accounts(role)[id];
             && !a.isVerified && a.otp == Some(otp) && a.otpExpiry.Some? && now <= a.otpExpiry.value
             && StrongPassword(a.password) && PhoneOk(a.phone)
    ensures VerifyOtp(s, role.Name(), id, Some(otp), now, hash).code == 200
  {
    assert ParseRole(role.Name()) == Some(role);
  }

  // ----------------------------------------------------------------- login

  datatype LoginReply = LoginReply(code: int, claims: Option<Claims>)

  /** A provider may log in only when both approval fields say so. */
  predicate ProviderCleared(p: Provider)
  {
    p.isApproved && p.approval == Approved
  }

  /**
    `loginHandler`. An unknown address and a wrong password give the same
    400; an unverified account (400) and an unapproved provider (403) are
    refused before the password is compared. The token names the account,
    the role and the current server start time.
   */
  function Login(s: Store, role: Role, email: string, password: string,
                 matches: (string, string) -> bool, serverStart: Option<int>): (r: LoginReply)
    ensures var found := FindByEmail(s.Accounts(role), email);
            && (found.None? ==> r == LoginReply(400, None))
            && (found.Some? && !s.Accounts(role)[found.value].isVerified ==> r == LoginReply(400, None))
            && ((found.Some? && s.Accounts(role)[found.value].isVerified && role == ProviderRole
                 && !ProviderCleared(s.providers[found.value])) ==> r == LoginReply(403, None))
    ensures r.code == 200 <==>
              var found := FindByEmail(s.Accounts(role), email);
              && found.Some? && s.Accounts(role)[found.value].isVerified
              && (role == ProviderRole ==> ProviderCleared(s.providers[found.value]))
              && matches(password, s.Accounts(role)[found.value].password)
    ensures r.code == 200 ==> r.claims == Some(Claims(FindByEmail(s.Accounts(role), email).value, role.Name(), serverStart))
    ensures r.code != 200 ==> r.claims.None? && (r.code == 400 || r.code == 403)
  {
    var accts := s.Accounts(role);
    match FindByEmail(accts, email)
    case None => LoginReply(400, None)
    case Some(k) =>
      if !accts[k].isVerified then LoginReply(400, None)
      else if role == ProviderRole && !ProviderCleared(s.providers[k]) then LoginReply(403, None)
      else if !matches(password, accts[k].password) then LoginReply(400, None)
      else LoginReply(200, Some(Claims(k, role.Name(), serverStart)))
  }

  /** Before verification, or before a provider's approval, the password plays no part in the answer. */
  lemma GatesPrecedePassword(s: Store, role: Role, email: string, p1: string, p2: string,
                             matches: (string, string) -> bool, serverStart: Option<int>)
    requires var found := FindByEmail(s.Accounts(role), email);
             found.Some? && (!s.Accounts(role)[found.value].isVerified
                             || (role == ProviderRole && !ProviderCleared(s.providers[found.value])))
    ensures Login(s, role, email, p1, matches, serverStart) == Login(s, role, email, p2, matches, serverStart)
    ensures Login(s, role, email, p1, matches, serverStart).code != 200
  {
  }

  // --------------------------------------------------------- reset by code

  /**
    `POST /auth/forgot-password`. The requested password is parked, unchecked,
    as the temporary password next to a fresh code.
   */
  function ForgotPassword(s: Store, roleName: string, email: string, newPassword: Option<string>,
                          otp: int, now: int, hash: string -> string): (r: Reply)
    ensures ParseRole(roleName).None? ==> r == Refuse(s, 400)
    ensures (ParseRole(roleName).Some? && FindByEmail(s.Accounts(ParseRole(roleName).value), email).None?)
              ==> r == Refuse(s, 404)
    ensures r.code == 200 <==>
              && ParseRole(roleName).Some?
              && var role := ParseRole(roleName).value;
              && FindByEmail(s.Accounts(role), email).Some?
              && var a := s.Accounts(role)[FindByEmail(s.Accounts(role), email).value];
              && SaveAccount(Some(a), a.(tempPassword := newPassword, otp := Some(otp),
                                         otpExpiry := Some(now + OtpLifetime)), hash).Some?
    ensures (ParseRole(roleName).Some? && FindByEmail(s.Accounts(ParseRole(roleName).value), email).Some?
             && r.code != 200) ==> r == Refuse(s, 500)
    ensures r.code in {200, 400, 404, 500}
    ensures r.code == 200 ==>
              var role := ParseRole(roleName).value;
              var k := FindByEmail(s.Accounts(role), email).value;
              && r.store == s.PutAccount(role, k, s.Accounts(role)[k].(tempPassword := newPassword, otp := Some(otp),
                                                                     otpExpiry := Some(now + OtpLifetime)))
              && r.effects == [Send(SendOTPEmail, OtpData(email, otp))]
    ensures r.code != 200 ==> r.store == s && r.effects == []
  {
    match ParseRole(roleName)
    case None => Refuse(s, 400)
    case Some(role) =>
      var accts := s.Accounts(role);
      match FindByEmail(accts, email)
      case None => Refuse(s, 404)
      case Some(k) =>
        var a := accts[k].(tempPassword := newPassword, otp := Some(otp), otpExpiry := Some(now + OtpLifetime));
        match SaveAccount(Some(accts[k]), a, hash)
        case None => Refuse(s, 500)
        case Some(saved) => Reply(s.PutAccount(role, k, saved), 200, [Send(SendOTPEmail, OtpData(email, otp))])
  }

  /**
    `POST /auth/verify-reset-otp`. Checked in order: the role, the account, a
    pending temporary password, the code, its expiry. Success makes the
    temporary password the password (validated, then hashed) and clears the
    temporary password and the code.
   */
  function VerifyResetOtp(s: Store, roleName: string, email: string, otp: Option<int>, now: int,
                          hash: string -> string): (r: Reply)
    ensures ParseRole(roleName).None? ==> r == Refuse(s, 400)
    ensures ParseRole(roleName).Some? ==>
              var accts := s.Accounts(ParseRole(roleName).value);
              var found := FindByEmail(accts, email);
              && (found.None? ==> r == Refuse(s, 404))
              && (found.Some? && !Given(accts[found.value].tempPassword) ==> r == Refuse(s, 400))
              && ((found.Some? && Given(accts[found.value].tempPassword) && !OtpMatches(accts[found.value].otp, otp))
                    ==> r == Refuse(s, 400))
              && ((found.Some? && Given(accts[found.value].tempPassword) && OtpMatches(accts[found.value].otp, otp)
                   && Expired(accts[found.value].otpExpiry, now)) ==> r == Refuse(s, 400))
    ensures ParseRole(roleName).Some? ==>
              r.store.Accounts(ParseRole(roleName).value).Keys == s.Accounts(ParseRole(roleName).value).Keys
    ensures r.code == 200 ==>
              ParseRole(roleName).Some? && FindByEmail(s.Accounts(ParseRole(roleName).value), email).Some?
    ensures r.code == 200 ==>
              var role := ParseRole(roleName).value;
              var k := FindByEmail(s.Accounts(role), email).value;
              var a := s.Accounts(role)[k];
              && StrongPassword(a.tempPassword.value)
              && r.store.Accounts(role)[k].password
                   == (if a.tempPassword.value == a.password then a.password else hash(a.tempPassword.value))
              && r.store.Accounts(role)[k].tempPassword.None?
              && r.store.Accounts(role)[k].otp.None? && r.store.Accounts(role)[k].otpExpiry.None?
              && r.store.Accounts(role)[k].(password := a.password, tempPassword := a.tempPassword,
                                            otp := a.otp, otpExpiry := a.otpExpiry) == a
              && r.store == s.PutAccount(role, k, r.store.Accounts(role)[k])
    ensures r.code != 200 ==> r.store == s
    ensures r.effects == []
  {
    match ParseRole(roleName)
    case None => Refuse(s, 400)
    case Some(role) =>
      var accts := s.Accounts(role);
      match FindByEmail(accts, email)
      case None => Refuse(s, 404)
      case Some(k) =>
        var a := accts[k];
        if !Given(a.tempPassword) then Refuse(s, 400)
        else if !OtpMatches(a.otp, otp) then Refuse(s, 400)
        else if Expired(a.otpExpiry, now) then Refuse(s, 400)
        else
          var next := a.(password := a.tempPassword.value, tempPassword := None, otp := None, otpExpiry := None);
          match SaveAccount(Some(a), next, hash)
          case None => Refuse(s, 500)
          case Some(saved) => Reply(s.PutAccount(role, k, saved), 200, [])
  }

  /**
    Asking for a reset and entering the code in time installs the requested
    password, hashed, when it is strong; a weak one is parked without
    complaint and only refused (500) at this second step.
   */
  lemma ForgotThenVerifyReset(s: Store, roleName: string, email: string, newPassword: string,
                              otp: int, now: int, later: int, hash: string -> string)
    requires ForgotPassword(s, roleName, email, Some(newPassword), otp, now, hash).code == 200
    requires newPassword != "" && now <= later <= now + OtpLifetime
    ensures var s' := ForgotPassword(s, roleName, email, Some(newPassword), otp, now, hash).store;
            var r := VerifyResetOtp(s', roleName, email, Some(otp), later, hash);
            var role := ParseRole(roleName).value;
            var k := FindByEmail(s.Accounts(role), email).value;
            && (r.code == 200 <==> StrongPassword(newPassword))
            && (r.code == 200 && newPassword != s.Accounts(role)[k].password ==>
                  r.store.Accounts(role)[k].password == hash(newPassword))
  {
    var role := ParseRole(roleName).value;
    var m := s.Accounts(role);
    var k := FindByEmail(m, email).value;
    var a := m[k].(tempPassword := Some(newPassword), otp := Some(otp), otpExpiry := Some(now + OtpLifetime));
    ForgotStores(s, roleName, email, newPassword, otp, now, hash);
    var s' := ForgotPassword(s, roleName, email, Some(newPassword), otp, now, hash).store;
    FindAfterSameAddress(m, k, a, email);
    ResetCodeAccepts(s', role, email, k, newPassword, otp, later, hash);
  }

  /** A reset request that succeeds parks the password and a fresh code on an account whose phone passes its validator. */
  lemma ForgotStores(s: Store, roleName: string, email: string, newPassword: string, otp: int, now: int,
                     hash: string -> string)
    requires ForgotPassword(s, roleName, email, Some(newPassword), otp, now, hash).code == 200
    ensures var role := ParseRole(roleName).value;
            var m := s.Accounts(role);
            var k := FindByEmail(m, email).value;
            && role.Name() == roleName
            && PhoneOk(m[k].phone)
            && ForgotPassword(s, roleName, email, Some(newPassword), otp, now, hash).store.Accounts(role)
                 == m[k := m[k].(tempPassword := Some(newPassword), otp := Some(otp), otpExpiry := Some(now + OtpLifetime))]
  {
  }

  /**
    With a parked password and the entered code not yet expired, the
    code-confirmed reset succeeds exactly when the parked password is
    strong, and then stores its hash.
   */
  lemma ResetCodeAccepts(s: Store, role: Role, email: string, k: Id, p: string, otp: int, now: int,
                         hash: string -> string)
    requires FindByEmail(s.Accounts(role), email) == Some(k)
    requires var a := s.Accounts(role)[k];
             && a.tempPassword == Some(p) && p != "" && a.otp == Some(otp) && !Expired(a.otpExpiry, now)
             && PhoneOk(a.phone)
    ensures var r := VerifyResetOtp(s, role.Name(), email, Some(otp), now, hash);
            && (r.code == 200 <==> StrongPassword(p))
            && (r.code == 200 && p != s.Accounts(role)[k].password ==> r.store.Accounts(role)[k].password == hash(p))
  {
    assert ParseRole(role.Name()) == Some(role);
  }

  // -------------------------------------------------------- reset by token

  /** The account a reset link names: the address, the token, and an expiry still in the future. */
  predicate ResetMatch(a: Account, email: string, token: string, now: int)
  {
    a.email == Lower(email) && a.resetToken == Some(token) && a.resetExpires.Some? && a.resetExpires.value > now
  }

  /** `POST /auth/reset-password`. */
  function ResetPassword(s: Store, roleName: string, email: string, token: string, newPassword: string,
                         now: int, hash: string -> string): (r: Reply)
    ensures ParseRole(roleName).None? ==> r == Refuse(s, 400)
    ensures r.code == 200 <==>
              && ParseRole(roleName).Some?
              && var accts := s.Accounts(ParseRole(roleName).value);
              && (exists k :: k in accts && ResetMatch(accts[k], email, token, now))
              && StrongPassword(newPassword)
              && PhoneOk(accts[FirstWhere(accts, (a: Account) => ResetMatch(a, email, token, now)).value].phone)
    ensures ParseRole(roleName).Some? ==>
              r.store.Accounts(ParseRole(roleName).value).Keys == s.Accounts(ParseRole(roleName).value).Keys
    ensures r.code == 200 ==>
              var role := ParseRole(roleName).value;
              var k := FirstWhere(s.Accounts(role), (a: Account) => ResetMatch(a, email, token, now)).value;
              && r.store.Accounts(role)[k].resetToken.None? && r.store.Accounts(role)[k].resetExpires.None?
              && r.store.Accounts(role)[k].(password := s.Accounts(role)[k].password,
                                            resetToken := s.Accounts(role)[k].resetToken,
                                            resetExpires := s.Accounts(role)[k].resetExpires) == s.Accounts(role)[k]
              && r.store == s.PutAccount(role, k, r.store.Accounts(role)[k])
    ensures r.code != 200 ==> r.store == s
    ensures r.effects == []
  {
    match ParseRole(roleName)
    case None => Refuse(s, 400)
    case Some(role) =>
      var accts := s.Accounts(role);
      match FirstWhere(accts, (a: Account) => ResetMatch(a, email, token, now))
      case None => Refuse(s, 400)
      case Some(k) =>
        var next := accts[k].(password := newPassword, resetToken := None, resetExpires := None);
        match SaveAccount(Some(accts[k]), next, hash)
        case None => Refuse(s, 500)
        case Some(saved) => Reply(s.PutAccount(role, k, saved), 200, [])
  }

  // ------------------------------------------------------------ invariants

  /** No account anywhere holds a reset token. */
  predicate NoResetTokens(s: Store)
  {
    && (forall k :: k in s.users ==> s.users[k].resetToken.None?)
    && (forall k :: k in s.providers ==> s.providers[k].account.resetToken.None?)
    && (forall k :: k in s.admins ==> s.admins[k].resetToken.None?)
  }

  lemma NoResetTokensByRole(s: Store, role: Role)
    ensures NoResetTokens(s) ==> forall k :: k in s.Accounts(role) ==> s.Accounts(role)[k].resetToken.None?
    ensures (forall r: Role, k :: k in s.Accounts(r) ==> s.Accounts(r)[k].resetToken.None?) ==> NoResetTokens(s)
  {
    if forall r: Role, k :: k in s.Accounts(r) ==> s.Accounts(r)[k].resetToken.None? {
      assert forall k :: k in s.users ==> s.users[k].resetToken.None? by {
        forall k | k in s.users ensures s.users[k].resetToken.None? {
          assert k in s.Accounts(UserRole);
        }
      }
      assert forall k :: k in s.admins ==> s.admins[k].resetToken.None? by {
        forall k | k in s.admins ensures s.admins[k].resetToken.None? {
          assert k in s.Accounts(AdminRole);
        }
      }
      assert forall k :: k in s.providers ==> s.providers[k].account.resetToken.None? by {
        forall k | k in s.providers ensures s.providers[k].account.resetToken.None? {
          assert k in s.Accounts(ProviderRole);
        }
      }
    }
  }

  /**
    No route ever stores a reset token, so the token reset can never succeed:
    with no token stored, every request to it is refused with 400.
   */
  lemma TokenResetUnreachable(s: Store, roleName: string, email: string, token: string, newPassword: string,
                              now: int, hash: string -> string)
    requires NoResetTokens(s)
    ensures ResetPassword(s, roleName, email, token, newPassword, now, hash) == Refuse(s, 400)
  {
    if ParseRole(roleName).Some? {
      NoResetTokensByRole(s, ParseRole(roleName).value);
    }
  }
}

=== FILE: admin.dfy ===
/**
  The administrator's routes: the provider and service listings and
  counters, the provider approval decision, the service verdict (which,
  unlike the service router's, keeps a rejected listing), and the admin's
  own profile. Every route but the profile refuses a non-admin with 403.
 */
module Admin {
  import opened Common
  import opened Text
  import opened Schema
  import opened Store
  import opened Mail
  import opened Replies
  import opened Services

  // ---------------------------------------------------------------- listings

  /** The identifiers of a set, newest first (`sort({ createdAt: -1 })`). */
  function NewestOf(ids: set<Id>): (r: seq<Id>)
    ensures forall k :: k in r <==> k in ids
    ensures forall i, j :: 0 <= i < j < |r| ==> r[i] > r[j]
    ensures |r| == |ids|
  {
    Reversed(Ascending(ids))
  }

  datatype Listing = Listing(code: int, ids: seq<Id>)

  /** The providers whose account approval is `a`. */
  function WithApproval(s: Store, a: Approval): (r: set<Id>)
    ensures r <= s.providers.Keys
    ensures forall k :: k in r <==> k in s.providers && s.providers[k].approval == a
  {
    set k | k in s.providers && s.providers[k].approval == a
  }

  /** The services whose status is `status`. */
  function WithStatus(s: Store, status: string): (r: set<Id>)
    ensures r <= s.services.Keys
    ensures forall k :: k in r <==> k in s.services && s.services[k].status == status
  {
    set k | k in s.services && s.services[k].status == status
  }

  /** `GET /pending-providers`, `/approved-providers`, `/rejected-providers`. */
  function ProvidersWith(s: Store, caller: Caller, a: Approval): (r: Listing)
    ensures caller.role != AdminRole ==> r == Listing(403, [])
    ensures caller.role == AdminRole ==>
              && r.code == 200
              && (forall k :: k in r.ids <==> k in s.providers && s.providers[k].approval == a)
              && (forall i, j :: 0 <= i < j < |r.ids| ==> r.ids[i] > r.ids[j])
  {
    if caller.role != AdminRole then Listing(403, [])
    else Listing(200, NewestOf(WithApproval(s, a)))
  }

  /** `GET /pending-services`, `/approved-services`, `/rejected-services`. */
  function ServicesWith(s: Store, caller: Caller, status: string): (r: Listing)
    ensures caller.role != AdminRole ==> r == Listing(403, [])
    ensures caller.role == AdminRole ==>
              && r.code == 200
              && (forall k :: k in r.ids <==> k in s.services && s.services[k].status == status)
              && (forall i, j :: 0 <= i < j < |r.ids| ==> r.ids[i] > r.ids[j])
  {
    if caller.role != AdminRole then Listing(403, [])
    else Listing(200, NewestOf(WithStatus(s, status)))
  }

  datatype Stats = Stats(
    totalProviders: nat, approvedProviders: nat, pendingProviders: nat,
    totalServices: nat, approvedServices: nat, pendingServices: nat,
    totalUsers: nat, totalAdmins: nat)

  lemma {:induction false} SubsetSize(a: set<Id>, b: set<Id>)
    requires a <= b
    ensures |a| <= |b|
    decreases |b|
  {
    if a != {} {
      var x :| x in a;
      SubsetSize(a - {x}, b - {x});
    }
  }

  /** `GET /stats`: `None` is the 403 for a non-admin. */
  function AdminStats(s: Store, caller: Caller): (r: Option<Stats>)
    ensures r.None? <==> caller.role != AdminRole
    ensures r.Some? ==> r.value.totalProviders == |s.providers| && r.value.totalServices == |s.services|
                        && r.value.totalUsers == |s.users| && r.value.totalAdmins == |s.admins|
    ensures r.Some? ==> r.value.approvedProviders == |WithApproval(s, Approved)|
                        && r.value.pendingProviders == |WithApproval(s, Pending)|
    ensures r.Some? ==> r.value.approvedServices == |WithStatus(s, "approved")|
                        && r.value.pendingServices == |WithStatus(s, "pending")|
    ensures r.Some? ==> r.value.approvedProviders + r.value.pendingProviders <= r.value.totalProviders
    ensures r.Some? ==> r.value.approvedServices + r.value.pendingServices <= r.value.totalServices
  {
    if caller.role != AdminRole then None
    else
      var approvedP := WithApproval(s, Approved);
      var pendingP := WithApproval(s, Pending);
      var approvedS := WithStatus(s, "approved");
      var pendingS := WithStatus(s, "pending");
      assert approvedP !! pendingP && approvedP + pendingP <= s.providers.Keys;
      assert approvedS !! pendingS && approvedS + pendingS <= s.services.Keys;
      SubsetSize(approvedP + pendingP, s.providers.Keys);
      SubsetSize(approvedS + pendingS, s.services.Keys);
      Some(Stats(|s.providers|, |approvedP|, |pendingP|, |s.services|, |approvedS|, |pendingS|, |s.users|, |s.admins|))
  }

  /** The counters agree with the listings: each count is the length of the matching list. */
  lemma StatsMatchListings(s: Store, caller: Caller)
    requires caller.role == AdminRole
    ensures |ProvidersWith(s, caller, Approved).ids| == AdminStats(s, caller).value.approvedProviders
    ensures |ProvidersWith(s, caller, Pending).ids| == AdminStats(s, caller).value.pendingProviders
    ensures |ServicesWith(s, caller, "approved").ids| == AdminStats(s, caller).value.approvedServices
    ensures |ServicesWith(s, caller, "pending").ids| == AdminStats(s, caller).value.pendingServices
  {
  }

  // ------------------------------------------------------- provider approval

  /** `adminNotes || ''`. */
  function NotesOrEmpty(notes: Option<string>): (r: string)
    ensures Given(notes) ==> r == notes.value
    ensures !Given(notes) ==> r == ""
  {
    if Given(notes) then notes.value else ""
  }

  /**
    `PUT /providers/:id/approve` (`approve`) and `PUT /providers/:id/reject`.
    403 for a non-admin, 404 for an unknown provider; the save re-validates
    the stored account (500). Approval sets both approval fields to approved,
    rejection to rejected; the notes are stored (empty when absent) and the
    provider is e-mailed them.
   */
  function DecideProvider(s: Store, caller: Caller, id: Id, notes: Option<string>, approve: bool,
                          hash: string -> string): (r: Reply)
    ensures caller.role != AdminRole ==> r == Refuse(s, 403)
    ensures caller.role == AdminRole && id !in s.providers ==> r == Refuse(s, 404)
    ensures r.code == 200 <==>
              caller.role == AdminRole && id in s.providers && SaveAccount(Some(s.providers[id].account),
                                                                           s.providers[id].account, hash).Some?
    ensures r.code == 200 ==>
              var p := s.providers[id];
              && r.store == s.(providers := s.providers[id := p.(isApproved := approve,
                                                                 approval := if approve then Approved else Rejected,
                                                                 adminNotes := Some(NotesOrEmpty(notes)))])
              && r.effects == [Send(if approve then SendApprovalEmail else SendRejectionEmail,
                                    AccountNotes(p.account.email, p.account.name, Some(NotesOrEmpty(notes))))]
    ensures r.code != 200 ==> r.store == s && r.effects == []
  {
    if caller.role != AdminRole then Refuse(s, 403)
    else if id !in s.providers then Refuse(s, 404)
    else
      var p := s.providers[id];
      match SaveAccount(Some(p.account), p.account, hash)
      case None => Refuse(s, 500)
      case Some(saved) =>
        var n := NotesOrEmpty(notes);
        var p' := p.(account := saved, isApproved := approve, approval := if approve then Approved else Rejected,
                     adminNotes := Some(n));
        Reply(s.(providers := s.providers[id := p']), 200,
              [Send(if approve then SendApprovalEmail else SendRejectionEmail, AccountNotes(p.account.email, p.account.name, Some(n)))])
  }

  /** `isApproved` says exactly whether the approval status is approved, for every provider. */
  predicate ApprovalsConsistent(s: Store)
  {
    forall k :: k in s.providers ==> (s.providers[k].isApproved <==> s.providers[k].approval == Approved)
  }

  /** The approval decision keeps the two approval fields in agreement, whatever they were before. */
  lemma DecideKeepsConsistent(s: Store, caller: Caller, id: Id, notes: Option<string>, approve: bool,
                              hash: string -> string)
    requires ApprovalsConsistent(s)
    ensures ApprovalsConsistent(DecideProvider(s, caller, id, notes, approve, hash).store)
    ensures DecideProvider(s, caller, id, notes, approve, hash).code == 200 ==>
              var p := DecideProvider(s, caller, id, notes, approve, hash).store.providers[id];
              p.isApproved == approve && p.isApproved == (p.approval == Approved)
  {
  }

  // ----------------------------------------------------------- service verdict

  /** The listing as the verdict writes it: the status, and the notes (empty when absent). */
  function WithVerdict(svc: Service, status: string, notes: Option<string>): (r: Service)
    ensures r.status == status && r.adminNotes == Some(NotesOrEmpty(notes))
    ensures r.(status := svc.status, adminNotes := svc.adminNotes) == svc
  {
    svc.(status := status, adminNotes := Some(NotesOrEmpty(notes)))
  }

  /**
    `PATCH /services/:id/status` on the admin router. 403 for a non-admin,
    then 404 for an unknown listing, then 400 unless the status is approved
    or rejected (the lookup comes before the status check here). The listing
    keeps its record either way: status and notes (empty when absent) are
    written through the schema's validators (500). The provider is then
    e-mailed; when the provider document is gone that step throws, so the
    verdict is stored but the answer is 500.
   */
  function ServiceVerdict(s: Store, caller: Caller, id: Id, status: Option<string>, notes: Option<string>): (r: Reply)
    ensures caller.role != AdminRole ==> r == Refuse(s, 403)
    ensures caller.role == AdminRole && id !in s.services ==> r == Refuse(s, 404)
    ensures (caller.role == AdminRole && id in s.services && (status.None? || status.value !in Verdicts))
              ==> r == Refuse(s, 400)
    ensures r.code == 200 <==>
              && caller.role == AdminRole && id in s.services && status.Some? && status.value in Verdicts
              && ValidService(WithVerdict(s.services[id], status.value, notes))
              && s.services[id].provider in s.providers
    ensures (caller.role == AdminRole && id in s.services && status.Some? && status.value in Verdicts) ==>
              var svc' := WithVerdict(s.services[id], status.value, notes);
              && (!ValidService(svc') ==> r == Refuse(s, 500))
              && (ValidService(svc') ==> r.store == s.(services := s.services[id := svc']))
              && (ValidService(svc') && s.services[id].provider !in s.providers ==> r.code == 500)
    ensures r.code in {200, 400, 403, 404, 500}
    ensures r.code == 200 || r.store != s ==>
              && caller.role == AdminRole && id in s.services && status.Some? && status.value in Verdicts
              && r.store == s.(services := s.services[id := WithVerdict(s.services[id], status.value, notes)])
              && ValidService(r.store.services[id])
    ensures r.code == 200 ==>
              var svc := s.services[id];
              var a := s.providers[svc.provider].account;
              r.effects == [Send(if status.value == "approved" then SendServiceApprovalEmail else SendServiceRejectionEmail,
                                 ServiceNotes(a.email, a.name, svc.name, Some(NotesOrEmpty(notes))))]
    ensures r.code != 200 ==> r.effects == []
  {
    if caller.role != AdminRole then Refuse(s, 403)
    else if id !in s.services then Refuse(s, 404)
    else if status.None? || status.value !in Verdicts then Refuse(s, 400)
    else
      var svc := s.services[id];
      var svc' := WithVerdict(svc, status.value, notes);
      if !ValidService(svc') then Refuse(s, 500)
      else
        var saved := s.(services := s.services[id := svc']);
        if svc.provider !in s.providers then Reply(saved, 500, [])
        else
          var a := s.providers[svc.provider].account;
          Reply(saved, 200, [Send(if status.value == "approved" then SendServiceApprovalEmail else SendServiceRejectionEmail,
                                  ServiceNotes(a.email, a.name, svc.name, Some(NotesOrEmpty(notes))))])
  }

  /**
    The two rejection routes disagree: the admin router keeps the listing as
    rejected, the service router deletes it.
   */
  lemma RejectionRoutesDisagree(s: Store, caller: Caller, id: Id, notes: Option<string>)
    requires ServiceVerdict(s, caller, id, Some("rejected"), notes).code == 200
    ensures var kept := ServiceVerdict(s, caller, id, Some("rejected"), notes).store;
            id in kept.services && kept.services[id].status == "rejected"
    ensures PatchStatus(s, caller, id, Some("rejected"), notes).code == 200
    ensures id !in PatchStatus(s, caller, id, Some("rejected"), notes).store.services
  {
  }

  /** Neither verdict touches a provider's list of listings. */
  lemma VerdictKeepsTracked(s: Store, caller: Caller, id: Id, status: Option<string>, notes: Option<string>)
    requires ServicesTracked(s)
    ensures ServicesTracked(ServiceVerdict(s, caller, id, status, notes).store)
  {
    var r := ServiceVerdict(s, caller, id, status, notes);
    if r.store != s {
      assert r.store.providers == s.providers;
      assert r.store.services.Keys == s.services.Keys;
      assert forall k :: k in s.services ==> r.store.services[k].provider == s.services[k].provider;
    }
  }

  // --------------------------------------------------------------- profile

  /** No two accounts of one collection share an address (the unique index). */
  predicate UniqueEmails(m: map<Id, Account>)
  {
    forall j, k :: j in m && k in m && j != k ==> m[j].email != m[k].email
  }

  /** Another account than `self` already holds the (lower-cased) address. */
  predicate HeldByOther(m: map<Id, Account>, email: string, self: Id)
  {
    exists k :: k in m && k != self && m[k].email == Lower(email)
  }

  /**
    `PUT /profile` on the admin router (any logged-in caller reaches it; it
    only finds admins). Both fields are required (400); the update runs the
    validators of the two fields it writes (500), finds the caller among the
    admins (404) and is refused by the unique index when another admin holds
    the address (400). The name is stored trimmed, the address lower-cased.
   */
  function UpdateAdminProfile(s: Store, caller: Caller, name: Option<string>, email: Option<string>,
                              emailShape: string -> bool): (r: Reply)
    ensures !Given(name) || !Given(email) ==> r == Refuse(s, 400)
    ensures r.code == 200 <==>
              && Given(name) && Given(email) && Trim(name.value) != "" && emailShape(Lower(email.value))
              && caller.id in s.admins && !HeldByOther(s.admins, email.value, caller.id)
    ensures r.code == 200 ==>
              r.store == s.(admins := s.admins[caller.id := s.admins[caller.id].(name := Trim(name.value),
                                                                                email := Lower(email.value))])
    ensures r.code != 200 ==> r.store == s
    ensures r.effects == []
  {
    if !Given(name) || !Given(email) then Refuse(s, 400)
    else if Trim(name.value) == "" || !emailShape(Lower(email.value)) then Refuse(s, 500)
    else if caller.id !in s.admins then Refuse(s, 404)
    else if HeldByOther(s.admins, email.value, caller.id) then Refuse(s, 400)
    else
      var a := s.admins[caller.id].(name := Trim(name.value), email := Lower(email.value));
      Reply(s.(admins := s.admins[caller.id := a]), 200, [])
  }

  /** A profile update never lets two admins share an address. */
  lemma AdminProfileKeepsUniqueEmails(s: Store, caller: Caller, name: Option<string>, email: Option<string>,
                                      emailShape: string -> bool)
    requires UniqueEmails(s.admins)
    ensures UniqueEmails(UpdateAdminProfile(s, caller, name, email, emailShape).store.admins)
  {
  }
}

=== FILE: booking_status.dfy ===
/**
  The provider/admin status routes for bookings: the single-booking route and
  its bulk variant share one per-booking step. Neither looks at the current
  status: any of the five targets may follow any status.
 */
module BookingStatus {
  import opened Common
  import opened Text
  import opened Schema
  import opened Store
  import opened Mail
  import opened Replies

  /** The targets both status routes accept. */
  const Targets: seq<string> := ["approved", "rejected", "scheduled", "in_progress", "completed"]

  const DefaultRejectionNotes: string := "No additional notes provided."

  /** The e-mail kind a target announces. */
  function KindFor(target: string): (k: Option<EmailKind>)
    ensures k.Some? <==> target in Targets
  {
    if target == "approved" then Some(BookingApproval)
    else if target == "rejected" then Some(BookingRejection)
    else if target == "scheduled" then Some(BookingScheduled)
    else if target == "in_progress" then Some(BookingInProgress)
    else if target == "completed" then Some(BookingCompleted)
    else None
  }

  /** The text of the approval e-mail: the provider's notes are appended when given. */
  function ApprovalMessage(notes: Option<string>): (m: string)
    ensures Given(notes) ==> m == "Your booking has been approved. Notes from provider: " + notes.value
    ensures !Given(notes) ==> m == "Your booking has been approved."
  {
    if Given(notes) then "Your booking has been approved. Notes from provider: " + notes.value
    else "Your booking has been approved."
  }

  /** Whether the user and the service a booking refers to both still exist (so populating them succeeds). */
  predicate Parties(s: Store, id: Id)
    requires id in s.bookings
  {
    s.bookings[id].user in s.users && s.bookings[id].service in s.services
  }

  /** The e-mail announcing a non-rejecting target. */
  function StatusEmail(s: Store, id: Id, target: string, notes: Option<string>): (e: EmailRequest)
    requires id in s.bookings && Parties(s, id)
    requires target in Targets && target != "rejected"
    ensures e.data.email == s.users[s.bookings[id].user].email
  {
    var b := s.bookings[id];
    var u := s.users[b.user];
    var svc := s.services[b.service];
    var kind := KindFor(target).value.TypeName();
    if target == "approved" then
      EmailRequest(kind, ServiceNotes(u.email, u.name, svc.name, Some(ApprovalMessage(notes))))
    else if target == "scheduled" then
      EmailRequest(kind, SlotData(u.email, u.name, svc.name, b.date, b.time))
    else if target == "in_progress" then
      EmailRequest(kind, PlainData(u.email, u.name, svc.name))
    else
      EmailRequest(kind, RefData(u.email, u.name, svc.name, id))
  }

  /** The e-mail for a non-rejecting target is of the kind that target names. */
  lemma StatusEmailKind(s: Store, id: Id, target: string, notes: Option<string>)
    requires id in s.bookings && Parties(s, id)
    requires target in Targets && target != "rejected"
    ensures ParseType(StatusEmail(s, id, target, notes).kind) == KindFor(target)
  {
  }

  /** The e-mail announcing a rejection; absent or empty notes get the default text. */
  function RejectionEmail(s: Store, id: Id, notes: Option<string>): (e: EmailRequest)
    requires id in s.bookings && Parties(s, id)
    ensures e.kind == "booking_rejection"
    ensures e.data.ServiceNotes? && e.data.notes == Some(if Given(notes) then notes.value else DefaultRejectionNotes)
  {
    var b := s.bookings[id];
    var u := s.users[b.user];
    EmailRequest("booking_rejection",
                 ServiceNotes(u.email, u.name, s.services[b.service].name,
                              Some(if Given(notes) then notes.value else DefaultRejectionNotes)))
  }

  datatype Applied = Applied(store: Store, effects: seq<Effect>)

  /**
    The step both routes take for one booking once access is granted. A
    rejection needs the user and the service to build its e-mail (otherwise
    the request fails before anything is written), queues it and deletes the
    booking. Any other target writes the status, and the notes when they are
    non-empty; its e-mail is skipped when the user or the service is gone,
    and a notification is queued either way.
   */
  function ApplyStatus(s: Store, id: Id, target: string, notes: Option<string>): (r: Option<Applied>)
    requires id in s.bookings && target in Targets
    ensures r.None? <==> target == "rejected" && !Parties(s, id)
    ensures r.Some? ==> r.value.store == s.(bookings := r.value.store.bookings)
    ensures r.Some? && target == "rejected" ==>
              && r.value.store.bookings == s.bookings - {id}
              && r.value.effects == [Enqueue(RejectionEmail(s, id, notes))]
    ensures r.Some? && target != "rejected" ==> id in r.value.store.bookings
    ensures r.Some? && target != "rejected" ==>
              var b := r.value.store.bookings[id];
              && r.value.store.bookings == s.bookings[id := b]
              && b.status == target
              && b.notes == (if Given(notes) then notes else s.bookings[id].notes)
              && b.(status := s.bookings[id].status, notes := s.bookings[id].notes) == s.bookings[id]
              && r.value.effects == (if Parties(s, id) then [Enqueue(StatusEmail(s, id, target, notes))] else [])
                                    + [Notify(Notice("booking_status_update", id))]
  {
    var b := s.bookings[id];
    if target == "rejected" then
      if !Parties(s, id) then None
      else Some(Applied(s.(bookings := s.bookings - {id}), [Enqueue(RejectionEmail(s, id, notes))]))
    else
      var b' := b.(status := target, notes := if Given(notes) then notes else b.notes);
      var email := if Parties(s, id) then [Enqueue(StatusEmail(s, id, target, notes))] else [];
      Some(Applied(s.(bookings := s.bookings[id := b']), email + [Notify(Notice("booking_status_update", id))]))
  }

  /** Whether the caller may change a booking: an admin, or the booking's provider. */
  predicate MayChange(s: Store, caller: Caller, id: Id)
    requires id in s.bookings
  {
    caller.role == AdminRole || s.bookings[id].provider == caller.id
  }

  /** `PUT /bookings/:id/status`. */
  function UpdateStatus(s: Store, caller: Caller, id: Id, target: string, notes: Option<string>): (r: Reply)
    ensures target !in Targets ==> r == Refuse(s, 400)
    ensures target in Targets && id !in s.bookings ==> r == Refuse(s, 404)
    ensures target in Targets && id in s.bookings && !MayChange(s, caller, id) ==> r == Refuse(s, 403)
    ensures r.code == 200 <==> target in Targets && id in s.bookings && MayChange(s, caller, id)
                               && ApplyStatus(s, id, target, notes).Some?
    ensures r.code == 200 ==> r.store == ApplyStatus(s, id, target, notes).value.store
                              && r.effects == ApplyStatus(s, id, target, notes).value.effects
    ensures r.code != 200 ==> r.store == s && r.effects == []
  {
    if target !in Targets then Refuse(s, 400)
    else if id !in s.bookings then Refuse(s, 404)
    else if !MayChange(s, caller, id) then Refuse(s, 403)
    else match ApplyStatus(s, id, target, notes)
      case None => Refuse(s, 500)
      case Some(a) => Reply(a.store, 200, a.effects)
  }

  /**
    The route never consults the current status: an admin can move any
    booking to any non-rejecting target, e.g. from `completed` back to
    `approved`, and every other field is kept.
   */
  lemma NoTransitionGraph(s: Store, caller: Caller, id: Id, target: string, notes: Option<string>)
    requires id in s.bookings && MayChange(s, caller, id)
    requires target in Targets && target != "rejected"
    ensures var r := UpdateStatus(s, caller, id, target, notes);
            && r.code == 200 && id in r.store.bookings
            && r.store.bookings[id].status == target
            && r.store.bookings[id].price == s.bookings[id].price
            && r.store.bookings[id].paymentStatus == s.bookings[id].paymentStatus
            && r.store.bookings[id].reviews == s.bookings[id].reviews
  {
  }

  /**
    Each target announces itself with its own e-mail kind, one the direct-send
    fallback also covers; a rejection queues exactly one e-mail and no
    notification.
   */
  lemma EmailKindFollowsTarget(s: Store, caller: Caller, id: Id, target: string, notes: Option<string>)
    requires UpdateStatus(s, caller, id, target, notes).code == 200
    ensures var r := UpdateStatus(s, caller, id, target, notes);
            && |r.effects| >= 1
            && (target == "rejected" ==> |r.effects| == 1 && id !in r.store.bookings)
            && (Parties(s, id) ==> r.effects[0].Enqueue?
                                   && ParseType(r.effects[0].request.kind) == KindFor(target)
                                   && r.effects[0].request.kind in FallbackTypes)
  {
    if UpdateStatus(s, caller, id, target, notes).code == 200 {
      AppliedEmail(s, id, target, notes);
    }
  }

  /** The effects of one status step: its e-mail comes first, of the kind the target names. */
  lemma AppliedEmail(s: Store, id: Id, target: string, notes: Option<string>)
    requires id in s.bookings && target in Targets && ApplyStatus(s, id, target, notes).Some?
    ensures var a := ApplyStatus(s, id, target, notes).value;
            && |a.effects| >= 1
            && (target == "rejected" ==> |a.effects| == 1 && id !in a.store.bookings)
            && (Parties(s, id) ==> a.effects[0].Enqueue?
                                   && ParseType(a.effects[0].request.kind) == KindFor(target)
                                   && a.effects[0].request.kind in FallbackTypes)
  {
    var a := ApplyStatus(s, id, target, notes).value;
    var k := KindFor(target).value;
    FallbackCoverage(k);
    if target == "rejected" {
      assert a.effects[0].request.kind == k.TypeName();
    } else if Parties(s, id) {
      assert a.effects[0] == Enqueue(StatusEmail(s, id, target, notes));
      StatusEmailKind(s, id, target, notes);
    }
  }

  // ----------------------------------------------------------------- bulk

  datatype Outcome = Outcome(store: Store, failed: bool, effects: seq<Effect>, updated: seq<Id>, rejected: seq<Id>)

  /** The per-booking loop of the bulk route; a failing step ends the request with what was done so far. */
  function BulkRun(s: Store, todo: seq<Id>, target: string, notes: Option<string>): (r: Outcome)
    requires target in Targets && StrictlyAscending(todo)
    requires forall i :: 0 <= i < |todo| ==> todo[i] in s.bookings
    ensures r.store == s.(bookings := r.store.bookings)
    ensures !r.failed ==> |r.updated| + |r.rejected| == |todo|
    ensures !r.failed && target == "rejected" ==>
              && r.rejected == todo && r.updated == []
              && (forall k :: k in r.store.bookings <==> k in s.bookings && k !in todo)
              && (forall k :: k in r.store.bookings ==> r.store.bookings[k] == s.bookings[k])
    ensures target != "rejected" ==>
              && r.updated == todo && r.rejected == []
              && r.store.bookings.Keys == s.bookings.Keys
              && (forall k :: k in todo ==> r.store.bookings[k].status == target)
              && (forall k :: k in s.bookings && k !in todo ==> r.store.bookings[k] == s.bookings[k])
    decreases |todo|
  {
    if todo == [] then Outcome(s, false, [], [], [])
    else
      var k := todo[0];
      match ApplyStatus(s, k, target, notes)
      case None => Outcome(s, true, [], [], [])
      case Some(a) =>
        StepKeepsRest(s, todo, target, notes, a);
        var rest := BulkRun(a.store, todo[1..], target, notes);
        if target == "rejected" then
          StepRejects(s, todo, a, rest);
          Outcome(rest.store, rest.failed, a.effects + rest.effects, rest.updated, [k] + rest.rejected)
        else
          StepUpdates(s, todo, target, a, rest);
          Outcome(rest.store, rest.failed, a.effects + rest.effects, [k] + rest.updated, rest.rejected)
  }

  /** A rejection of the first booking followed by the rest of the loop deletes exactly the bookings done. */
  lemma StepRejects(s: Store, todo: seq<Id>, a: Applied, rest: Outcome)
    requires StrictlyAscending(todo) && todo != [] && todo[0] in s.bookings
    requires a.store.bookings == s.bookings - {todo[0]}
    requires !rest.failed ==> rest.rejected == todo[1..]
    requires !rest.failed ==> forall k :: k in rest.store.bookings <==> k in a.store.bookings && k !in todo[1..]
    requires !rest.failed ==> forall k :: k in rest.store.bookings ==> rest.store.bookings[k] == a.store.bookings[k]
    ensures !rest.failed ==> [todo[0]] + rest.rejected == todo
    ensures !rest.failed ==> forall k :: k in rest.store.bookings <==> k in s.bookings && k !in todo
    ensures !rest.failed ==> forall k :: k in rest.store.bookings ==> rest.store.bookings[k] == s.bookings[k]
  {
    if !rest.failed {
      assert todo == [todo[0]] + todo[1..];
      assert forall k :: k in todo <==> k == todo[0] || k in todo[1..];
    }
  }

  /** Another target on the first booking followed by the rest of the loop sets it on exactly the bookings done. */
  lemma StepUpdates(s: Store, todo: seq<Id>, target: string, a: Applied, rest: Outcome)
    requires target in Targets && target != "rejected"
    requires StrictlyAscending(todo) && todo != [] && forall i :: 0 <= i < |todo| ==> todo[i] in s.bookings
    requires todo[0] in a.store.bookings && a.store.bookings == s.bookings[todo[0] := a.store.bookings[todo[0]]]
    requires a.store.bookings[todo[0]].status == target
    requires rest.updated == todo[1..]
    requires rest.store.bookings.Keys == a.store.bookings.Keys
    requires forall k :: k in todo[1..] ==> k in rest.store.bookings && rest.store.bookings[k].status == target
    requires forall k :: k in a.store.bookings && k !in todo[1..] ==> rest.store.bookings[k] == a.store.bookings[k]
    ensures [todo[0]] + rest.updated == todo
    ensures rest.store.bookings.Keys == s.bookings.Keys
    ensures forall k :: k in todo ==> rest.store.bookings[k].status == target
    ensures forall k :: k in s.bookings && k !in todo ==> rest.store.bookings[k] == s.bookings[k]
  {
    var tail := todo[1..];
    assert todo == [todo[0]] + tail;
    assert todo[0] !in tail by {
      assert forall i :: 0 <= i < |tail| ==> tail[i] == todo[i + 1] > todo[0];
    }
    forall k | k in todo
      ensures rest.store.bookings[k].status == target
    {
      if k != todo[0] {
        assert k in tail;
      }
    }
    forall k | k in s.bookings && k !in todo
      ensures rest.store.bookings[k] == s.bookings[k]
    {
      assert k !in tail && k != todo[0];
    }
  }

  /** One step of the loop leaves the bookings still to do, and what they refer to, as they were. */
  lemma StepKeepsRest(s: Store, todo: seq<Id>, target: string, notes: Option<string>, a: Applied)
    requires target in Targets && StrictlyAscending(todo) && todo != []
    requires forall i :: 0 <= i < |todo| ==> todo[i] in s.bookings
    requires ApplyStatus(s, todo[0], target, notes) == Some(a)
    ensures StrictlyAscending(todo[1..])
    ensures forall i :: 0 <= i < |todo[1..]| ==> todo[1..][i] in a.store.bookings
    ensures forall i :: 0 <= i < |todo[1..]| ==> a.store.bookings[todo[1..][i]] == s.bookings[todo[1..][i]]
    ensures Parties(s, todo[0]) || target != "rejected"
  {
    assert forall i :: 1 <= i < |todo| ==> todo[0] < todo[i];
  }

  /**
    The loop fails exactly when it rejects and meets a booking whose user or
    service is gone; an update to any other target never fails.
   */
  lemma BulkRunFails(s: Store, todo: seq<Id>, target: string, notes: Option<string>)
    requires target in Targets && StrictlyAscending(todo)
    requires forall i :: 0 <= i < |todo| ==> todo[i] in s.bookings
    ensures BulkRun(s, todo, target, notes).failed <==>
              target == "rejected" && exists i :: 0 <= i < |todo| && !Parties(s, todo[i])
  {
    OrphanExists(s, todo);
    if target == "rejected" {
      RejectionFails(s, todo, notes);
    } else {
      BulkRunUpdates(s, todo, target, notes);
    }
  }

  /** The first orphan falls inside the list exactly when some booking of it has lost its user or service. */
  lemma OrphanExists(s: Store, todo: seq<Id>)
    requires forall i :: 0 <= i < |todo| ==> todo[i] in s.bookings
    ensures FirstOrphan(s, todo) < |todo| <==> exists i :: 0 <= i < |todo| && !Parties(s, todo[i])
  {
    if FirstOrphan(s, todo) < |todo| {
      assert !Parties(s, todo[FirstOrphan(s, todo)]);
    }
  }

  /** The position of the first booking whose user or service is gone, or the length when there is none. */
  function FirstOrphan(s: Store, todo: seq<Id>): (f: nat)
    requires forall i :: 0 <= i < |todo| ==> todo[i] in s.bookings
    ensures f <= |todo|
    ensures forall i :: 0 <= i < f ==> Parties(s, todo[i])
    ensures f < |todo| ==> !Parties(s, todo[f])
    decreases |todo|
  {
    if todo == [] || !Parties(s, todo[0]) then 0 else 1 + FirstOrphan(s, todo[1..])
  }

  /** The rejection e-mails of the bookings before the first orphan of `todo`, in order. */
  function RejectionEmails(s: Store, todo: seq<Id>, notes: Option<string>): seq<Effect>
    requires forall i :: 0 <= i < |todo| ==> todo[i] in s.bookings
    decreases |todo|
  {
    if todo == [] || !Parties(s, todo[0]) then []
    else [Enqueue(RejectionEmail(s, todo[0], notes))] + RejectionEmails(s, todo[1..], notes)
  }

  /** There is one rejection e-mail per booking before the first orphan, each for that booking. */
  lemma {:induction false} RejectionEmailsAt(s: Store, todo: seq<Id>, notes: Option<string>)
    requires forall i :: 0 <= i < |todo| ==> todo[i] in s.bookings
    ensures |RejectionEmails(s, todo, notes)| == FirstOrphan(s, todo)
    ensures forall i :: 0 <= i < FirstOrphan(s, todo) ==>
              RejectionEmails(s, todo, notes)[i] == Enqueue(RejectionEmail(s, todo[i], notes))
    decreases |todo|
  {
    if todo != [] && Parties(s, todo[0]) {
      RejectionEmailsAt(s, todo[1..], notes);
    }
  }

  /**
    For each booking of `todo`, in order, what an update to `target`
    produces: the e-mail when its user and service exist, then the
    notification.
   */
  function UpdateEffects(s: Store, todo: seq<Id>, target: string, notes: Option<string>): seq<Effect>
    requires target in Targets && target != "rejected"
    requires forall i :: 0 <= i < |todo| ==> todo[i] in s.bookings
    decreases |todo|
  {
    if todo == [] then []
    else
      var id := todo[0];
      (if Parties(s, id) then [Enqueue(StatusEmail(s, id, target, notes))] else [])
      + [Notify(Notice("booking_status_update", id))]
      + UpdateEffects(s, todo[1..], target, notes)
  }

  /** A store that differs only in bookings the list does not reach has the same first orphan. */
  lemma {:induction false} OrphanFrame(s: Store, s': Store, todo: seq<Id>)
    requires s' == s.(bookings := s'.bookings)
    requires forall i :: 0 <= i < |todo| ==> todo[i] in s.bookings && todo[i] in s'.bookings
                                             && s'.bookings[todo[i]] == s.bookings[todo[i]]
    ensures forall i :: 0 <= i < |todo| ==> Parties(s', todo[i]) == Parties(s, todo[i])
    ensures FirstOrphan(s', todo) == FirstOrphan(s, todo)
    decreases |todo|
  {
    if todo != [] {
      OrphanFrame(s, s', todo[1..]);
    }
  }

  /** ... and the same rejection e-mails. */
  lemma {:induction false} RejectionEmailsFrame(s: Store, s': Store, todo: seq<Id>, notes: Option<string>)
    requires s' == s.(bookings := s'.bookings)
    requires forall i :: 0 <= i < |todo| ==> todo[i] in s.bookings && todo[i] in s'.bookings
                                             && s'.bookings[todo[i]] == s.bookings[todo[i]]
    ensures RejectionEmails(s', todo, notes) == RejectionEmails(s, todo, notes)
    decreases |todo|
  {
    if todo != [] && Parties(s, todo[0]) {
      RejectionEmailsFrame(s, s', todo[1..], notes);
      assert RejectionEmail(s', todo[0], notes) == RejectionEmail(s, todo[0], notes);
    }
  }

  /** ... and the same update effects. */
  lemma {:induction false} UpdateEffectsFrame(s: Store, s': Store, todo: seq<Id>, target: string, notes: Option<string>)
    requires s' == s.(bookings := s'.bookings) && target in Targets && target != "rejected"
    requires forall i :: 0 <= i < |todo| ==> todo[i] in s.bookings && todo[i] in s'.bookings
                                             && s'.bookings[todo[i]] == s.bookings[todo[i]]
    ensures UpdateEffects(s', todo, target, notes) == UpdateEffects(s, todo, target, notes)
    decreases |todo|
  {
    if todo != [] {
      UpdateEffectsFrame(s, s', todo[1..], target, notes);
      if Parties(s, todo[0]) {
        assert StatusEmail(s', todo[0], target, notes) == StatusEmail(s, todo[0], target, notes);
      }
    }
  }

  /**
    A bulk rejection deletes the bookings before the first one whose user or
    service is gone, queues their rejection e-mails in order, and stops
    there: those deletions and e-mails stay, and nothing else changes.
   */
  lemma BulkRunRejects(s: Store, todo: seq<Id>, notes: Option<string>)
    requires StrictlyAscending(todo)
    requires forall i :: 0 <= i < |todo| ==> todo[i] in s.bookings
    ensures var r := BulkRun(s, todo, "rejected", notes);
            var f := FirstOrphan(s, todo);
            && (r.failed <==> f < |todo|)
            && r.effects == RejectionEmails(s, todo, notes)
            && (forall k :: k in r.store.bookings <==> k in s.bookings && k !in todo[..f])
            && (forall k :: k in r.store.bookings ==> r.store.bookings[k] == s.bookings[k])
  {
    RejectionFails(s, todo, notes);
    RejectionEffects(s, todo, notes);
    RejectionDeletes(s, todo, notes);
  }

  /** A bulk rejection fails exactly when some booking of it has lost its user or service. */
  lemma {:induction false} RejectionFails(s: Store, todo: seq<Id>, notes: Option<string>)
    requires StrictlyAscending(todo)
    requires forall i :: 0 <= i < |todo| ==> todo[i] in s.bookings
    ensures BulkRun(s, todo, "rejected", notes).failed <==> FirstOrphan(s, todo) < |todo|
    decreases |todo|
  {
    if todo != [] && Parties(s, todo[0]) {
      var a := ApplyStatus(s, todo[0], "rejected", notes).value;
      TailKept(todo, s.bookings, a.store.bookings);
      var tail := todo[1..];
      RejectionFails(a.store, tail, notes);
      OrphanFrame(s, a.store, tail);
      RunUnfold(s, todo, "rejected", notes, a);
    }
  }

  /** The effects of a bulk rejection: the rejection e-mails of the bookings before the first orphan. */
  lemma {:induction false} RejectionEffects(s: Store, todo: seq<Id>, notes: Option<string>)
    requires StrictlyAscending(todo)
    requires forall i :: 0 <= i < |todo| ==> todo[i] in s.bookings
    ensures BulkRun(s, todo, "rejected", notes).effects == RejectionEmails(s, todo, notes)
    decreases |todo|
  {
    if todo == [] || !Parties(s, todo[0]) {
      assert BulkRun(s, todo, "rejected", notes).effects == [];
    } else {
      var a := ApplyStatus(s, todo[0], "rejected", notes).value;
      TailKept(todo, s.bookings, a.store.bookings);
      var tail := todo[1..];
      RejectionEffects(a.store, tail, notes);
      RejectionEmailsFrame(s, a.store, tail, notes);
      RunUnfold(s, todo, "rejected", notes, a);
    }
  }

  /** The bookings a bulk rejection leaves: all but those before the first orphan, unchanged. */
  lemma {:induction false} RejectionDeletes(s: Store, todo: seq<Id>, notes: Option<string>)
    requires StrictlyAscending(todo)
    requires forall i :: 0 <= i < |todo| ==> todo[i] in s.bookings
    ensures var r := BulkRun(s, todo, "rejected", notes);
            var f := FirstOrphan(s, todo);
            && (forall k :: k in r.store.bookings <==> k in s.bookings && k !in todo[..f])
            && (forall k :: k in r.store.bookings ==> r.store.bookings[k] == s.bookings[k])
    decreases |todo|
  {
    if todo == [] || !Parties(s, todo[0]) {
      assert FirstOrphan(s, todo) == 0;
      assert BulkRun(s, todo, "rejected", notes).store == s;
      assert todo[..0] == [];
    } else {
      var a := ApplyStatus(s, todo[0], "rejected", notes).value;
      TailKept(todo, s.bookings, a.store.bookings);
      var tail := todo[1..];
      RejectionDeletes(a.store, tail, notes);
      var rest := BulkRun(a.store, tail, "rejected", notes);
      var f := FirstOrphan(s, tail);
      assert FirstOrphan(a.store, tail) == f by {
        OrphanFrame(s, a.store, tail);
      }
      assert FirstOrphan(s, todo) == f + 1;
      assert BulkRun(s, todo, "rejected", notes).store == rest.store by {
        RunUnfold(s, todo, "rejected", notes, a);
      }
      RejectedBookings(s, todo, a.store.bookings, rest.store.bookings, f);
    }
  }

  /** Deleting the first booking and then the tail's prefix deletes exactly the whole prefix. */
  lemma RejectedBookings(s: Store, todo: seq<Id>, after: map<Id, Booking>, rest: map<Id, Booking>, f: nat)
    requires f < |todo|
    requires after == s.bookings - {todo[0]}
    requires forall k :: k in rest <==> k in after && k !in todo[1..][..f]
    requires forall k :: k in rest ==> rest[k] == after[k]
    ensures forall k :: k in rest <==> k in s.bookings && k !in todo[..f + 1]
    ensures forall k :: k in rest ==> rest[k] == s.bookings[k]
  {
    assert todo[..f + 1] == [todo[0]] + todo[1..][..f];
    assert forall k :: k in todo[..f + 1] <==> k == todo[0] || k in todo[1..][..f];
  }

  /**
    A bulk update to any other target never fails and produces, booking by
    booking in natural order, exactly what the single-booking step does: the
    e-mail when the user and the service exist, then the notification.
   */
  lemma {:induction false} BulkRunUpdates(s: Store, todo: seq<Id>, target: string, notes: Option<string>)
    requires target in Targets && target != "rejected" && StrictlyAscending(todo)
    requires forall i :: 0 <= i < |todo| ==> todo[i] in s.bookings
    ensures !BulkRun(s, todo, target, notes).failed
    ensures BulkRun(s, todo, target, notes).effects == UpdateEffects(s, todo, target, notes)
    decreases |todo|
  {
    if todo != [] {
      var a := ApplyStatus(s, todo[0], target, notes).value;
      TailKept(todo, s.bookings, a.store.bookings);
      var tail := todo[1..];
      BulkRunUpdates(a.store, tail, target, notes);
      UpdateEffectsFrame(s, a.store, tail, target, notes);
      RunUnfold(s, todo, target, notes, a);
    }
  }

  /** The bookings after the first of an ascending list are left as they were by a step on the first. */
  lemma TailKept(todo: seq<Id>, before: map<Id, Booking>, after: map<Id, Booking>)
    requires StrictlyAscending(todo) && todo != []
    requires forall i :: 0 <= i < |todo| ==> todo[i] in before
    requires after == before - {todo[0]} || (todo[0] in after && after == before[todo[0] := after[todo[0]]])
    ensures StrictlyAscending(todo[1..])
    ensures forall i :: 0 <= i < |todo[1..]| ==> todo[1..][i] in after
    ensures forall i :: 0 <= i < |todo[1..]| ==> after[todo[1..][i]] == before[todo[1..][i]]
  {
    assert forall i :: 1 <= i < |todo| ==> todo[0] < todo[i];
  }

  /** One turn of the loop: the first booking's step, then the loop over the rest on the store it leaves. */
  lemma RunUnfold(s: Store, todo: seq<Id>, target: string, notes: Option<string>, a: Applied)
    requires target in Targets && StrictlyAscending(todo) && todo != []
    requires forall i :: 0 <= i < |todo| ==> todo[i] in s.bookings
    requires ApplyStatus(s, todo[0], target, notes) == Some(a)
    requires StrictlyAscending(todo[1..]) && forall i :: 0 <= i < |todo[1..]| ==> todo[1..][i] in a.store.bookings
    ensures var rest := BulkRun(a.store, todo[1..], target, notes);
            var r := BulkRun(s, todo, target, notes);
            && r.store == rest.store && r.failed == rest.failed && r.effects == a.effects + rest.effects
            && (target == "rejected" ==> r.updated == rest.updated && r.rejected == [todo[0]] + rest.rejected)
            && (target != "rejected" ==> r.updated == [todo[0]] + rest.updated && r.rejected == rest.rejected)
  {
  }

  /**
    The access gate as intended: an admin passes, anyone else only when
    every booking belongs to them as provider.
   */
  function BulkGate(s: Store, caller: Caller, found: seq<Id>): (r: Option<int>)
    requires forall i :: 0 <= i < |found| ==> found[i] in s.bookings
    ensures r.None? <==> caller.role == AdminRole || forall i :: 0 <= i < |found| ==> MayChange(s, caller, found[i])
    ensures r.Some? ==> r.value == 403
  {
    if caller.role == AdminRole then None
    else if exists i :: 0 <= i < |found| && !MayChange(s, caller, found[i]) then Some(403)
    else None
  }

  /**
    The access gate as written. The bookings were loaded with their provider
    populated, so the comparison is between the provider document's string
    form and the caller's id, which never agree: a non-admin is refused at
    the first booking with 403, or with 500 when that booking's provider
    document is gone and populating left `null`.
   */
  function BulkGateAsWritten(s: Store, caller: Caller, found: seq<Id>): (r: Option<int>)
    requires found != [] && found[0] in s.bookings
    ensures r.None? <==> caller.role == AdminRole
    ensures r.Some? ==> r.value == (if s.bookings[found[0]].provider in s.providers then 403 else 500)
  {
    if caller.role == AdminRole then None
    else if s.bookings[found[0]].provider in s.providers then Some(403)
    else Some(500)
  }

  /** A provider who owns every booking passes the intended gate but is refused by the one written. */
  lemma OwnerRefusedByWrittenGate(s: Store, caller: Caller, found: seq<Id>)
    requires caller.role == ProviderRole && caller.id in s.providers
    requires found != [] && forall i :: 0 <= i < |found| ==> found[i] in s.bookings
    requires forall i :: 0 <= i < |found| ==> s.bookings[found[i]].provider == caller.id
    ensures BulkGate(s, caller, found).None?
    ensures BulkGateAsWritten(s, caller, found) == Some(403)
  {
  }

  /** A concrete instance: provider 1 owns booking 2, and its bulk request is refused. */
  lemma OwnerRefusedExample()
    ensures var acct := Account("p", "p@x.io", "h", None, true, None, None, None, None, None);
            var prov := NewProvider(acct, None);
            var b := Booking(3, 4, 1, 0, "09:00", "pending", None, 100, "here", None, None, None, Paid, []);
            var s := Store(map[], map[1 := prov], map[], map[], map[2 := b]);
            BulkGate(s, Caller(ProviderRole, 1), [2]).None?
            && BulkGateAsWritten(s, Caller(ProviderRole, 1), [2]) == Some(403)
  {
    var acct := Account("p", "p@x.io", "h", None, true, None, None, None, None, None);
    var b := Booking(3, 4, 1, 0, "09:00", "pending", None, 100, "here", None, None, None, Paid, []);
    var s := Store(map[], map[1 := NewProvider(acct, None)], map[], map[], map[2 := b]);
    OwnerRefusedByWrittenGate(s, Caller(ProviderRole, 1), [2]);
  }

  datatype BulkReply = BulkReply(reply: Reply, updated: seq<Id>, rejected: seq<Id>)

  /** The bookings of the request that exist, in natural order. */
  function Found(s: Store, ids: seq<Id>): (r: seq<Id>)
    ensures StrictlyAscending(r)
    ensures forall k :: k in r <==> k in ids && k in s.bookings
    ensures |r| <= |ids|
    ensures |r| == |ids| ==> forall k :: k in ids ==> k in s.bookings
  {
    var found := set k | k in ids && k in s.bookings;
    FoundBound(ids, found);
    Ascending(found)
  }

  /** A set drawn from a list's members is at most as large as the list, and equal in size only if it is all of them, once each. */
  lemma {:induction false} FoundBound(ids: seq<Id>, found: set<Id>)
    requires forall k :: k in found ==> k in ids
    ensures |found| <= |ids|
    ensures |found| == |ids| ==> forall k :: k in ids ==> k in found
    decreases |ids|
  {
    if ids == [] {
      assert found == {};
    } else {
      var x := ids[0];
      var rest := found - {x};
      assert forall k :: k in rest ==> k in ids[1..] by {
        forall k | k in rest ensures k in ids[1..] {
          var i :| 0 <= i < |ids| && ids[i] == k;
          assert i != 0;
          assert ids[1..][i - 1] == k;
        }
      }
      FoundBound(ids[1..], rest);
      if x in found {
        assert |rest| == |found| - 1;
      } else {
        assert rest == found;
      }
      if |found| == |ids| {
        assert x in found;
        assert |rest| == |ids[1..]|;
        forall k | k in ids ensures k in found {
          if k != x {
            var i :| 0 <= i < |ids| && ids[i] == k;
            assert ids[1..][i - 1] == k;
            assert k in rest;
          }
        }
      }
    }
  }

  /**
    `PUT /bookings/bulk/status`, with the intended access gate. The id list
    must be a non-empty array and the target valid (400); every id must
    name a distinct existing booking (404: a repeated id counts as missing);
    the gate is checked for all bookings before any is touched; then each
    booking, in natural order, takes the single-booking step.
   */
  function BulkUpdate(s: Store, caller: Caller, ids: Option<seq<Id>>, target: string, notes: Option<string>): (r: BulkReply)
    ensures ids.None? || ids.value == [] || target !in Targets ==> r.reply == Refuse(s, 400)
    ensures r.reply.code == 404 <==> ids.Some? && ids.value != [] && target in Targets
                                     && |Found(s, ids.value)| != |ids.value|
    ensures r.reply.code == 403 ==> r.reply.store == s && r.reply.effects == []
    ensures r.reply.code == 403 ==> caller.role != AdminRole
    ensures r.reply.code == 200 ==> |r.updated| + |r.rejected| == |ids.value|
    ensures r.reply.code == 200 ==> forall k :: k in ids.value ==> k in s.bookings && MayChange(s, caller, k)
    ensures r.reply.code == 200 && target != "rejected" ==>
              forall k :: k in ids.value ==> k in r.reply.store.bookings && r.reply.store.bookings[k].status == target
    ensures r.reply.code == 200 && target == "rejected" ==>
              forall k :: k in r.reply.store.bookings <==> k in s.bookings && k !in ids.value
  {
    if ids.None? || ids.value == [] || target !in Targets then BulkReply(Refuse(s, 400), [], [])
    else
      var found := Found(s, ids.value);
      if |found| != |ids.value| then BulkReply(Refuse(s, 404), [], [])
      else if BulkGate(s, caller, found).Some? then BulkReply(Refuse(s, 403), [], [])
      else
        var o := BulkRun(s, found, target, notes);
        BulkReply(Reply(o.store, if o.failed then 500 else 200, o.effects), o.updated, o.rejected)
  }

  /**
    `PUT /bookings/bulk/status` as written: the same checks and loop as
    `BulkUpdate`, behind the access gate as written, so that only an admin
    ever reaches the loop.
   */
  function BulkUpdateAsWritten(s: Store, caller: Caller, ids: Option<seq<Id>>, target: string, notes: Option<string>): (r: BulkReply)
    ensures ids.None? || ids.value == [] || target !in Targets ==> r.reply == Refuse(s, 400)
    ensures r.reply.code == 404 <==> ids.Some? && ids.value != [] && target in Targets
                                     && |Found(s, ids.value)| != |ids.value|
    ensures caller.role == AdminRole ==> r == BulkUpdate(s, caller, ids, target, notes)
    ensures caller.role != AdminRole ==> r.reply.code != 200 && r.reply.store == s && r.reply.effects == []
                                         && r.updated == [] && r.rejected == []
    ensures caller.role != AdminRole && ids.Some? && ids.value != [] && target in Targets
            && |Found(s, ids.value)| == |ids.value| ==>
              r.reply.code == (if s.bookings[Found(s, ids.value)[0]].provider in s.providers then 403 else 500)
  {
    if ids.None? || ids.value == [] || target !in Targets then BulkReply(Refuse(s, 400), [], [])
    else
      var found := Found(s, ids.value);
      if |found| != |ids.value| then BulkReply(Refuse(s, 404), [], [])
      else
        match BulkGateAsWritten(s, caller, found)
        case Some(code) => BulkReply(Refuse(s, code), [], [])
        case None =>
          var o := BulkRun(s, found, target, notes);
          BulkReply(Reply(o.store, if o.failed then 500 else 200, o.effects), o.updated, o.rejected)
  }

  /**
    Past the 400, 404 and access checks, the bulk route answers 500 exactly
    when it rejects and one of the bookings has lost its user or service, and
    200 otherwise. Its effects are the rejection e-mails of the bookings
    before the first such one, or, for any other target, each booking's
    status e-mail and notification in natural order.
   */
  lemma BulkUpdateOutcome(s: Store, caller: Caller, ids: seq<Id>, target: string, notes: Option<string>)
    requires ids != [] && target in Targets && |Found(s, ids)| == |ids|
    requires BulkGate(s, caller, Found(s, ids)).None?
    ensures var r := BulkUpdate(s, caller, Some(ids), target, notes);
            && r.reply.code in {200, 500}
            && (r.reply.code == 500 <==> target == "rejected" && exists k :: k in ids && k in s.bookings && !Parties(s, k))
    ensures target == "rejected" ==>
              BulkUpdate(s, caller, Some(ids), target, notes).reply.effects == RejectionEmails(s, Found(s, ids), notes)
    ensures target != "rejected" ==>
              BulkUpdate(s, caller, Some(ids), target, notes).reply.effects == UpdateEffects(s, Found(s, ids), target, notes)
  {
    var found := Found(s, ids);
    var o := BulkRun(s, found, target, notes);
    BulkUpdateRuns(s, caller, ids, target, notes);
    BulkRunFails(s, found, target, notes);
    OrphanAmong(s, ids, found);
    if target == "rejected" {
      RejectionEffects(s, found, notes);
    } else {
      BulkRunUpdates(s, found, target, notes);
    }
  }

  /** Past its checks, the bulk route answers with what the loop over the found bookings gives. */
  lemma BulkUpdateRuns(s: Store, caller: Caller, ids: seq<Id>, target: string, notes: Option<string>)
    requires ids != [] && target in Targets && |Found(s, ids)| == |ids|
    requires BulkGate(s, caller, Found(s, ids)).None?
    ensures var o := BulkRun(s, Found(s, ids), target, notes);
            var r := BulkUpdate(s, caller, Some(ids), target, notes);
            r.reply.code == (if o.failed then 500 else 200) && r.reply.effects == o.effects
  {
  }

  /** A booking of the request has lost a party exactly when one of the found bookings has. */
  lemma OrphanAmong(s: Store, ids: seq<Id>, found: seq<Id>)
    requires forall k :: k in found <==> k in ids && k in s.bookings
    ensures (exists i :: 0 <= i < |found| && found[i] in s.bookings && !Parties(s, found[i])) <==>
            (exists k :: k in ids && k in s.bookings && !Parties(s, k))
  {
    if exists k :: k in ids && k in s.bookings && !Parties(s, k) {
      var k :| k in ids && k in s.bookings && !Parties(s, k);
      var i :| 0 <= i < |found| && found[i] == k;
    }
  }

  /** The bulk route on one id answers exactly as the single-booking route does. */
  lemma BulkOfOneIsSingle(s: Store, caller: Caller, id: Id, target: string, notes: Option<string>)
    ensures BulkUpdate(s, caller, Some([id]), target, notes).reply == UpdateStatus(s, caller, id, target, notes)
  {
    FoundOne(s, id);
    if target in Targets && id in s.bookings {
      assert BulkGate(s, caller, [id]).None? <==> MayChange(s, caller, id);
      RunOne(s, id, target, notes);
    }
  }

  /** The lookup of one id finds it exactly when it names a booking. */
  lemma FoundOne(s: Store, id: Id)
    ensures id in s.bookings ==> Found(s, [id]) == [id]
    ensures id !in s.bookings ==> Found(s, [id]) == []
  {
    var found := Found(s, [id]);
    if id in s.bookings {
      assert |found| == 1 && found[0] in [id];
    }
  }

  /** The loop over one booking takes exactly the single route's step. */
  lemma RunOne(s: Store, id: Id, target: string, notes: Option<string>)
    requires id in s.bookings && target in Targets
    ensures var o := BulkRun(s, [id], target, notes);
            && (o.failed <==> ApplyStatus(s, id, target, notes).None?)
            && (o.failed ==> o.store == s && o.effects == [])
            && (!o.failed ==> o.store == ApplyStatus(s, id, target, notes).value.store
                              && o.effects == ApplyStatus(s, id, target, notes).value.effects)
  {
    match ApplyStatus(s, id, target, notes)
    case None =>
    case Some(a) =>
      assert [id][1..] == [];
      assert a.effects + [] == a.effects;
  }
}

=== FILE: bookings.dfy ===
/**
  The booking routes other than status changes and reviews: the paginated
  listing of a user's bookings, creation with a payment order, payment
  verification, cancellation and the free-slot query.
 */
module Bookings {
  import opened Common
  import opened Text
  import opened Schema
  import opened Store
  import opened Replies

  // ----------------------------------------------------------- pagination

  /** `Math.ceil(total / limit)` for a non-zero integer `limit`. */
  function CeilDiv(total: nat, limit: int): (r: int)
    requires limit != 0
    ensures (r - 1) as real < total as real / limit as real <= r as real
  {
    if limit > 0 then
      var q := (total + limit - 1) / limit;
      CeilDivPositive(total, limit, q);
      q
    else
      var q := total / -limit;
      CeilDivNegative(total, limit, q);
      -q
  }

  lemma CeilDivPositive(total: nat, limit: int, q: int)
    requires limit > 0 && q == (total + limit - 1) / limit
    ensures (q - 1) as real < total as real / limit as real <= q as real
  {
    var rem := (total + limit - 1) % limit;
    assert q * limit + rem == total + limit - 1;
    assert (q - 1) * limit < total <= q * limit;
    assert ((q - 1) * limit) as real == (q - 1) as real * limit as real;
    assert (q * limit) as real == q as real * limit as real;
  }

  lemma CeilDivNegative(total: nat, limit: int, q: int)
    requires limit < 0 && q == total / -limit
    ensures (-q - 1) as real < total as real / limit as real <= (-q) as real
  {
    var m := -limit;
    var rem := total % m;
    assert q * m + rem == total && 0 <= rem < m;
    assert (q * m) as real == q as real * m as real;
    assert ((q + 1) * m) as real == (q + 1) as real * m as real;
    assert total as real / limit as real == -(total as real / m as real);
  }

  /** `parseInt(param) || fallback`: an absent or unparsable value and 0 take the fallback. */
  function ParamOr(param: Option<int>, fallback: int): (r: int)
    ensures r != 0 || fallback == 0
    ensures param.Some? && param.value != 0 ==> r == param.value
  {
    if param.None? || param.value == 0 then fallback else param.value
  }

  datatype Page = Page(items: seq<Id>, currentPage: int, totalPages: int, total: nat,
                       hasNext: bool, hasPrev: bool)

  /** The caller's bookings, newest first. */
  function NewestFirst(m: map<Id, Booking>, caller: Id): (r: seq<Id>)
    ensures forall k :: k in r <==> k in m && m[k].user == caller
    ensures forall i, j :: 0 <= i < j < |r| ==> r[i] > r[j]
  {
    Reversed(BookingsWhere(m, (b: Booking) => b.user == caller))
  }

  /** `(page - 1) * limit` after the defaults are applied. */
  function Skip(pageParam: Option<int>, limitParam: Option<int>): int
  {
    (ParamOr(pageParam, 1) - 1) * ParamOr(limitParam, 10)
  }

  /** `.skip(skip).limit(n)` over an already ordered result. */
  function Window(all: seq<Id>, skip: nat, n: nat): (r: seq<Id>)
    ensures |r| == if skip >= |all| then 0 else if |all| - skip < n then |all| - skip else n
    ensures forall i :: 0 <= i < |r| ==> skip + i < |all| && r[i] == all[skip + i]
  {
    var from := if skip < |all| then skip else |all|;
    var to := if from + n < |all| then from + n else |all|;
    all[from..to]
  }

  /**
    `GET /bookings/user`. A negative `skip` is refused by the database (500);
    a negative limit returns at most its absolute value of bookings.
   */
  function Paginate(s: Store, caller: Id, pageParam: Option<int>, limitParam: Option<int>): (r: Option<Page>)
    ensures r.None? <==> Skip(pageParam, limitParam) < 0
    ensures r.Some? ==> && r.value.total == |NewestFirst(s.bookings, caller)|
                        && r.value.items == Window(NewestFirst(s.bookings, caller), Skip(pageParam, limitParam),
                                                   Abs(ParamOr(limitParam, 10)))
    ensures r.Some? ==> r.value.currentPage == ParamOr(pageParam, 1)
    ensures r.Some? ==> r.value.totalPages == CeilDiv(r.value.total, ParamOr(limitParam, 10))
    ensures r.Some? ==> (r.value.hasNext <==> r.value.currentPage < r.value.totalPages)
    ensures r.Some? ==> (r.value.hasPrev <==> r.value.currentPage > 1)
  {
    var page := ParamOr(pageParam, 1);
    var limit := ParamOr(limitParam, 10);
    var skip := Skip(pageParam, limitParam);
    if skip < 0 then None
    else
      var all := NewestFirst(s.bookings, caller);
      var totalPages := CeilDiv(|all|, limit);
      Some(Page(Window(all, skip, Abs(limit)), page, totalPages, |all|, page < totalPages, page > 1))
  }

  function Abs(x: int): (r: nat)
    ensures r == x || r == -x
  {
    if x < 0 then -x else x
  }

  /** For a positive limit, page `page` is before the last one exactly when bookings lie beyond it. */
  lemma {:induction false} BeforeLastPage(total: nat, limit: int, page: int)
    requires limit >= 1
    ensures page < CeilDiv(total, limit) <==> page * limit < total
  {
    var t := CeilDiv(total, limit);
    CeilDivBounds(total, limit);
    if page < t {
      MulMonotone(page, t - 1, limit);
    } else {
      MulMonotone(t, page, limit);
    }
  }

  /** For a positive limit, the page count is the least `t` with `t * limit` covering the total. */
  lemma CeilDivBounds(total: nat, limit: int)
    requires limit >= 1
    ensures (CeilDiv(total, limit) - 1) * limit < total <= CeilDiv(total, limit) * limit
  {
    var q := (total + limit - 1) / limit;
    var rem := (total + limit - 1) % limit;
    assert CeilDiv(total, limit) == q;
    assert q * limit + rem == total + limit - 1 && 0 <= rem < limit;
    assert (q - 1) * limit == q * limit - limit;
  }

  lemma MulMonotone(a: int, b: int, c: int)
    requires a <= b && c >= 0
    ensures a * c <= b * c
  {
    assert b * c - a * c == (b - a) * c;
  }

  /** With positive parameters there is a next page exactly when bookings lie beyond this one. */
  lemma HasNextIffMoreBookings(s: Store, caller: Id, page: int, limit: int)
    requires page >= 1 && limit >= 1
    ensures var r := Paginate(s, caller, Some(page), Some(limit));
            r.Some? && (r.value.hasNext <==> page * limit < r.value.total)
  {
    MulMonotone(0, page - 1, limit);
    assert ParamOr(Some(page), 1) == page && ParamOr(Some(limit), 10) == limit;
    assert Skip(Some(page), Some(limit)) == (page - 1) * limit;
    var r := Paginate(s, caller, Some(page), Some(limit));
    BeforeLastPage(r.value.total, limit, page);
  }

  /**
    With positive parameters, position `j` of page `page`, which starts at
    `first == (page - 1) * limit`, shows the `first + j`-th newest booking
    whenever there is one: every booking is on exactly the page and at
    exactly the place its rank says.
   */
  lemma EveryBookingOnItsPage(s: Store, caller: Id, page: int, limit: int, first: nat, j: nat)
    requires page >= 1 && limit >= 1 && first == (page - 1) * limit && j < limit
    requires first + j < |NewestFirst(s.bookings, caller)|
    ensures var r := Paginate(s, caller, Some(page), Some(limit));
            && r.Some? && j < |r.value.items|
            && r.value.items[j] == NewestFirst(s.bookings, caller)[first + j]
  {
    PageItems(s, caller, page, limit, first);
    WindowAt(NewestFirst(s.bookings, caller), first, limit, j);
  }

  /** Position `j` of a window of `n` starting at `first` holds element `first + j`, when there is one. */
  lemma WindowAt(all: seq<Id>, first: nat, n: nat, j: nat)
    requires j < n && first + j < |all|
    ensures j < |Window(all, first, n)| && Window(all, first, n)[j] == all[first + j]
  {
  }

  /** With positive parameters, page `page` shows the window starting at `(page - 1) * limit`. */
  lemma PageItems(s: Store, caller: Id, page: int, limit: int, skip: nat)
    requires page >= 1 && limit >= 1 && skip == (page - 1) * limit
    ensures Paginate(s, caller, Some(page), Some(limit)).Some?
    ensures Paginate(s, caller, Some(page), Some(limit)).value.items == Window(NewestFirst(s.bookings, caller), skip, limit)
  {
    assert ParamOr(Some(page), 1) == page && ParamOr(Some(limit), 10) == limit;
    assert Skip(Some(page), Some(limit)) == skip;
  }

  // ------------------------------------------------------------- creation

  /**
    `POST /bookings`. Only a user may book, and only an approved service. The
    payment order comes from the gateway (`None` when it could not be
    created); `date` is `None` when it does not parse. The new booking takes
    price, location and provider from the service and awaits payment.
   */
  function CreateBooking(s: Store, caller: Caller, service: Id, date: Option<int>, time: string,
                         notes: Option<string>, order: Option<string>): (r: Reply)
    ensures caller.role != UserRole ==> r == Refuse(s, 403)
    ensures (caller.role == UserRole && (service !in s.services || s.services[service].status != "approved"))
              ==> r == Refuse(s, 400)
    ensures r.code != 201 ==> r.store == s
    ensures r.code in {201, 400, 403, 500}
    ensures (caller.role == UserRole && service in s.services && s.services[service].status == "approved"
             && (order.None? || date.None? || time == "")) ==> r == Refuse(s, 500)
    ensures r.code == 201 <==> caller.role == UserRole && service in s.services
                               && s.services[service].status == "approved"
                               && order.Some? && date.Some? && time != ""
    ensures r.code == 201 ==>
              var id := s.NewId();
              && id in r.store.bookings
              && r.store == s.(bookings := s.bookings[id := r.store.bookings[id]])
              && var b := r.store.bookings[id];
              && ValidBooking(b)
              && b.user == caller.id && b.service == service && b.provider == s.services[service].provider
              && b.status == "payment_pending" && b.paymentStatus == PaymentPending
              && b.price == s.services[service].price && b.orderId == order
              && b.reviews == [] && b.paymentId.None?
    ensures r.effects == []
  {
    if caller.role != UserRole then Refuse(s, 403)
    else if service !in s.services || s.services[service].status != "approved" then Refuse(s, 400)
    else if order.None? || date.None? || time == "" then Refuse(s, 500)
    else
      var svc := s.services[service];
      var b := Booking(caller.id, service, svc.provider, date.value, time, DefaultBookingStatus, notes,
                       svc.price, svc.location, order, None, None, DefaultPaymentStatus, []);
      Reply(s.(bookings := s.bookings[s.NewId() := b]), 201, [])
  }

  // -------------------------------------------------------------- payment

  /** The first booking created for a payment order. */
  function ForOrder(s: Store, orderId: string): (r: Option<Id>)
    ensures r.Some? ==> r.value in s.bookings && s.bookings[r.value].orderId == Some(orderId)
    ensures r.None? <==> forall k :: k in s.bookings ==> s.bookings[k].orderId != Some(orderId)
  {
    FirstWhere(s.bookings, (b: Booking) => b.orderId == Some(orderId))
  }

  /**
    `POST /bookings/verify-payment`. The signature is accepted exactly when it
    equals the keyed hash of `orderId|paymentId`; the hash is a parameter.
   */
  function VerifyPayment(s: Store, orderId: string, paymentId: string, signature: string,
                         hmac: string -> string): (r: Reply)
    ensures r.effects == []
    ensures signature == hmac(orderId + "|" + paymentId) ==>
              (r.code == 404 <==> ForOrder(s, orderId).None?)
    ensures signature == hmac(orderId + "|" + paymentId) && ForOrder(s, orderId).Some? ==>
              var k := ForOrder(s, orderId).value;
              && r.code == 200
              && r.store == s.(bookings := s.bookings[k := s.bookings[k].(
                   paymentId := Some(paymentId), signature := Some(signature),
                   paymentStatus := Paid, status := "pending")])
    ensures signature != hmac(orderId + "|" + paymentId) ==> r.code == 400
    ensures signature != hmac(orderId + "|" + paymentId) && ForOrder(s, orderId).Some? ==>
              var k := ForOrder(s, orderId).value;
              r.store == s.(bookings := s.bookings[k := s.bookings[k].(paymentStatus := PaymentFailed)])
    ensures r.code != 200 && ForOrder(s, orderId).None? ==> r.store == s
  {
    var target := ForOrder(s, orderId);
    if signature == hmac(orderId + "|" + paymentId) then
      match target
      case None => Refuse(s, 404)
      case Some(k) =>
        var b := s.bookings[k].(paymentId := Some(paymentId), signature := Some(signature),
                                paymentStatus := Paid, status := "pending");
        Reply(s.(bookings := s.bookings[k := b]), 200, [])
    else
      match target
      case None => Refuse(s, 400)
      case Some(k) => Reply(s.(bookings := s.bookings[k := s.bookings[k].(paymentStatus := PaymentFailed)]), 400, [])
  }

  /** A rejected signature never marks anything paid nor changes any booking status. */
  lemma BadSignatureTouchesOnlyPaymentStatus(s: Store, orderId: string, paymentId: string, signature: string,
                                             hmac: string -> string, k: Id)
    requires signature != hmac(orderId + "|" + paymentId)
    requires k in s.bookings
    ensures var r := VerifyPayment(s, orderId, paymentId, signature, hmac);
            && r.store.bookings.Keys == s.bookings.Keys
            && r.store.bookings[k].(paymentStatus := s.bookings[k].paymentStatus) == s.bookings[k]
            && (r.store.bookings[k].paymentStatus == Paid ==> s.bookings[k].paymentStatus == Paid)
  {
  }

  // --------------------------------------------------------- cancellation

  /** The statuses from which a booking may be cancelled; the second is not in the schema. */
  const Cancellable: seq<string> := ["payment_pending", "confirmed"]

  /**
    `PATCH /bookings/:id/cancel`. An admin or the booking's user may cancel; a
    provider only while the booking is `confirmed`, a value the schema does
    not allow.
   */
  function Cancel(s: Store, caller: Caller, id: Id): (r: Reply)
    ensures r.effects == []
    ensures id !in s.bookings ==> r == Refuse(s, 404)
    ensures id in s.bookings ==>
              var b := s.bookings[id];
              var allowed := caller.role == AdminRole || b.user == caller.id
                             || (caller.role == ProviderRole && b.provider == caller.id && b.status == "confirmed");
              && (!allowed ==> r == Refuse(s, 403))
              && (allowed && b.status !in Cancellable ==> r == Refuse(s, 400))
              && (allowed && b.status in Cancellable ==>
                    r.code == 200 && r.store == s.(bookings := s.bookings[id := b.(status := "cancelled")]))
  {
    if id !in s.bookings then Refuse(s, 404)
    else
      var b := s.bookings[id];
      if caller.role != AdminRole && b.user != caller.id
         && !(caller.role == ProviderRole && b.provider == caller.id && b.status == "confirmed") then
        Refuse(s, 403)
      else if b.status !in Cancellable then Refuse(s, 400)
      else Reply(s.(bookings := s.bookings[id := b.(status := "cancelled")]), 200, [])
  }

  /**
    For a booking whose status obeys the schema, only `payment_pending` can be
    cancelled, and the provider clause never grants anything: a provider who
    is not the booking's user is always refused.
   */
  lemma CancelOnlyBeforePayment(s: Store, caller: Caller, id: Id)
    requires id in s.bookings && ValidBooking(s.bookings[id])
    ensures Cancel(s, caller, id).code == 200 ==> s.bookings[id].status == "payment_pending"
    ensures caller.role == ProviderRole && s.bookings[id].user != caller.id ==> Cancel(s, caller, id).code == 403
  {
  }

  /** A booking just created can be cancelled by the user who made it. */
  lemma CreatedBookingCanBeCancelled(s: Store, caller: Caller, service: Id, date: Option<int>, time: string,
                                     notes: Option<string>, order: Option<string>)
    requires CreateBooking(s, caller, service, date, time, notes, order).code == 201
    ensures var created := CreateBooking(s, caller, service, date, time, notes, order).store;
            var r := Cancel(created, caller, s.NewId());
            r.code == 200 && r.store.bookings[s.NewId()].status == "cancelled"
  {
  }

  // ---------------------------------------------------------------- slots

  const AllSlots: seq<string> :=
    ["09:00", "10:00", "11:00", "12:00", "13:00", "14:00", "15:00", "16:00", "17:00"]

  /** The statuses that hold a slot. */
  const Holding: seq<string> := ["payment_pending", "confirmed", "scheduled", "in_progress"]

  /** `xs` with its order kept and some of its elements left out. */
  predicate SubsequenceOf(r: seq<string>, xs: seq<string>)
    decreases |xs|
  {
    if r == [] then true
    else if xs == [] then false
    else (r[0] == xs[0] && SubsequenceOf(r[1..], xs[1..])) || SubsequenceOf(r, xs[1..])
  }

  /** `xs.filter(x => !taken.includes(x))`. */
  function Without(xs: seq<string>, taken: seq<string>): (r: seq<string>)
    ensures forall x :: x in r <==> x in xs && x !in taken
    ensures SubsequenceOf(r, xs)
  {
    if xs == [] then []
    else if xs[0] in taken then Without(xs[1..], taken)
    else [xs[0]] + Without(xs[1..], taken)
  }

  /** The times of the bookings satisfying `p`, in natural order. */
  function TimesWhere(m: map<Id, Booking>, p: Booking -> bool): (r: seq<string>)
    ensures forall t :: t in r <==> exists k :: k in m && p(m[k]) && m[k].time == t
    ensures |r| == |BookingsWhere(m, p)|
    ensures forall i :: 0 <= i < |r| ==> BookingsWhere(m, p)[i] in m && r[i] == m[BookingsWhere(m, p)[i]].time
  {
    var ks := BookingsWhere(m, p);
    KeysInMap(m, ks, p);
    var r := seq(|ks|, i requires 0 <= i < |ks| => m[ks[i]].time);
    forall t
      ensures t in r <==> exists k :: k in m && p(m[k]) && m[k].time == t
    {
      TimesOfKeys(m, ks, r, t);
    }
    r
  }

  /** Every key the filter lists is a key of the map whose booking satisfies the filter. */
  lemma KeysInMap(m: map<Id, Booking>, ks: seq<Id>, p: Booking -> bool)
    requires forall k :: k in ks <==> k in m && p(m[k])
    ensures forall i :: 0 <= i < |ks| ==> ks[i] in m && p(m[ks[i]])
  {
    forall i | 0 <= i < |ks|
      ensures ks[i] in m && p(m[ks[i]])
    {
      assert ks[i] in ks;
    }
  }

  /** A time is among the listed keys' times exactly when some listed key's booking has it. */
  lemma TimesOfKeys(m: map<Id, Booking>, ks: seq<Id>, r: seq<string>, t: string)
    requires forall i :: 0 <= i < |ks| ==> ks[i] in m
    requires |r| == |ks| && forall i :: 0 <= i < |r| ==> r[i] == m[ks[i]].time
    ensures t in r <==> exists k :: k in ks && k in m && m[k].time == t
  {
    if t in r {
      var i :| 0 <= i < |r| && r[i] == t;
      assert ks[i] in ks && m[ks[i]].time == t;
    }
    if exists k :: k in ks && k in m && m[k].time == t {
      var k :| k in ks && k in m && m[k].time == t;
      var i :| 0 <= i < |ks| && ks[i] == k;
      assert r[i] == t;
    }
  }

  datatype Slots = Slots(available: seq<string>, booked: seq<string>)

  /** Whether a booking holds the slot of `service` on `date`. */
  predicate HoldsSlot(b: Booking, service: Id, date: int)
  {
    b.service == service && b.date == date && b.status in Holding
  }

  /** The filter of the slot query, as a function of the booking. */
  function HoldsSlotOf(service: Id, date: int): (p: Booking -> bool)
    ensures forall b :: p(b) == HoldsSlot(b, service, date)
  {
    (b: Booking) => HoldsSlot(b, service, date)
  }

  /** The answer of the slot query: the status code, and the slots when it is 200. */
  datatype SlotsReply = SlotsReply(code: int, slots: Slots)

  /**
    `GET /bookings/available-slots/:serviceId/:date`: the fixed hourly slots
    not taken by a booking of that service on that date that holds its slot.
    `date` is `None` when it does not parse; the query then fails to cast it
    and the route answers 500. The listing is looked up first.
   */
  function AvailableSlots(s: Store, service: Id, date: Option<int>): (r: SlotsReply)
    ensures r.code in {200, 404, 500}
    ensures r.code == 404 <==> service !in s.services
    ensures r.code == 500 <==> service in s.services && date.None?
    ensures r.code != 200 ==> r.slots == Slots([], [])
    ensures r.code == 200 ==> forall t :: t in r.slots.booked <==>
              exists k :: k in s.bookings && HoldsSlot(s.bookings[k], service, date.value) && s.bookings[k].time == t
    ensures r.code == 200 ==> forall t :: t in r.slots.available <==> t in AllSlots && t !in r.slots.booked
    ensures r.code == 200 ==> SubsequenceOf(r.slots.available, AllSlots)
    ensures r.code == 200 ==> r.slots.booked == TimesWhere(s.bookings, HoldsSlotOf(service, date.value))
  {
    if service !in s.services then SlotsReply(404, Slots([], []))
    else if date.None? then SlotsReply(500, Slots([], []))
    else
      var booked := TimesWhere(s.bookings, HoldsSlotOf(service, date.value));
      SlotsReply(200, Slots(Without(AllSlots, booked), booked))
  }

  /** A booking just created holds its slot: the slot query for its listing and date lists it as booked, not free. */
  lemma BookingTakesSlot(s: Store, caller: Caller, service: Id, date: Option<int>, time: string,
                         notes: Option<string>, order: Option<string>)
    requires CreateBooking(s, caller, service, date, time, notes, order).code == 201
    ensures var q := AvailableSlots(CreateBooking(s, caller, service, date, time, notes, order).store, service, date);
            q.code == 200 && time in q.slots.booked && time !in q.slots.available
  {
    var s' := CreateBooking(s, caller, service, date, time, notes, order).store;
    var id := s.NewId();
    assert id in s'.bookings && HoldsSlot(s'.bookings[id], service, date.value) && s'.bookings[id].time == time;
  }
}

=== FILE: common.dfy ===
/**
  Shared vocabulary: optional values, record identifiers and the "natural
  order" of a collection.

  Record identifiers are modelled as natural numbers handed out in creation
  order (the database's object ids grow with their creation time), so a
  query without an explicit sort sees records in ascending id order and a
  `findOne` returns the least matching id.
 */
module Common {

  datatype Option<+T> = None | Some(value: T)

  type Id = nat

  /** The least element of a non-empty set exists. */
  lemma {:induction false} LeastExists(s: set<nat>)
    requires s != {}
    ensures exists m :: m in s && forall x :: x in s ==> m <= x
    decreases |s|
  {
    var m := LeastOf(s);
  }

  lemma {:induction false} LeastOf(s: set<nat>) returns (m: nat)
    requires s != {}
    ensures m in s && forall x :: x in s ==> m <= x
    decreases |s|
  {
    var y :| y in s;
    if s - {y} == {} {
      assert s == {y};
      m := y;
    } else {
      var k := LeastOf(s - {y});
      assert forall x :: x in s ==> x == y || x in s - {y};
      m := if y < k then y else k;
    }
  }

  /** The greatest element of a non-empty set exists. */
  lemma {:induction false} GreatestExists(s: set<nat>)
    requires s != {}
    ensures exists m :: m in s && forall x :: x in s ==> x <= m
  {
    var m := GreatestOf(s);
  }

  lemma {:induction false} GreatestOf(s: set<nat>) returns (m: nat)
    requires s != {}
    ensures m in s && forall x :: x in s ==> x <= m
    decreases |s|
  {
    var y :| y in s;
    if s - {y} == {} {
      assert s == {y};
      m := y;
    } else {
      var k := GreatestOf(s - {y});
      assert forall x :: x in s ==> x == y || x in s - {y};
      m := if k < y then y else k;
    }
  }

  /** The least element of a non-empty set of identifiers. */
  function Least(s: set<nat>): (m: nat)
    requires s != {}
    ensures m in s
    ensures forall x :: x in s ==> m <= x
  {
    LeastExists(s);
    var m :| m in s && forall x :: x in s ==> m <= x; m
  }

  /** An identifier larger than every identifier already in use. */
  function Fresh(s: set<nat>): (r: nat)
    ensures r !in s
    ensures forall x :: x in s ==> x < r
  {
    if s == {} then 0
    else
      GreatestExists(s);
      var m :| m in s && forall x :: x in s ==> x <= m; m + 1
  }

  predicate StrictlyAscending(xs: seq<nat>)
  {
    forall i, j :: 0 <= i < j < |xs| ==> xs[i] < xs[j]
  }

  /** The elements of `s` listed in ascending order: the natural order of a scan. */
  function Ascending(s: set<nat>): (r: seq<nat>)
    ensures StrictlyAscending(r)
    ensures forall x :: x in r <==> x in s
    ensures |r| == |s|
    decreases |s|
  {
    if s == {} then []
    else
      var m := Least(s);
      var rest := Ascending(s - {m});
      assert forall x :: x in rest ==> m < x;
      [m] + rest
  }

  predicate StrictlyDescending(xs: seq<nat>)
  {
    forall i, j :: 0 <= i < j < |xs| ==> xs[i] > xs[j]
  }

  /** The same elements in the opposite order: an ascending list read newest first. */
  function Reversed(xs: seq<nat>): (r: seq<nat>)
    ensures |r| == |xs|
    ensures forall i :: 0 <= i < |xs| ==> r[i] == xs[|xs| - 1 - i]
    ensures forall x :: x in r <==> x in xs
    ensures StrictlyAscending(xs) ==> StrictlyDescending(r)
  {
    var r := seq(|xs|, i requires 0 <= i < |xs| => xs[|xs| - 1 - i]);
    assert forall x :: x in xs ==> x in r by {
      forall x | x in xs
        ensures x in r
      {
        var i :| 0 <= i < |xs| && xs[i] == x;
        assert r[|xs| - 1 - i] == x;
      }
    }
    r
  }

  /** `Ascending` lists its smallest element first. */
  lemma AscendingHead(s: set<nat>)
    requires s != {}
    ensures Ascending(s)[0] == Least(s)
  {
  }
}

=== FILE: invariants.dfy ===
/**
  Store invariants across the account routes: each of them keeps every
  address unique and lower-case within its collection, keeps each provider's
  two approval fields in agreement, keeps the providers' listing lists in
  step with the listings, and never stores a reset token.
 */
module Invariants {
  import opened Common
  import opened Text
  import opened Schema
  import opened Store
  import opened Accounts
  import opened Services
  import opened Admin
  import opened ProviderProfile

  /** The invariants of the store that the account, listing and approval routes maintain. */
  predicate Good(s: Store, role: Role)
  {
    && UniqueEmails(s.Accounts(role)) && LowerCaseEmails(s.Accounts(role))
    && ApprovalsConsistent(s) && ServicesTracked(s)
    && NoResetTokens(s)
  }

  /** Writing an account that holds no reset token keeps every collection free of them. */
  lemma PutKeepsNoResetTokens(s: Store, role: Role, id: Id, a: Account)
    requires id in s.Accounts(role) && a.resetToken.None? && NoResetTokens(s)
    ensures NoResetTokens(s.PutAccount(role, id, a))
  {
    var s' := s.PutAccount(role, id, a);
    match role
    case UserRole =>
      assert s'.users == s.users[id := a];
    case AdminRole =>
      assert s'.admins == s.admins[id := a];
    case ProviderRole =>
      forall k | k in s'.providers
        ensures s'.providers[k].account.resetToken.None?
      {
        if k != id {
          assert s'.providers[k] == s.providers[k];
        }
      }
  }

  /** Inserting an account that holds no reset token keeps every collection free of them. */
  lemma InsertKeepsNoResetTokens(s: Store, role: Role, id: Id, a: Account, company: Option<string>)
    requires id !in s.Accounts(role) && a.resetToken.None? && NoResetTokens(s)
    ensures NoResetTokens(s.InsertAccount(role, id, a, company))
  {
    var s' := s.InsertAccount(role, id, a, company);
    match role
    case UserRole =>
      assert s'.users == s.users[id := a];
    case AdminRole =>
      assert s'.admins == s.admins[id := a];
    case ProviderRole =>
      forall k | k in s'.providers
        ensures s'.providers[k].account.resetToken.None?
      {
        if k != id {
          assert s'.providers[k] == s.providers[k];
        }
      }
  }

  /** A store whose providers keep their approval fields and listing lists keeps the provider invariants. */
  lemma SameProviderFields(s: Store, s': Store)
    requires s'.services == s.services && s'.providers.Keys == s.providers.Keys
    requires forall k :: k in s.providers ==> s'.providers[k].services == s.providers[k].services
    requires forall k :: k in s.providers ==> s'.providers[k].isApproved == s.providers[k].isApproved
                                              && s'.providers[k].approval == s.providers[k].approval
    ensures ApprovalsConsistent(s) ==> ApprovalsConsistent(s')
    ensures ServicesTracked(s) ==> ServicesTracked(s')
  {
  }

  /** Adding a provider with no listings, unapproved and pending, keeps the provider invariants. */
  lemma AddProviderKeepsInvariants(s: Store, s': Store, id: Id, p: Provider)
    requires id !in s.providers && p.services == [] && !p.isApproved && p.approval == Pending
    requires s'.services == s.services && s'.providers == s.providers[id := p]
    ensures ApprovalsConsistent(s) ==> ApprovalsConsistent(s')
    ensures ServicesTracked(s) ==> ServicesTracked(s')
  {
    if ServicesTracked(s) {
      forall k | k in s'.services
        ensures s'.services[k].provider in s'.providers && k in s'.providers[s'.services[k].provider].services
      {
        var owner := s.services[k].provider;
        assert owner != id && s'.providers[owner] == s.providers[owner];
      }
      forall q, i | q in s'.providers && 0 <= i < |s'.providers[q].services|
        ensures s'.providers[q].services[i] in s'.services && s'.services[s'.providers[q].services[i]].provider == q
      {
        assert q != id && s'.providers[q] == s.providers[q];
      }
    }
  }

  /** Only addresses change the address invariants: a write that keeps every address keeps them. */
  lemma SameAddresses(m: map<Id, Account>, m': map<Id, Account>)
    requires m'.Keys == m.Keys && forall k :: k in m ==> m'[k].email == m[k].email
    ensures UniqueEmails(m) ==> UniqueEmails(m')
    ensures LowerCaseEmails(m) ==> LowerCaseEmails(m')
  {
  }

  /** Rewriting one account's shared fields never touches approval fields or listing lists. */
  lemma PutKeepsProviderInvariants(s: Store, role: Role, id: Id, a: Account)
    requires id in s.Accounts(role)
    ensures ApprovalsConsistent(s) ==> ApprovalsConsistent(s.PutAccount(role, id, a))
    ensures ServicesTracked(s) ==> ServicesTracked(s.PutAccount(role, id, a))
  {
    var s' := s.PutAccount(role, id, a);
    if role == ProviderRole {
      assert forall k :: k in s.providers && k != id ==> s'.providers[k] == s.providers[k];
    }
    SameProviderFields(s, s');
  }

  /** Rewriting one account without changing its address keeps the address invariants. */
  lemma PutKeepsAddresses(s: Store, role: Role, id: Id, a: Account)
    requires id in s.Accounts(role) && a.email == s.Accounts(role)[id].email
    ensures UniqueEmails(s.Accounts(role)) ==> UniqueEmails(s.PutAccount(role, id, a).Accounts(role))
    ensures LowerCaseEmails(s.Accounts(role)) ==> LowerCaseEmails(s.PutAccount(role, id, a).Accounts(role))
  {
    SameAddresses(s.Accounts(role), s.PutAccount(role, id, a).Accounts(role));
  }

  /** Inserting a fresh account with an unused, lower-case address keeps the address invariants. */
  lemma InsertKeepsAddresses(s: Store, role: Role, a: Account, company: Option<string>)
    requires Lower(a.email) == a.email && forall k :: k in s.Accounts(role) ==> s.Accounts(role)[k].email != a.email
    ensures UniqueEmails(s.Accounts(role)) ==> UniqueEmails(s.InsertAccount(role, s.NewId(), a, company).Accounts(role))
    ensures LowerCaseEmails(s.Accounts(role)) ==> LowerCaseEmails(s.InsertAccount(role, s.NewId(), a, company).Accounts(role))
  {
    AddressAdded(s.Accounts(role), s.NewId(), a);
  }

  /** Adding an account under a new key with an unused, lower-case address keeps the address invariants. */
  lemma AddressAdded(m: map<Id, Account>, id: Id, a: Account)
    requires Lower(a.email) == a.email && forall k :: k in m ==> m[k].email != a.email
    ensures UniqueEmails(m) ==> UniqueEmails(m[id := a])
    ensures LowerCaseEmails(m) ==> LowerCaseEmails(m[id := a])
  {
  }

  /** A fresh account (for a provider: unapproved, with no listings) keeps the provider invariants. */
  lemma InsertKeepsProviderInvariants(s: Store, role: Role, a: Account, company: Option<string>)
    ensures ApprovalsConsistent(s) ==> ApprovalsConsistent(s.InsertAccount(role, s.NewId(), a, company))
    ensures ServicesTracked(s) ==> ServicesTracked(s.InsertAccount(role, s.NewId(), a, company))
  {
    var id := s.NewId();
    var s' := s.InsertAccount(role, id, a, company);
    if role == ProviderRole {
      assert id !in s.providers by {
        assert id !in s.Accounts(ProviderRole);
      }
      AddProviderKeepsInvariants(s, s', id, NewProvider(a, company));
    } else {
      SameProviderFields(s, s');
    }
  }

  /**
    Registration keeps the invariants: a new account takes an address no
    account of its collection holds, stored lower-cased; a new provider
    starts unapproved with no listings; a resent code changes no address.
   */
  lemma RegisterKeepsInvariants(s: Store, role: Role, name: string, email: string, password: string,
                                phone: Option<string>, company: Option<string>, otp: int, now: int,
                                hash: string -> string, emailShape: string -> bool)
    requires Good(s, role)
    ensures Good(Register(s, role, name, email, password, phone, company, otp, now, hash, emailShape).store, role)
  {
    var r := Register(s, role, name, email, password, phone, company, otp, now, hash, emailShape);
    var m := s.Accounts(role);
    if r.code == 200 {
      var k := FindByEmail(m, email).value;
      var a := m[k].(otp := Some(otp), otpExpiry := Some(now + OtpLifetime));
      NoResetTokensByRole(s, role);
      PutKeepsProviderInvariants(s, role, k, a);
      PutKeepsAddresses(s, role, k, a);
      PutKeepsNoResetTokens(s, role, k, a);
    } else if r.code == 201 {
      var a := r.store.Accounts(role)[s.NewId()];
      LowerIdempotent(email);
      InsertKeepsAddresses(s, role, a, StoredCompany(role, company));
      InsertKeepsProviderInvariants(s, role, a, StoredCompany(role, company));
      InsertKeepsNoResetTokens(s, role, s.NewId(), a, StoredCompany(role, company));
    }
  }

  /**
    A verified code, a reset request and a code-confirmed reset leave every
    address as it was, and add no token. (The token reset itself is always
    refused while no token is stored: see `TokenResetUnreachable`.)
   */
  lemma VerifyOtpKeepsInvariants(s: Store, roleName: string, id: Id, otp: Option<int>, now: int,
                                 hash: string -> string)
    requires ParseRole(roleName).Some? && Good(s, ParseRole(roleName).value)
    ensures Good(VerifyOtp(s, roleName, id, otp, now, hash).store, ParseRole(roleName).value)
  {
    var role := ParseRole(roleName).value;
    var r := VerifyOtp(s, roleName, id, otp, now, hash);
    if r.code == 200 {
      var a := s.Accounts(role)[id];
      var a' := a.(isVerified := true, otp := None, otpExpiry := None);
      NoResetTokensByRole(s, role);
      PutKeepsProviderInvariants(s, role, id, a');
      PutKeepsAddresses(s, role, id, a');
      PutKeepsNoResetTokens(s, role, id, a');
    }
  }

  lemma ForgotPasswordKeepsInvariants(s: Store, roleName: string, email: string, newPassword: Option<string>,
                                      otp: int, now: int, hash: string -> string)
    requires ParseRole(roleName).Some? && Good(s, ParseRole(roleName).value)
    ensures Good(ForgotPassword(s, roleName, email, newPassword, otp, now, hash).store, ParseRole(roleName).value)
  {
    var role := ParseRole(roleName).value;
    var r := ForgotPassword(s, roleName, email, newPassword, otp, now, hash);
    if r.code == 200 {
      var k := FindByEmail(s.Accounts(role), email).value;
      var a := s.Accounts(role)[k].(tempPassword := newPassword, otp := Some(otp), otpExpiry := Some(now + OtpLifetime));
      NoResetTokensByRole(s, role);
      PutKeepsProviderInvariants(s, role, k, a);
      PutKeepsAddresses(s, role, k, a);
      PutKeepsNoResetTokens(s, role, k, a);
    }
  }

  lemma VerifyResetOtpKeepsInvariants(s: Store, roleName: string, email: string, otp: Option<int>, now: int,
                                      hash: string -> string)
    requires ParseRole(roleName).Some? && Good(s, ParseRole(roleName).value)
    ensures Good(VerifyResetOtp(s, roleName, email, otp, now, hash).store, ParseRole(roleName).value)
  {
    var role := ParseRole(roleName).value;
    var r := VerifyResetOtp(s, roleName, email, otp, now, hash);
    if r.code == 200 {
      var k := FindByEmail(s.Accounts(role), email).value;
      var a := r.store.Accounts(role)[k];
      NoResetTokensByRole(s, role);
      PutKeepsProviderInvariants(s, role, k, a);
      PutKeepsAddresses(s, role, k, a);
      PutKeepsNoResetTokens(s, role, k, a);
    }
  }
}

=== FILE: mail.dfy ===
/**
  The two queues built on `JobQueue` and their processors: e-mail jobs are
  dispatched by type to one of eleven senders, notification jobs are only
  logged. `AddEmailJob` falls back to a direct send for six of the types
  when the queue refuses the job.

  The senders themselves (templates and the mail transport) are opaque: each
  one catches its own errors and resolves to nothing, so a known type never
  makes the processor fail.
 */
module Mail {
  import opened Common
  import opened JobQueue

  datatype EmailKind =
    | SendOtp | ResetPassword
    | ProviderApproval | ProviderRejection
    | ServiceApproval | ServiceRejection
    | BookingApproval | BookingRejection | BookingScheduled | BookingInProgress | BookingCompleted
  {
    /** The `type` string a job of this kind carries. */
    function TypeName(): string {
      match this
      case SendOtp => "send_otp"
      case ResetPassword => "reset_password"
      case ProviderApproval => "provider_approval"
      case ProviderRejection => "provider_rejection"
      case ServiceApproval => "service_approval"
      case ServiceRejection => "service_rejection"
      case BookingApproval => "booking_approval"
      case BookingRejection => "booking_rejection"
      case BookingScheduled => "booking_scheduled"
      case BookingInProgress => "booking_in_progress"
      case BookingCompleted => "booking_completed"
    }
  }

  /** Recognises a job's `type` string. */
  function ParseType(s: string): (r: Option<EmailKind>)
    ensures r.Some? ==> r.value.TypeName() == s
    ensures forall k: EmailKind :: k.TypeName() == s ==> r == Some(k)
  {
    if s == "send_otp" then Some(SendOtp)
    else if s == "reset_password" then Some(ResetPassword)
    else if s == "provider_approval" then Some(ProviderApproval)
    else if s == "provider_rejection" then Some(ProviderRejection)
    else if s == "service_approval" then Some(ServiceApproval)
    else if s == "service_rejection" then Some(ServiceRejection)
    else if s == "booking_approval" then Some(BookingApproval)
    else if s == "booking_rejection" then Some(BookingRejection)
    else if s == "booking_scheduled" then Some(BookingScheduled)
    else if s == "booking_in_progress" then Some(BookingInProgress)
    else if s == "booking_completed" then Some(BookingCompleted)
    else None
  }

  /** The exported senders of the e-mail module. */
  datatype Sender =
    | SendOTPEmail | SendResetPasswordEmail
    | SendApprovalEmail | SendRejectionEmail
    | SendServiceApprovalEmail | SendServiceRejectionEmail
    | SendBookingApprovalEmail | SendBookingRejectionEmail
    | SendBookingScheduledEmail | SendBookingInProgressEmail | SendBookingCompletedEmail

  /** The e-mail processor's switch: one sender per known type. */
  function SenderFor(k: EmailKind): Sender
  {
    match k
    case SendOtp => SendOTPEmail
    case ResetPassword => SendResetPasswordEmail
    case ProviderApproval => SendApprovalEmail
    case ProviderRejection => SendRejectionEmail
    case ServiceApproval => SendServiceApprovalEmail
    case ServiceRejection => SendServiceRejectionEmail
    case BookingApproval => SendBookingApprovalEmail
    case BookingRejection => SendBookingRejectionEmail
    case BookingScheduled => SendBookingScheduledEmail
    case BookingInProgress => SendBookingInProgressEmail
    case BookingCompleted => SendBookingCompletedEmail
  }

  /** The payload shapes the senders take. */
  datatype EmailData =
    | OtpData(email: string, otp: int)
    | ResetData(email: string, resetUrl: string)
    | AccountNotes(email: string, name: string, notes: Option<string>)
    | ServiceNotes(email: string, name: string, serviceName: string, notes: Option<string>)
    | SlotData(email: string, name: string, serviceName: string, date: int, time: string)
    | PlainData(email: string, name: string, serviceName: string)
    | RefData(email: string, name: string, serviceName: string, bookingId: Id)

  /** What an e-mail job holds: `{ type, data }`. */
  datatype EmailRequest = EmailRequest(kind: string, data: EmailData)

  /** What a notification job holds; the processor only logs it. */
  datatype Notice = Notice(kind: string, booking: Id)

  /** The e-mail processor: the sender for a known type, nothing (it throws) for any other. */
  function Dispatch(kind: string): (r: Option<Sender>)
    ensures r.Some? <==> ParseType(kind).Some?
    ensures r.Some? ==> r == Some(SenderFor(ParseType(kind).value))
  {
    match ParseType(kind)
    case None => None
    case Some(k) => Some(SenderFor(k))
  }

  /** Whether the e-mail processor completes a job: exactly when its type is known. */
  predicate EmailJobSucceeds(req: EmailRequest)
  {
    Dispatch(req.kind).Some?
  }

  /** The notification processor logs and returns; it never fails. */
  predicate NoticeJobSucceeds(n: Notice)
  {
    true
  }

  /** The types the direct-send fallback knows. */
  const FallbackTypes: seq<string> :=
    ["send_otp", "booking_approval", "booking_rejection", "booking_scheduled",
     "booking_in_progress", "booking_completed"]

  /** The fallback's own switch: six types; any other is logged and gets `null`. */
  function FallbackSender(kind: string): (r: Option<Sender>)
    ensures r.Some? <==> kind in FallbackTypes
    ensures r.Some? ==> r == Dispatch(kind)
  {
    if kind == "send_otp" then Some(SendOTPEmail)
    else if kind == "booking_approval" then Some(SendBookingApprovalEmail)
    else if kind == "booking_rejection" then Some(SendBookingRejectionEmail)
    else if kind == "booking_scheduled" then Some(SendBookingScheduledEmail)
    else if kind == "booking_in_progress" then Some(SendBookingInProgressEmail)
    else if kind == "booking_completed" then Some(SendBookingCompletedEmail)
    else None
  }

  /** What `addEmailJob` resolves to. */
  datatype Added =
    | Queued(job: Job<EmailRequest>)
    | DirectSend(sender: Sender, success: bool)
    | NoSend

  datatype EmailAdd = EmailAdd(queue: Queue<EmailRequest>, result: Added, ran: Option<Job<EmailRequest>>)

  /**
    `addEmailJob(type, data)`. When the queue accepts the job it is added
    (and may start running at once). When adding throws, the fallback sends
    directly for its six types; since a sender resolves to nothing, the
    fallback reports `direct-send-failed` even after sending. Any other type
    yields `null`.
   */
  function AddEmailJob(q: Queue<EmailRequest>, kind: string, data: EmailData, accepts: bool,
                       id: string, timestamp: int): (r: EmailAdd)
    ensures accepts ==> r.result == Queued(Job(id, EmailRequest(kind, data), timestamp))
    ensures accepts ==> (r.ran.Some? <==> !q.processing && q.hasProcessor)
    ensures accepts && r.ran.None? ==> r.queue.jobs == q.jobs + [r.result.job]
    ensures accepts && r.ran.Some? ==> r.queue.jobs == (q.jobs + [r.result.job])[1..]
    ensures !accepts ==> r.queue == q && r.ran.None?
    ensures !accepts && kind in FallbackTypes ==> r.result == DirectSend(Dispatch(kind).value, false)
    ensures !accepts && kind !in FallbackTypes ==> r.result == NoSend
  {
    if accepts then
      var a := Add(q, EmailRequest(kind, data), id, timestamp, EmailJobSucceeds);
      EmailAdd(a.1.queue, Queued(a.0), a.1.job)
    else match FallbackSender(kind)
      case Some(s) => EmailAdd(q, DirectSend(s, false), None)
      case None => EmailAdd(q, NoSend, None)
  }

  datatype NoticeAdd = NoticeAdd(queue: Queue<Notice>, job: Option<Job<Notice>>)

  /** `addNotificationJob(type, data, io)`: added to the notification queue, or `null` if adding throws. */
  function AddNotificationJob(q: Queue<Notice>, notice: Notice, accepts: bool,
                              id: string, timestamp: int): (r: NoticeAdd)
    ensures !accepts ==> r == NoticeAdd(q, None)
    ensures accepts ==> r.job == Some(Job(id, notice, timestamp))
    ensures accepts && !q.processing && q.hasProcessor ==>
              r.queue.jobs == (q.jobs + [Job(id, notice, timestamp)])[1..]
    ensures accepts && (q.processing || !q.hasProcessor) ==> r.queue.jobs == q.jobs + [Job(id, notice, timestamp)]
  {
    if !accepts then NoticeAdd(q, None)
    else
      var a := Add(q, notice, id, timestamp, NoticeJobSucceeds);
      NoticeAdd(a.1.queue, Some(a.0))
  }

  // ------------------------------------------------------------ properties

  /** Each of the eleven types reaches its own sender, and no two share one. */
  lemma DispatchIsOneToOne(k1: EmailKind, k2: EmailKind)
    ensures Dispatch(k1.TypeName()) == Some(SenderFor(k1))
    ensures k1 != k2 ==> SenderFor(k1) != SenderFor(k2)
  {
  }

  /** A job of an unknown type fails in the processor (and is then dropped by the worker). */
  lemma UnknownTypeFails(req: EmailRequest)
    requires forall k: EmailKind :: k.TypeName() != req.kind
    ensures !EmailJobSucceeds(req)
  {
  }

  /** The fallback covers the OTP and the five booking kinds and none of the other five kinds. */
  lemma FallbackCoverage(k: EmailKind)
    ensures FallbackSender(k.TypeName()).Some? <==>
              k in {SendOtp, BookingApproval, BookingRejection, BookingScheduled, BookingInProgress, BookingCompleted}
  {
  }
}

=== FILE: middleware.dfy ===
/**
  The authorisation middleware `protect(roles)`: a bearer token is verified,
  tied to the current server start, resolved to a stored account of the
  role it names, and finally checked against the roles the route admits.

  Token verification (signature and the one-day lifetime) is the `verify`
  parameter; the server start time is `currentStart`, `None` when the
  environment value does not parse as an integer.
 */
module Middleware {
  import opened Common
  import opened Text
  import opened Schema
  import opened Store
  import opened Accounts

  /** The middleware's three outcomes: 401, 403, or the request passes with its caller. */
  datatype Gate = Unauthorized | Forbidden | Proceed(caller: Caller)

  /** The token the header carries: the second space-separated field of a header starting with "Bearer". */
  function BearerToken(header: Option<string>): (r: Option<string>)
    ensures r.Some? ==> header.Some? && StartsWith(header.value, "Bearer") && SecondField(header.value) == r
    ensures header.Some? && StartsWith(header.value, "Bearer") && SecondField(header.value).Some? ==> r.Some?
  {
    if header.Some? && StartsWith(header.value, "Bearer") then SecondField(header.value) else None
  }

  /**
    A token is bound to the server run it was issued in: a missing or zero
    start time is refused, and so is any start time other than the current
    one (every time, when the current one is not a number).
   */
  predicate SameRun(claimed: Option<int>, currentStart: Option<int>)
  {
    claimed.Some? && claimed.value != 0 && currentStart.Some? && claimed.value == currentStart.value
  }

  /** The claims the request's header carries, when it has a token that verifies. */
  function Decoded(header: Option<string>, verify: string -> Option<Claims>): (r: Option<Claims>)
    ensures r.Some? ==> BearerToken(header).Some? && verify(BearerToken(header).value) == r
    ensures (BearerToken(header).Some? && BearerToken(header).value != ""
             && verify(BearerToken(header).value).Some?) ==> r.Some?
  {
    match BearerToken(header)
    case None => None
    case Some(token) => if token == "" then None else verify(token)
  }

  /**
    `protect(roles)`. Every failure before the role check is 401 (a missing
    or malformed header, a token that does not verify, another server run,
    an unknown role, an account that no longer exists); a caller whose role
    the route does not list gets 403; an empty list admits every role.
   */
  function Protect(s: Store, header: Option<string>, verify: string -> Option<Claims>,
                   currentStart: Option<int>, roles: seq<string>): (r: Gate)
    ensures r.Proceed? <==>
              && Decoded(header, verify).Some?
              && var c := Decoded(header, verify).value;
              && SameRun(c.serverStartTime, currentStart)
              && ParseRole(c.role).Some?
              && c.id in s.Accounts(ParseRole(c.role).value)
              && (roles == [] || c.role in roles)
    ensures r.Forbidden? <==>
              && Decoded(header, verify).Some?
              && var c := Decoded(header, verify).value;
              && SameRun(c.serverStartTime, currentStart)
              && ParseRole(c.role).Some?
              && c.id in s.Accounts(ParseRole(c.role).value)
              && roles != [] && c.role !in roles
    ensures r.Proceed? ==> r.caller.id in s.Accounts(r.caller.role)
                           && r.caller == Caller(ParseRole(Decoded(header, verify).value.role).value,
                                                 Decoded(header, verify).value.id)
  {
    match Decoded(header, verify)
    case None => Unauthorized
    case Some(c) =>
      if !SameRun(c.serverStartTime, currentStart) then Unauthorized
      else match ParseRole(c.role)
        case None => Unauthorized
        case Some(role) =>
          if c.id !in s.Accounts(role) then Unauthorized
          else if roles != [] && c.role !in roles then Forbidden
          else Proceed(Caller(role, c.id))
  }

  /**
    A token issued by a successful login in the current server run, presented
    as "Bearer <token>", lets its holder through every route that lists the
    holder's role (or lists none), as long as the account still exists.
   */
  lemma LoginTokenAdmits(s: Store, role: Role, email: string, password: string,
                         matches: (string, string) -> bool, start: int,
                         token: string, verify: string -> Option<Claims>, roles: seq<string>)
    requires Login(s, role, email, password, matches, Some(start)).code == 200
    requires start != 0
    requires token != "" && ' ' !in token
    requires verify(token) == Login(s, role, email, password, matches, Some(start)).claims
    requires roles == [] || role.Name() in roles
    ensures Protect(s, Some("Bearer " + token), verify, Some(start), roles)
              == Proceed(Caller(role, FindByEmail(s.Accounts(role), email).value))
  {
    var id := FindByEmail(s.Accounts(role), email).value;
    var header := Some("Bearer " + token);
    BearerOf(token);
    assert Decoded(header, verify) == Some(Claims(id, role.Name(), Some(start)));
    assert ParseRole(role.Name()) == Some(role);
  }

  /** The header a client builds from a token yields that token back. */
  lemma BearerOf(token: string)
    requires token != "" && ' ' !in token
    ensures BearerToken(Some("Bearer " + token)) == Some(token)
  {
    var h := "Bearer " + token;
    assert h[..6] == "Bearer";
    SecondFieldOfBearer(token);
  }

  lemma SecondFieldOfBearer(token: string)
    requires token != "" && ' ' !in token
    ensures SecondField("Bearer " + token) == Some(token)
  {
    var h := "Bearer " + token;
    IndexOfFirst(h, ' ', 6);
    assert h[7..] == token;
    assert IndexOf(token, ' ') == None;
  }

  /** A restart (a new start time) turns away every token issued before it. */
  lemma RestartRevokesTokens(s: Store, header: Option<string>, verify: string -> Option<Claims>,
                             issuedAt: int, currentStart: int, roles: seq<string>)
    requires Decoded(header, verify).Some? && Decoded(header, verify).value.serverStartTime == Some(issuedAt)
    requires issuedAt != currentStart
    ensures Protect(s, header, verify, Some(currentStart), roles) == Unauthorized
  {
  }

  /** When the configured start time is not a number, no request gets through. */
  lemma UnparsableStartRevokesAll(s: Store, header: Option<string>, verify: string -> Option<Claims>,
                                  roles: seq<string>)
    ensures !Protect(s, header, verify, None, roles).Proceed?
  {
  }

  /** Listing roles only narrows: whoever passes a route with a role list also passes one without. */
  lemma EmptyRoleListAdmitsMore(s: Store, header: Option<string>, verify: string -> Option<Claims>,
                                currentStart: Option<int>, roles: seq<string>)
    ensures Protect(s, header, verify, currentStart, roles).Proceed? ==>
              Protect(s, header, verify, currentStart, []) == Protect(s, header, verify, currentStart, roles)
    ensures Protect(s, header, verify, currentStart, roles).Forbidden? ==>
              Protect(s, header, verify, currentStart, []).Proceed?
  {
  }
}

=== FILE: provider_profile.dfy ===
/**
  A provider's own profile edit. The request is validated field by field,
  a change of address must not collide with another provider's, and the
  edit sends a provider that is not yet approved back to pending review,
  while an approved provider keeps its approval.
 */
module ProviderProfile {
  import opened Common
  import opened Text
  import opened Schema
  import opened Store
  import opened Replies
  import opened Admin

  /** The fields of a profile edit; an absent one is left as stored. */
  datatype ProfileEdit = ProfileEdit(
    name: Option<string>,
    email: Option<string>,
    phone: Option<string>,
    company: Option<string>,
    location: Option<string>)

  /** The name check: present, and at least two UTF-16 units once trimmed. */
  predicate NameOk(name: Option<string>)
  {
    name.Some? && Utf16Length(Trim(name.value)) >= 2
  }

  /**
    The checks that answer 400 before the provider is loaded, in order: the
    name, the address pattern, the phone, and an address that differs from
    the caller's stored one but is already held (by any provider, the caller
    included: the lookup lower-cases, the comparison does not).
   */
  predicate RequestOk(s: Store, caller: Id, e: ProfileEdit, emailShape: string -> bool)
  {
    && NameOk(e.name)
    && (!Given(e.email) || emailShape(e.email.value))
    && (!Given(e.phone) || PhoneDigits(e.phone.value))
    && !(Given(e.email)
         && (caller !in s.providers || e.email.value != s.providers[caller].account.email)
         && FindByEmail(s.Accounts(ProviderRole), e.email.value).Some?)
  }

  /** The validators the update runs on the paths it writes: a written address must be non-empty and well formed. */
  predicate UpdateValid(e: ProfileEdit, emailShape: string -> bool)
  {
    e.email.Some? ==> e.email.value != "" && emailShape(Lower(e.email.value))
  }

  /** The provider after the edit: fields written as the update casts them, approval reset unless approved. */
  function Edited(p: Provider, e: ProfileEdit): (r: Provider)
    requires e.name.Some?
    ensures r.account.name == Trim(e.name.value)
    ensures r.account.email == (if e.email.Some? then Lower(e.email.value) else p.account.email)
    ensures r.account.phone == (if e.phone.Some? then e.phone else p.account.phone)
    ensures r.company == (if e.company.Some? then Some(Trim(e.company.value)) else p.company)
    ensures r.location == (if e.location.Some? then Some(Trim(e.location.value)) else p.location)
    ensures p.approval == Approved ==> r.approval == p.approval && r.isApproved == p.isApproved
    ensures p.approval != Approved ==> r.approval == Pending && !r.isApproved
    ensures r.account.password == p.account.password && r.services == p.services
    ensures r.adminNotes == p.adminNotes && r.rating == p.rating && r.reviewCount == p.reviewCount
  {
    var a := p.account.(name := Trim(e.name.value),
                        email := if e.email.Some? then Lower(e.email.value) else p.account.email,
                        phone := if e.phone.Some? then e.phone else p.account.phone);
    var q := p.(account := a,
                company := if e.company.Some? then Some(Trim(e.company.value)) else p.company,
                location := if e.location.Some? then Some(Trim(e.location.value)) else p.location);
    if p.approval == Approved then q else q.(approval := Pending, isApproved := false)
  }

  /**
    `PUT /provider/profile`. 400 for a failed request check, 404 when the
    caller is not a stored provider, 500 when the update's validators refuse
    the address; otherwise the edited provider is stored.
   */
  function UpdateProfile(s: Store, caller: Id, e: ProfileEdit, emailShape: string -> bool): (r: Reply)
    ensures !RequestOk(s, caller, e, emailShape) ==> r == Refuse(s, 400)
    ensures RequestOk(s, caller, e, emailShape) && caller !in s.providers ==> r == Refuse(s, 404)
    ensures r.code == 200 <==> RequestOk(s, caller, e, emailShape) && caller in s.providers && UpdateValid(e, emailShape)
    ensures r.code == 200 ==> r.store == s.(providers := s.providers[caller := Edited(s.providers[caller], e)])
    ensures r.code != 200 ==> r.store == s
    ensures r.effects == []
  {
    if !RequestOk(s, caller, e, emailShape) then Refuse(s, 400)
    else if caller !in s.providers then Refuse(s, 404)
    else if !UpdateValid(e, emailShape) then Refuse(s, 500)
    else Reply(s.(providers := s.providers[caller := Edited(s.providers[caller], e)]), 200, [])
  }

  /** An approved provider keeps its approval through any edit; any other is sent back to pending. */
  lemma EditApprovalRule(s: Store, caller: Id, e: ProfileEdit, emailShape: string -> bool)
    requires UpdateProfile(s, caller, e, emailShape).code == 200
    ensures var before := s.providers[caller];
            var after := UpdateProfile(s, caller, e, emailShape).store.providers[caller];
            && (before.approval == Approved ==> after.approval == Approved && after.isApproved == before.isApproved)
            && (before.approval != Approved ==> after.approval == Pending && !after.isApproved)
  {
  }

  /** A profile edit keeps `isApproved` in agreement with the approval status. */
  lemma EditKeepsConsistent(s: Store, caller: Id, e: ProfileEdit, emailShape: string -> bool)
    requires ApprovalsConsistent(s)
    ensures ApprovalsConsistent(UpdateProfile(s, caller, e, emailShape).store)
  {
  }

  /** Every stored address is in lower case, as the schema's setter writes it. */
  predicate LowerCaseEmails(m: map<Id, Account>)
  {
    forall k :: k in m ==> Lower(m[k].email) == m[k].email
  }

  /** The address an edit leaves the caller with is held by no other provider. */
  lemma EditedEmailFree(s: Store, caller: Id, e: ProfileEdit, emailShape: string -> bool, other: Id)
    requires LowerCaseEmails(s.Accounts(ProviderRole)) && UniqueEmails(s.Accounts(ProviderRole))
    requires UpdateProfile(s, caller, e, emailShape).code == 200
    requires other in s.providers && other != caller
    ensures s.providers[other].account.email != Edited(s.providers[caller], e).account.email
  {
    var m := s.Accounts(ProviderRole);
    if e.email.Some? {
      if e.email.value != m[caller].email {
        assert FindByEmail(m, e.email.value).None?;
        assert m[other].email != Lower(e.email.value);
      } else {
        assert Lower(e.email.value) == m[caller].email;
      }
    } else {
      assert m[caller].email != m[other].email;
    }
  }

  /** No edit lets two providers share an address, nor stores one with an upper-case letter. */
  lemma EditKeepsUniqueEmails(s: Store, caller: Id, e: ProfileEdit, emailShape: string -> bool)
    requires LowerCaseEmails(s.Accounts(ProviderRole)) && UniqueEmails(s.Accounts(ProviderRole))
    ensures UniqueEmails(UpdateProfile(s, caller, e, emailShape).store.Accounts(ProviderRole))
    ensures LowerCaseEmails(UpdateProfile(s, caller, e, emailShape).store.Accounts(ProviderRole))
  {
    var r := UpdateProfile(s, caller, e, emailShape);
    if r.code == 200 {
      var m := s.Accounts(ProviderRole);
      var p := Edited(s.providers[caller], e);
      ProviderWriteAccounts(s, caller, p);
      forall other | other in m && other != caller
        ensures m[other].email != p.account.email
      {
        EditedEmailFree(s, caller, e, emailShape, other);
      }
      if e.email.Some? {
        LowerIdempotent(e.email.value);
      }
      ReplaceKeepsAddresses(m, caller, p.account);
    }
  }

  /** Replacing one account by one whose lower-case address no other account holds keeps the address invariants. */
  lemma ReplaceKeepsAddresses(m: map<Id, Account>, id: Id, a: Account)
    requires Lower(a.email) == a.email
    requires forall k :: k in m && k != id ==> m[k].email != a.email
    ensures UniqueEmails(m) ==> UniqueEmails(m[id := a])
    ensures LowerCaseEmails(m) ==> LowerCaseEmails(m[id := a])
  {
  }

  /**
    Re-submitting one's own address in another letter case is refused as
    "already in use": the lookup lower-cases it and finds the caller.
   */
  lemma OwnAddressRecasedRefused(s: Store, caller: Id, e: ProfileEdit, emailShape: string -> bool)
    requires caller in s.providers && NameOk(e.name)
    requires Given(e.email) && emailShape(e.email.value) && (!Given(e.phone) || PhoneDigits(e.phone.value))
    requires e.email.value != s.providers[caller].account.email
    requires Lower(e.email.value) == s.providers[caller].account.email
    ensures UpdateProfile(s, caller, e, emailShape) == Refuse(s, 400)
  {
    assert s.Accounts(ProviderRole)[caller].email == Lower(e.email.value);
  }
}

=== FILE: queue.dfy ===
/**
  The in-memory job queue: a FIFO list of jobs, one "processing" flag and a
  worker that repeatedly removes the head and hands it to the processor.

  The worker is a chain of timer callbacks. `workers` counts the chains that
  are still scheduled; `Step` is one callback of one chain. Timers and the
  100 ms spacing are not modelled: only the order of callbacks matters.
 */
module JobQueue {
  import opened Common

  datatype Job<T> = Job(id: string, data: T, timestamp: int)

  datatype Queue<T> = Queue(
    name: string,
    jobs: seq<Job<T>>,
    processing: bool,
    hasProcessor: bool,
    workers: nat)

  /** What the processor reported for a job; either way the job has left the list. */
  datatype Report = Completed(id: string) | Failed(id: string)

  /** Result of a transition that may have run one job. */
  datatype Ran<T> = Ran(queue: Queue<T>, job: Option<Job<T>>, report: Option<Report>)

  /** A queue as constructed: empty, idle, no processor yet. */
  function NewQueue<T>(name: string): (q: Queue<T>)
    ensures q.jobs == [] && !q.processing && !q.hasProcessor && q.workers == 0
  {
    Queue(name, [], false, false, 0)
  }

  function SetProcessor<T>(q: Queue<T>): Queue<T>
  {
    q.(hasProcessor := true)
  }

  /**
    One `processNext` callback. An empty list ends this worker chain and
    clears the flag; otherwise the head is removed and run. A job whose
    processor throws is only reported: it is not put back, and the chain
    goes on to the next job either way.
   */
  function Step<T>(q: Queue<T>, proc: T -> bool): (r: Ran<T>)
    requires q.workers > 0
    ensures q.jobs == [] ==> r.job.None? && r.report.None?
    ensures q.jobs == [] ==> r.queue == q.(processing := false, workers := q.workers - 1)
    ensures q.jobs != [] ==> r.job == Some(q.jobs[0]) && r.queue.jobs == q.jobs[1..]
    ensures q.jobs != [] ==> r.queue.processing == q.processing && r.queue.workers == q.workers
    ensures q.jobs != [] ==> r.report == Some(if proc(q.jobs[0].data) then Completed(q.jobs[0].id)
                                              else Failed(q.jobs[0].id))
    ensures r.queue.name == q.name && r.queue.hasProcessor == q.hasProcessor
  {
    if q.jobs == [] then Ran(q.(processing := false, workers := q.workers - 1), None, None)
    else
      var job := q.jobs[0];
      var report := if proc(job.data) then Completed(job.id) else Failed(job.id);
      Ran(q.(jobs := q.jobs[1..]), Some(job), Some(report))
  }

  /**
    `process()`: does nothing while the flag is set, while no processor is
    registered, or while the list is empty; otherwise sets the flag, starts a
    worker chain and runs its first callback at once.
   */
  function Process<T>(q: Queue<T>, proc: T -> bool): (r: Ran<T>)
    ensures (q.processing || !q.hasProcessor || q.jobs == []) ==> r == Ran(q, None, None)
    ensures !(q.processing || !q.hasProcessor || q.jobs == []) ==>
              && r.job == Some(q.jobs[0]) && r.queue.jobs == q.jobs[1..]
              && r.queue.processing && r.queue.workers == q.workers + 1
  {
    if q.processing || !q.hasProcessor || q.jobs == [] then Ran(q, None, None)
    else Step(q.(processing := true, workers := q.workers + 1), proc)
  }

  /** `add(data)`: append a job at the tail, then `process()`; the job is returned at once. */
  function Add<T>(q: Queue<T>, data: T, id: string, timestamp: int, proc: T -> bool): (r: (Job<T>, Ran<T>))
    ensures r.0 == Job(id, data, timestamp)
    ensures r.1.job.None? ==> r.1.queue.jobs == q.jobs + [r.0]
    ensures r.1.job.Some? ==> r.1.job.value == (q.jobs + [r.0])[0] && r.1.queue.jobs == (q.jobs + [r.0])[1..]
    ensures r.1.job.Some? <==> !q.processing && q.hasProcessor
  {
    var job := Job(id, data, timestamp);
    (job, Process(q.(jobs := q.jobs + [job]), proc))
  }

  datatype JobCounts = JobCounts(waiting: nat, active: nat, completed: nat, failed: nat, delayed: nat)

  /** `getJobCounts()`: only the waiting list and the flag are tracked. */
  function Counts<T>(q: Queue<T>): (c: JobCounts)
    ensures c.waiting == |q.jobs|
    ensures c.active == (if q.processing then 1 else 0)
    ensures c.completed == 0 && c.failed == 0 && c.delayed == 0
  {
    JobCounts(|q.jobs|, if q.processing then 1 else 0, 0, 0, 0)
  }

  /** `close()`: drops every queued job and clears the flag; a scheduled callback still fires. */
  function Close<T>(q: Queue<T>): (r: Queue<T>)
    ensures r.jobs == [] && !r.processing && r.workers == q.workers
  {
    q.(jobs := [], processing := false)
  }

  /** `pause()`: clears the flag only; the queued jobs stay, and the running chain is not stopped. */
  function Pause<T>(q: Queue<T>): (r: Queue<T>)
    ensures r.jobs == q.jobs && !r.processing && r.workers == q.workers
  {
    q.(processing := false)
  }

  /** `n` further callbacks of a running chain while jobs are waiting: the jobs it runs, in order. */
  function Drain<T>(q: Queue<T>, n: nat, proc: T -> bool): (r: (Queue<T>, seq<Job<T>>))
    requires q.workers > 0
    ensures var k := if n < |q.jobs| then n else |q.jobs|;
            r.1 == q.jobs[..k] && r.0.jobs == q.jobs[k..]
    ensures r.0.workers == q.workers && r.0.processing == q.processing
    decreases n
  {
    if n == 0 || q.jobs == [] then (q, [])
    else
      var first := Step(q, proc);
      var rest := Drain(first.queue, n - 1, proc);
      (rest.0, [first.job.value] + rest.1)
  }

  // ------------------------------------------------------------ properties

  /** The flag is set exactly while one worker chain is scheduled, and never more than one is. */
  predicate OneWorker<T>(q: Queue<T>)
  {
    q.workers <= 1 && (q.processing <==> q.workers == 1)
  }

  /** Without `pause` or `close`, adding jobs and running callbacks never starts a second worker. */
  lemma AddKeepsOneWorker<T>(q: Queue<T>, data: T, id: string, ts: int, proc: T -> bool)
    requires OneWorker(q)
    ensures OneWorker(Add(q, data, id, ts, proc).1.queue)
  {
  }

  lemma StepKeepsOneWorker<T>(q: Queue<T>, proc: T -> bool)
    requires OneWorker(q) && q.workers > 0
    ensures OneWorker(Step(q, proc).queue)
  {
  }

  /** The flag is cleared by a callback exactly when that callback finds the list empty. */
  lemma StepClearsFlagOnlyWhenEmpty<T>(q: Queue<T>, proc: T -> bool)
    requires OneWorker(q) && q.workers > 0
    ensures !Step(q, proc).queue.processing <==> q.jobs == []
  {
  }

  /** A failing job is dropped: the queue after its callback is the same as after a success. */
  lemma FailedJobIsDropped<T>(q: Queue<T>, ok: T -> bool, fails: T -> bool)
    requires q.workers > 0 && q.jobs != []
    requires ok(q.jobs[0].data) && !fails(q.jobs[0].data)
    ensures Step(q, fails).queue == Step(q, ok).queue
    ensures Step(q, fails).report == Some(Failed(q.jobs[0].id))
    ensures |Step(q, fails).queue.jobs| == |q.jobs| - 1
  {
  }

  /**
    Jobs run in the order they were added: a job added while a worker is
    running is run after every job that was already waiting.
   */
  lemma AddedJobRunsLast<T>(q: Queue<T>, data: T, id: string, ts: int, proc: T -> bool)
    requires q.processing && q.workers > 0
    ensures var added := Add(q, data, id, ts, proc);
            Drain(added.1.queue, |q.jobs| + 1, proc).1 == q.jobs + [added.0]
  {
  }

  /**
    `pause` does not stop the running chain, so an `add` after it starts a
    second worker next to the first: two chains then take jobs from the
    same list.
   */
  lemma PauseThenAddStartsSecondWorker<T>(q: Queue<T>, data: T, id: string, ts: int, proc: T -> bool)
    requires OneWorker(q) && q.processing && q.hasProcessor
    ensures Add(Pause(q), data, id, ts, proc).1.queue.workers == 2
    ensures !OneWorker(Add(Pause(q), data, id, ts, proc).1.queue)
  {
  }

  /** After `close` nothing waits and nothing is reported active; `pause` keeps the waiting jobs. */
  lemma CloseAndPauseCounts<T>(q: Queue<T>)
    ensures Counts(Close(q)) == JobCounts(0, 0, 0, 0, 0)
    ensures Counts(Pause(q)) == JobCounts(|q.jobs|, 0, 0, 0, 0)
  {
  }
}

=== FILE: replies.dfy ===
/**
  What a handler returns: the store after the request, the HTTP status code,
  and the side effects it started (in the order it started them).
 */
module Replies {
  import opened Store
  import opened Mail

  datatype Effect =
    | Enqueue(request: EmailRequest)          // a call to `addEmailJob`
    | Send(sender: Sender, data: EmailData)   // a direct call to a sender, awaited in the handler
    | Notify(notice: Notice)                  // a call to `addNotificationJob`

  datatype Reply = Reply(store: Store, code: int, effects: seq<Effect>)

  /** An early return: nothing written, nothing started. */
  function Refuse(s: Store, code: int): (r: Reply)
    ensures r.store == s && r.code == code && r.effects == []
  {
    Reply(s, code, [])
  }
}

=== FILE: reviews.dfy ===
/**
  Review submission and the service rating it recomputes: the mean of every
  rating on the service's bookings whose status matches `/^reviewed$/i`.
  Ratings are kept as exact reals; the aggregate is a (sum, count) pair.
 */
module Reviews {
  import opened Common
  import opened Text
  import opened Schema
  import opened Store
  import opened Replies

  /**
    The status test of the aggregation query, as the database's regular
    expression engine runs it: case-insensitive, and `$` also matches just
    before a final newline. ASCII folding is exact here: no other character
    folds to a letter of "reviewed".
   */
  predicate MatchesReviewed(status: string)
  {
    Lower(status) == "reviewed" || Lower(status) == "reviewed\n"
  }

  /** The statuses a booking must have (after lower-casing) to be reviewed. */
  const Reviewable: seq<string> := ["completed", "reviewed"]

  function SumRatings(rs: seq<Review>): (t: real)
    ensures (forall i :: 0 <= i < |rs| ==> 1.0 <= rs[i].rating <= 5.0) ==>
              |rs| as real <= t <= 5.0 * |rs| as real
  {
    if rs == [] then 0.0 else SumRatings(rs[..|rs| - 1]) + rs[|rs| - 1].rating
  }

  datatype Totals = Totals(sum: real, count: nat)

  function Plus(a: Totals, b: Totals): Totals
  {
    Totals(a.sum + b.sum, a.count + b.count)
  }

  /** What one booking adds to its service's aggregate. */
  function Contribution(b: Booking, service: Id): (t: Totals)
    ensures t.count > 0 ==> b.service == service && MatchesReviewed(b.status)
  {
    if b.service == service && MatchesReviewed(b.status) then Totals(SumRatings(b.reviews), |b.reviews|)
    else Totals(0.0, 0)
  }

  /** Every review rating in the collection lies in [1, 5], as the review validator demands. */
  predicate RatingsValid(m: map<Id, Booking>)
  {
    forall k, i :: k in m && 0 <= i < |m[k].reviews| ==> 1.0 <= m[k].reviews[i].rating <= 5.0
  }

  /** The sum and count of the ratings on the matching bookings of `service`. */
  function ReviewTotals(m: map<Id, Booking>, service: Id): (t: Totals)
    ensures t.count > 0 ==> exists k :: k in m && m[k].service == service && MatchesReviewed(m[k].status)
    ensures (forall k :: k in m ==> m[k].service != service || !MatchesReviewed(m[k].status)) ==> t == Totals(0.0, 0)
    decreases |m|
  {
    if m == map[] then Totals(0.0, 0)
    else
      var k := Least(m.Keys);
      Plus(Contribution(m[k], service), ReviewTotals(m - {k}, service))
  }

  /**
    With no matching review the sum is zero; over valid ratings the sum lies
    within [count, 5 * count], so the mean lies within [1, 5].
   */
  lemma {:induction false} TotalsBounded(m: map<Id, Booking>, service: Id)
    ensures var t := ReviewTotals(m, service);
            && (t.count == 0 ==> t.sum == 0.0)
            && (RatingsValid(m) ==> t.count as real <= t.sum <= 5.0 * t.count as real)
    decreases |m|
  {
    if m != map[] {
      var k := Least(m.Keys);
      ValidWithout(m, k);
      TotalsBounded(m - {k}, service);
      TotalsUnfold(m, service, k);
      ContributionBounded(m[k], service, RatingsValid(m));
      PlusBounded(Contribution(m[k], service), ReviewTotals(m - {k}, service), RatingsValid(m));
    }
  }

  /** What one booking adds sums to 0 without reviews, and within [n, 5n] for n valid ratings. */
  lemma ContributionBounded(b: Booking, service: Id, valid: bool)
    requires valid ==> forall i :: 0 <= i < |b.reviews| ==> 1.0 <= b.reviews[i].rating <= 5.0
    ensures var c := Contribution(b, service);
            && (c.count == 0 ==> c.sum == 0.0)
            && (valid ==> c.count as real <= c.sum <= 5.0 * c.count as real)
  {
    if b.reviews == [] {
      assert SumRatings(b.reviews) == 0.0;
    }
  }

  /** Adding two aggregates keeps both bounds. */
  lemma PlusBounded(a: Totals, b: Totals, valid: bool)
    requires a.count == 0 ==> a.sum == 0.0
    requires b.count == 0 ==> b.sum == 0.0
    requires valid ==> a.count as real <= a.sum <= 5.0 * a.count as real
    requires valid ==> b.count as real <= b.sum <= 5.0 * b.count as real
    ensures var t := Plus(a, b);
            && (t.count == 0 ==> t.sum == 0.0)
            && (valid ==> t.count as real <= t.sum <= 5.0 * t.count as real)
  {
    assert (a.count + b.count) as real == a.count as real + b.count as real;
  }

  /** Taking a booking out keeps the ratings valid, and the one taken out has valid ratings. */
  lemma ValidWithout(m: map<Id, Booking>, k: Id)
    requires k in m
    ensures RatingsValid(m) ==> RatingsValid(m - {k})
    ensures RatingsValid(m) ==> forall i :: 0 <= i < |m[k].reviews| ==> 1.0 <= m[k].reviews[i].rating <= 5.0
  {
    if RatingsValid(m) {
      var rest := m - {k};
      forall j, i | j in rest && 0 <= i < |rest[j].reviews|
        ensures 1.0 <= rest[j].reviews[i].rating <= 5.0
      {
        assert rest[j] == m[j];
      }
    }
  }

  /** The totals do not depend on the order the bookings are visited in: any one booking can be taken out first. */
  lemma {:induction false} TotalsWithout(m: map<Id, Booking>, service: Id, k: Id)
    requires k in m
    ensures ReviewTotals(m, service) == Plus(Contribution(m[k], service), ReviewTotals(m - {k}, service))
    decreases |m|
  {
    var j := Least(m.Keys);
    if j == k {
      TotalsUnfold(m, service, j);
    } else {
      var mj := m - {j};
      var mk := m - {k};
      TwoRemovals(m, j, k);
      LeastWithout(m.Keys, j, k);
      TotalsWithout(mj, service, k);
      TotalsUnfold(m, service, j);
      TotalsUnfold(mk, service, j);
      PlusSwap(Contribution(m[j], service), Contribution(m[k], service), ReviewTotals(mj - {k}, service));
    }
  }

  /** Taking two distinct keys out of a map: each stays in the map without the other, and either order gives the same map. */
  lemma TwoRemovals<V>(m: map<Id, V>, j: Id, k: Id)
    requires j in m && k in m && j != k
    ensures k in m - {j} && (m - {j})[k] == m[k]
    ensures j in m - {k} && (m - {k})[j] == m[j]
    ensures (m - {k}).Keys == m.Keys - {k}
    ensures (m - {k}) - {j} == (m - {j}) - {k}
  {
    var a := (m - {k}) - {j};
    var b := (m - {j}) - {k};
    assert a.Keys == b.Keys;
    assert forall x :: x in a ==> a[x] == m[x] == b[x];
  }

  /** One unfolding of the totals, at the least key. */
  lemma TotalsUnfold(m: map<Id, Booking>, service: Id, j: Id)
    requires j in m && j == Least(m.Keys)
    ensures ReviewTotals(m, service) == Plus(Contribution(m[j], service), ReviewTotals(m - {j}, service))
  {
  }

  /** Taking out a key other than the least keeps the least. */
  lemma LeastWithout(keys: set<Id>, j: Id, k: Id)
    requires j in keys && k in keys && j != k
    requires forall x :: x in keys ==> j <= x
    ensures j in keys - {k} && Least(keys - {k}) == j
  {
    var l := Least(keys - {k});
    assert l in keys;
  }

  /** Two contributions can be added in either order. */
  lemma PlusSwap(a: Totals, b: Totals, c: Totals)
    ensures Plus(a, Plus(b, c)) == Plus(b, Plus(a, c))
  {
  }

  /** `totalReviews > 0 ? totalRating / totalReviews : 0`. */
  function Average(t: Totals): (a: real)
    ensures t.count > 0 && t.count as real <= t.sum <= 5.0 * t.count as real ==> 1.0 <= a <= 5.0
    ensures t.count == 0 ==> a == 0.0
  {
    if t.count > 0 then t.sum / t.count as real else 0.0
  }

  /** At most one review, and only by the booking's own user. */
  predicate OneReview(b: Booking)
  {
    b.reviews == [] || (|b.reviews| == 1 && b.reviews[0].user == b.user)
  }

  /**
    `POST /bookings/:id/review`. The rating must be a number in [1, 5] and the
    comment non-blank; only the booking's user may review, only a completed
    (or already reviewed) booking, and only once. The review is appended, the
    booking becomes `reviewed`, and the service's rating and review count are
    recomputed from all its reviewed bookings when the service still exists.
    Saving re-validates the whole booking against the schema (a time, a known
    status, every review rated in [1, 5] with a comment); a booking that fails
    it is not written and the route answers 500.
   */
  function SubmitReview(s: Store, caller: Id, id: Id, rating: Option<real>, comment: Option<string>,
                        now: int): (r: Reply)
    ensures r.effects == []
    ensures r.code in {200, 400, 404, 500}
    ensures rating.None? || rating.value < 1.0 || rating.value > 5.0 ==> r == Refuse(s, 400)
    ensures r.code == 200 <==>
              && rating.Some? && 1.0 <= rating.value <= 5.0
              && comment.Some? && Trim(comment.value) != ""
              && id in s.bookings && s.bookings[id].user == caller
              && Lower(s.bookings[id].status) in Reviewable
              && (forall i :: 0 <= i < |s.bookings[id].reviews| ==> s.bookings[id].reviews[i].user != caller)
              && ValidBooking(Reviewed(s.bookings[id], caller, rating.value, comment.value, now))
    ensures r.code == 500 <==>
              && rating.Some? && 1.0 <= rating.value <= 5.0
              && comment.Some? && Trim(comment.value) != ""
              && id in s.bookings && s.bookings[id].user == caller
              && Lower(s.bookings[id].status) in Reviewable
              && (forall i :: 0 <= i < |s.bookings[id].reviews| ==> s.bookings[id].reviews[i].user != caller)
              && !ValidBooking(Reviewed(s.bookings[id], caller, rating.value, comment.value, now))
    ensures r.code == 404 <==>
              && rating.Some? && 1.0 <= rating.value <= 5.0
              && comment.Some? && Trim(comment.value) != ""
              && (id !in s.bookings || s.bookings[id].user != caller)
    ensures r.code != 200 ==> r.store == s
    ensures r.code == 200 ==>
              var b := s.bookings[id];
              var sv := b.service;
              && r.store.bookings == s.bookings[id := b.(status := "reviewed",
                                                         reviews := b.reviews + [Review(caller, rating.value, comment.value, now)])]
              && r.store.users == s.users && r.store.providers == s.providers && r.store.admins == s.admins
              && r.store.services.Keys == s.services.Keys
              && (forall k :: k in s.services && k != sv ==> r.store.services[k] == s.services[k])
              && (sv in s.services ==>
                    var t := ReviewTotals(r.store.bookings, sv);
                    && r.store.services[sv].rating == Average(t)
                    && r.store.services[sv].reviewCount == t.count
                    && r.store.services[sv].(rating := s.services[sv].rating,
                                             reviewCount := s.services[sv].reviewCount) == s.services[sv])
  {
    if rating.None? || rating.value < 1.0 || rating.value > 5.0 then Refuse(s, 400)
    else if comment.None? || Trim(comment.value) == "" then Refuse(s, 400)
    else if id !in s.bookings || s.bookings[id].user != caller then Refuse(s, 404)
    else
      var b := s.bookings[id];
      if Lower(b.status) !in Reviewable then Refuse(s, 400)
      else if exists i :: 0 <= i < |b.reviews| && b.reviews[i].user == caller then Refuse(s, 400)
      else
        var b' := Reviewed(b, caller, rating.value, comment.value, now);
        if !ValidBooking(b') then Refuse(s, 500)
        else
          var saved := s.(bookings := s.bookings[id := b']);
          if b.service !in saved.services then Reply(saved, 200, [])
          else
            var t := ReviewTotals(saved.bookings, b.service);
            var svc := saved.services[b.service].(rating := Average(t), reviewCount := t.count);
            Reply(saved.(services := saved.services[b.service := svc]), 200, [])
  }

  /** The booking as the review route saves it: the new review appended and the status `reviewed`. */
  function Reviewed(b: Booking, caller: Id, rating: real, comment: string, now: int): Booking
  {
    b.(reviews := b.reviews + [Review(caller, rating, comment, now)], status := "reviewed")
  }

  /**
    A request that passes the route's checks on a booking the schema accepts
    is saved: the 500 of a failed save needs a stored booking that is already
    invalid (no time, or an earlier review out of range).
   */
  lemma ValidBookingSaves(s: Store, caller: Id, id: Id, rating: real, comment: string, now: int)
    requires 1.0 <= rating <= 5.0 && Trim(comment) != ""
    requires id in s.bookings && s.bookings[id].user == caller && ValidBooking(s.bookings[id])
    requires Lower(s.bookings[id].status) in Reviewable
    requires forall i :: 0 <= i < |s.bookings[id].reviews| ==> s.bookings[id].reviews[i].user != caller
    ensures SubmitReview(s, caller, id, Some(rating), Some(comment), now).code == 200
  {
    var b' := Reviewed(s.bookings[id], caller, rating, comment, now);
    assert b'.reviews[|b'.reviews| - 1].comment == comment;
    assert forall i :: 0 <= i < |b'.reviews| ==> ValidReview(b'.reviews[i]) by {
      forall i | 0 <= i < |b'.reviews|
        ensures ValidReview(b'.reviews[i])
      {
        if i < |s.bookings[id].reviews| {
          assert b'.reviews[i] == s.bookings[id].reviews[i];
        }
      }
    }
  }

  /** A review is added only to a booking holding none, so a booking never holds more than one. */
  lemma ReviewKeepsOneReview(s: Store, caller: Id, id: Id, rating: Option<real>, comment: Option<string>, now: int)
    requires id in s.bookings && OneReview(s.bookings[id])
    requires SubmitReview(s, caller, id, rating, comment, now).code == 200
    ensures var b := SubmitReview(s, caller, id, rating, comment, now).store.bookings[id];
            OneReview(b) && |b.reviews| == 1 && |s.bookings[id].reviews| == 0
  {
    var b := s.bookings[id];
    var after := SubmitReview(s, caller, id, rating, comment, now).store.bookings[id];
    assert after.reviews == b.reviews + [Review(caller, rating.value, comment.value, now)];
  }

  /** A second review of the same booking by the same user is refused. */
  lemma SecondReviewRefused(s: Store, caller: Id, id: Id, rating: Option<real>, comment: Option<string>, now: int,
                            rating2: Option<real>, comment2: Option<string>, later: int)
    requires SubmitReview(s, caller, id, rating, comment, now).code == 200
    ensures SubmitReview(SubmitReview(s, caller, id, rating, comment, now).store, caller, id, rating2, comment2, later).code != 200
  {
    var s' := SubmitReview(s, caller, id, rating, comment, now).store;
    var b' := s'.bookings[id];
    assert b'.reviews[|b'.reviews| - 1].user == caller;
  }

  /**
    After a review the service's count is the count over its other bookings
    plus this booking's earlier reviews plus the new one, and its rating
    stays within the schema's bounds [0, 5] when every stored rating did.
   */
  lemma RecomputedAggregate(s: Store, caller: Id, id: Id, rating: Option<real>, comment: Option<string>, now: int)
    requires SubmitReview(s, caller, id, rating, comment, now).code == 200
    requires s.bookings[id].service in s.services
    requires RatingsValid(s.bookings)
    ensures var r := SubmitReview(s, caller, id, rating, comment, now);
            var sv := s.bookings[id].service;
            && r.store.services[sv].reviewCount
                 == ReviewTotals(s.bookings - {id}, sv).count + |s.bookings[id].reviews| + 1
            && 1.0 <= r.store.services[sv].rating <= 5.0
  {
    var sv := s.bookings[id].service;
    var b := s.bookings[id];
    var b' := b.(reviews := b.reviews + [Review(caller, rating.value, comment.value, now)], status := "reviewed");
    SubmitReviewWrites(s, caller, id, rating, comment, now);
    AggregateAfterAppend(s.bookings, id, b', sv, rating.value);
  }

  /**
    Replacing a booking of the listing by its reviewed copy with one more
    valid rating adds that review to the count and keeps the mean in [1, 5].
   */
  lemma AggregateAfterAppend(m: map<Id, Booking>, id: Id, b': Booking, sv: Id, rating: real)
    requires RatingsValid(m) && id in m && 1.0 <= rating <= 5.0
    requires b'.service == sv && b'.status == "reviewed"
    requires |b'.reviews| == |m[id].reviews| + 1 && b'.reviews[..|m[id].reviews|] == m[id].reviews
    requires b'.reviews[|m[id].reviews|].rating == rating
    ensures ReviewTotals(m[id := b'], sv).count == ReviewTotals(m - {id}, sv).count + |m[id].reviews| + 1
    ensures 1.0 <= Average(ReviewTotals(m[id := b'], sv)) <= 5.0
  {
    LowerOfLowerCase("reviewed");
    TotalsAfterAppend(m, id, b', sv);
    AppendKeepsRatingsValid(m, id, b', rating);
    TotalsBounded(m[id := b'], sv);
  }

  /** A successful review stores the appended booking and the listing's recomputed aggregate. */
  lemma SubmitReviewWrites(s: Store, caller: Id, id: Id, rating: Option<real>, comment: Option<string>, now: int)
    requires SubmitReview(s, caller, id, rating, comment, now).code == 200
    requires s.bookings[id].service in s.services
    ensures var r := SubmitReview(s, caller, id, rating, comment, now);
            var b := s.bookings[id];
            var sv := b.service;
            var m := s.bookings[id := b.(reviews := b.reviews + [Review(caller, rating.value, comment.value, now)],
                                         status := "reviewed")];
            && rating.Some? && 1.0 <= rating.value <= 5.0
            && r.store.services[sv].rating == Average(ReviewTotals(m, sv))
            && r.store.services[sv].reviewCount == ReviewTotals(m, sv).count
  {
  }

  /** Replacing a booking by a reviewed one with one more review of the service adds exactly one to the count. */
  lemma TotalsAfterAppend(m: map<Id, Booking>, id: Id, b': Booking, sv: Id)
    requires id in m && b'.service == sv && MatchesReviewed(b'.status)
    requires |b'.reviews| == |m[id].reviews| + 1
    ensures ReviewTotals(m[id := b'], sv).count == ReviewTotals(m - {id}, sv).count + |m[id].reviews| + 1
  {
    ReplaceThenRemove(m, id, b');
    TotalsWithout(m[id := b'], sv, id);
  }

  /** Replacing the value at a key and then taking the key out gives the map without that key. */
  lemma ReplaceThenRemove<V>(m: map<Id, V>, id: Id, v: V)
    ensures id in m[id := v] && m[id := v][id] == v
    ensures m[id := v] - {id} == m - {id}
  {
  }

  /** Appending a rating within [1, 5] to one booking keeps every stored rating within [1, 5]. */
  lemma AppendKeepsRatingsValid(m: map<Id, Booking>, id: Id, b': Booking, rating: real)
    requires RatingsValid(m) && id in m && 1.0 <= rating <= 5.0
    requires |b'.reviews| == |m[id].reviews| + 1 && b'.reviews[..|m[id].reviews|] == m[id].reviews
    requires b'.reviews[|m[id].reviews|].rating == rating
    ensures RatingsValid(m[id := b'])
  {
    var m' := m[id := b'];
    forall k, i | k in m' && 0 <= i < |m'[k].reviews|
      ensures 1.0 <= m'[k].reviews[i].rating <= 5.0
    {
      if k == id && i < |m[id].reviews| {
        assert m'[k].reviews[i] == b'.reviews[..|m[id].reviews|][i];
      }
    }
  }
}

=== FILE: schema.dfy ===
/**
  The five document schemas (Booking, Service, Provider, User, Admin): their
  records, enumerations and defaults, the field validators, and the
  pre-save hook that hashes a password only when the save modified it.

  Booking and service statuses are kept as strings, as the database stores
  them: old documents may carry values outside the enumeration, and an
  administrator's service update is written without running validators.
 */
module Schema {
  import opened Common
  import opened Text

  // ---------------------------------------------------------------- roles

  datatype Role = UserRole | ProviderRole | AdminRole {
    function Name(): string {
      match this
      case UserRole => "user"
      case ProviderRole => "provider"
      case AdminRole => "admin"
    }
  }

  /** The `role === 'user' / 'provider' / 'admin'` switch that picks a collection. */
  function ParseRole(s: string): (r: Option<Role>)
    ensures r.Some? ==> r.value.Name() == s
    ensures forall role: Role :: role.Name() == s ==> r == Some(role)
  {
    if s == "user" then Some(UserRole)
    else if s == "provider" then Some(ProviderRole)
    else if s == "admin" then Some(AdminRole)
    else None
  }

  /** An authenticated caller, as the authorisation middleware leaves it on the request. */
  datatype Caller = Caller(role: Role, id: Id)

  // -------------------------------------------------------------- booking

  /** The enumeration of the booking `status` field; `confirmed` is not among them. */
  const BookingStatuses: seq<string> :=
    ["payment_pending", "pending", "approved", "scheduled", "in_progress",
     "completed", "reviewed", "cancelled", "rejected"]

  const DefaultBookingStatus: string := "payment_pending"

  predicate IsBookingStatus(s: string) { s in BookingStatuses }

  datatype PaymentStatus = PaymentPending | Paid | PaymentFailed {
    function Name(): string {
      match this
      case PaymentPending => "pending"
      case Paid => "paid"
      case PaymentFailed => "failed"
    }
  }

  const DefaultPaymentStatus: PaymentStatus := PaymentPending

  datatype Review = Review(user: Id, rating: real, comment: string, createdAt: int)

  /** The review sub-document's validators: rating within [1, 5] (not forced to be whole), comment present. */
  predicate ValidReview(r: Review)
  {
    1.0 <= r.rating <= 5.0 && r.comment != ""
  }

  datatype Booking = Booking(
    user: Id,
    service: Id,
    provider: Id,
    date: int,
    time: string,
    status: string,
    notes: Option<string>,
    price: int,
    location: string,
    orderId: Option<string>,
    paymentId: Option<string>,
    signature: Option<string>,
    paymentStatus: PaymentStatus,
    reviews: seq<Review>)

  /** What the booking schema's validators demand of a document written with them. */
  predicate ValidBooking(b: Booking)
  {
    && b.time != ""
    && IsBookingStatus(b.status)
    && forall i :: 0 <= i < |b.reviews| ==> ValidReview(b.reviews[i])
  }

  // -------------------------------------------------------------- service

  const ServiceStatuses: seq<string> := ["pending", "approved", "rejected"]

  const DefaultServiceStatus: string := "pending"

  predicate IsServiceStatus(s: string) { s in ServiceStatuses }

  datatype Service = Service(
    name: string,
    description: string,
    provider: Id,
    category: string,
    price: int,
    location: string,
    duration: string,
    availability: seq<string>,
    status: string,
    adminNotes: Option<string>,
    rating: real,
    reviewCount: int)

  /** A rating stays within the schema's bounds [0, 5]. */
  predicate RatingInBounds(r: real) { 0.0 <= r <= 5.0 }

  /** What the service schema's validators demand of a document they check. */
  predicate ValidService(s: Service)
  {
    && s.name != "" && s.description != "" && s.category != ""
    && s.location != "" && s.duration != ""
    && IsServiceStatus(s.status)
    && RatingInBounds(s.rating)
  }

  // ------------------------------------------------------------- accounts

  /** The fields every account collection shares (User, Provider and Admin). */
  datatype Account = Account(
    name: string,
    email: string,
    password: string,
    phone: Option<string>,
    isVerified: bool,
    otp: Option<int>,
    otpExpiry: Option<int>,
    tempPassword: Option<string>,
    resetToken: Option<string>,
    resetExpires: Option<int>)

  datatype Approval = Pending | Approved | Rejected {
    function Name(): string {
      match this
      case Pending => "pending"
      case Approved => "approved"
      case Rejected => "rejected"
    }
  }

  datatype Provider = Provider(
    account: Account,
    company: Option<string>,
    location: Option<string>,
    isApproved: bool,
    approval: Approval,
    adminNotes: Option<string>,
    services: seq<Id>,
    rating: real,
    reviewCount: int)

  /** A fresh account record with the schema defaults: not verified, no reset in progress. */
  function NewAccount(name: string, email: string, password: string, phone: Option<string>,
                      otp: int, otpExpiry: int): (a: Account)
    ensures !a.isVerified && a.otp == Some(otp) && a.otpExpiry == Some(otpExpiry)
    ensures a.tempPassword.None? && a.resetToken.None? && a.resetExpires.None?
  {
    Account(name, email, password, phone, false, Some(otp), Some(otpExpiry), None, None, None)
  }

  /** A fresh provider document with the schema defaults around an account. */
  function NewProvider(a: Account, company: Option<string>): (p: Provider)
    ensures !p.isApproved && p.approval == Pending
    ensures p.services == [] && p.rating == 0.0 && p.reviewCount == 0
    ensures p.account == a && p.company == company
  {
    Provider(a, company, None, false, Pending, None, [], 0.0, 0)
  }

  // ----------------------------------------------------------- validators

  /** Length as JavaScript counts it: characters outside the Basic Multilingual Plane count twice. */
  function Utf16Length(s: string): (n: nat)
    ensures |s| <= n <= 2 * |s|
  {
    if s == [] then 0 else (if s[0] as int > 0xFFFF then 2 else 1) + Utf16Length(s[1..])
  }

  /**
    The password pattern `^(?=.*[A-Z])(?=.*[a-z])(?=.*\d)(?=.*[\W_]).{8,}$`:
    eight or more characters, none of them a line terminator, with an
    upper-case letter, a lower-case letter, a digit and a character that is
    not an ASCII letter or digit.
   */
  predicate StrongPassword(p: string)
  {
    && Utf16Length(p) >= 8
    && (forall k :: 0 <= k < |p| ==> !IsLineTerminator(p[k]))
    && (exists k :: 0 <= k < |p| && IsUpper(p[k]))
    && (exists k :: 0 <= k < |p| && IsLower(p[k]))
    && (exists k :: 0 <= k < |p| && IsDigit(p[k]))
    && (exists k :: 0 <= k < |p| && !IsUpper(p[k]) && !IsLower(p[k]) && !IsDigit(p[k]))
  }

  /** The pattern `^[0-9]{10,12}$`. */
  predicate PhoneDigits(s: string)
  {
    10 <= |s| <= 12 && forall k :: 0 <= k < |s| ==> IsDigit(s[k])
  }

  /** The phone validator; like every pattern validator it lets an absent or empty value through. */
  predicate PhoneOk(phone: Option<string>)
  {
    phone.None? || phone.value == "" || PhoneDigits(phone.value)
  }

  /**
    The validators a new account document must pass before it is inserted:
    the trimmed name and the e-mail are required, the lower-cased e-mail
    must have the address shape, the password must be strong and the phone
    well formed.
   */
  predicate ValidNewAccount(name: string, email: string, password: string, phone: Option<string>,
                            emailShape: string -> bool)
  {
    && Trim(name) != ""
    && email != ""
    && emailShape(Lower(email))
    && StrongPassword(password)
    && PhoneOk(phone)
  }

  // ---------------------------------------------------------- pre-save hook

  /** Whether a save of `next` over the stored document modifies the password path. */
  predicate PasswordModified(stored: Option<Account>, next: Account)
  {
    stored.None? || stored.value.password != next.password
  }

  /**
    Saving an account document. The validators run on every loaded path, so
    the password validator sees the plain text when the save modified the
    password and the stored hash otherwise; a failure aborts the save. The
    pre-save hook then replaces a modified password by its hash, and only a
    modified one.
   */
  function SaveAccount(stored: Option<Account>, next: Account, hash: string -> string): (r: Option<Account>)
    ensures r.Some? <==> StrongPassword(next.password) && PhoneOk(next.phone)
    ensures r.Some? ==> r.value.(password := next.password) == next
    ensures r.Some? && PasswordModified(stored, next) ==> r.value.password == hash(next.password)
    ensures r.Some? && !PasswordModified(stored, next) ==> r.value.password == stored.value.password
  {
    if !StrongPassword(next.password) || !PhoneOk(next.phone) then None
    else if PasswordModified(stored, next) then Some(next.(password := hash(next.password)))
    else Some(next)
  }

  /**
    A stored hash is never hashed a second time: once saved, saving the
    document again unchanged writes it back as it is.
   */
  lemma SaveHashesOnce(stored: Option<Account>, next: Account, hash: string -> string)
    requires SaveAccount(stored, next, hash).Some?
    requires StrongPassword(SaveAccount(stored, next, hash).value.password)
    ensures var saved := SaveAccount(stored, next, hash).value;
            SaveAccount(Some(saved), saved, hash) == Some(saved)
  {
  }
}

=== FILE: services.dfy ===
/**
  The service listing routes: a provider creates a listing (always pending),
  edits it (keeping an approval it already has), an admin approves or
  rejects it (rejection deletes it), and its owner or an admin deletes it.
  A provider's `services` list follows creation and deletion.

  A request body is a `ServiceBody`: every field optional, as the body is
  spread into the document or passed as the update. A field the body does
  not carry leaves the stored value alone.
 */
module Services {
  import opened Common
  import opened Text
  import opened Schema
  import opened Store
  import opened Mail
  import opened Replies

  /** The fields a request body may carry for a service. */
  datatype ServiceBody = ServiceBody(
    name: Option<string>,
    description: Option<string>,
    provider: Option<Id>,
    category: Option<string>,
    price: Option<int>,
    location: Option<string>,
    duration: Option<string>,
    availability: Option<seq<string>>,
    status: Option<string>,
    adminNotes: Option<string>,
    rating: Option<real>,
    reviewCount: Option<int>)

  /** `$pull`: every occurrence of `x` removed, the rest in order. */
  function Pull(xs: seq<Id>, x: Id): (r: seq<Id>)
    ensures forall y :: y in r <==> y in xs && y != x
    ensures x !in xs ==> r == xs
    ensures |r| <= |xs|
  {
    if xs == [] then []
    else if xs[0] == x then Pull(xs[1..], x)
    else [xs[0]] + Pull(xs[1..], x)
  }

  /** A value the body carries, else the one already there. */
  function Or<T>(o: Option<T>, d: T): (r: T)
    ensures o.Some? ==> r == o.value
    ensures o.None? ==> r == d
  {
    if o.Some? then o.value else d
  }

  /**
    `new Service({ ...body, provider, status: 'pending' })`: the document a
    create builds, with the schema defaults for what the body leaves out;
    nothing when a required field is missing.
   */
  function Draft(body: ServiceBody, owner: Id): (r: Option<Service>)
    ensures r.Some? <==> body.name.Some? && body.description.Some? && body.category.Some?
                         && body.price.Some? && body.location.Some? && body.duration.Some?
    ensures r.Some? ==> r.value.provider == owner && r.value.status == DefaultServiceStatus
    ensures r.Some? ==> r.value.name == body.name.value && r.value.price == body.price.value
    ensures r.Some? ==> r.value.rating == (if body.rating.Some? then body.rating.value else 0.0)
    ensures r.Some? ==> r.value.reviewCount == (if body.reviewCount.Some? then body.reviewCount.value else 0)
    ensures r.Some? ==> r.value.availability == (if body.availability.Some? then body.availability.value else [])
  {
    if body.name.None? || body.description.None? || body.category.None? || body.price.None?
       || body.location.None? || body.duration.None? then None
    else Some(Service(body.name.value, body.description.value, owner, body.category.value, body.price.value,
                      body.location.value, body.duration.value, Or(body.availability, []), DefaultServiceStatus,
                      body.adminNotes, Or(body.rating, 0.0), Or(body.reviewCount, 0)))
  }

  /** `findByIdAndUpdate(id, body)`: every field the body carries overwrites; no validator runs. */
  function Overwrite(svc: Service, body: ServiceBody): (r: Service)
    ensures body == ServiceBody(None, None, None, None, None, None, None, None, None, None, None, None) ==> r == svc
    ensures r.status == Or(body.status, svc.status) && r.provider == Or(body.provider, svc.provider)
  {
    Service(Or(body.name, svc.name), Or(body.description, svc.description), Or(body.provider, svc.provider),
            Or(body.category, svc.category), Or(body.price, svc.price), Or(body.location, svc.location),
            Or(body.duration, svc.duration), Or(body.availability, svc.availability), Or(body.status, svc.status),
            if body.adminNotes.Some? then body.adminNotes else svc.adminNotes,
            Or(body.rating, svc.rating), Or(body.reviewCount, svc.reviewCount))
  }

  // ------------------------------------------------------------------ create

  /**
    `POST /services`. Only a provider may create (403), and only one that
    exists (404). The listing belongs to the caller and starts pending
    whatever the body says; it must pass the schema's validators (500), and
    its id is appended to the provider's list.
   */
  function CreateService(s: Store, caller: Caller, body: ServiceBody): (r: Reply)
    ensures caller.role != ProviderRole ==> r == Refuse(s, 403)
    ensures caller.role == ProviderRole && caller.id !in s.providers ==> r == Refuse(s, 404)
    ensures r.code == 201 <==>
              && caller.role == ProviderRole && caller.id in s.providers
              && Draft(body, caller.id).Some? && ValidService(Draft(body, caller.id).value)
    ensures r.code == 201 ==>
              && r.store.services == s.services[s.NewId() := Draft(body, caller.id).value]
              && r.store.services[s.NewId()].provider == caller.id
              && r.store.services[s.NewId()].status == "pending"
              && r.store.providers == s.providers[caller.id := s.providers[caller.id].(
                                           services := s.providers[caller.id].services + [s.NewId()])]
              && r.store.users == s.users && r.store.admins == s.admins && r.store.bookings == s.bookings
    ensures r.code != 201 ==> r.store == s
    ensures r.effects == []
  {
    if caller.role != ProviderRole then Refuse(s, 403)
    else if caller.id !in s.providers then Refuse(s, 404)
    else match Draft(body, caller.id)
      case None => Refuse(s, 500)
      case Some(svc) =>
        if !ValidService(svc) then Refuse(s, 500)
        else
          var id := s.NewId();
          var p := s.providers[caller.id];
          Reply(s.(services := s.services[id := svc],
                   providers := s.providers[caller.id := p.(services := p.services + [id])]), 201, [])
  }

  // ------------------------------------------------------------------ update

  /** Only an admin or the listing's own provider may change or delete it. */
  predicate MayEdit(svc: Service, caller: Caller)
  {
    caller.role == AdminRole || svc.provider == caller.id
  }

  /** The status a provider's edit writes: an approval survives, anything else goes back to pending. */
  function EditStatus(current: string): (r: string)
    ensures r == "approved" <==> current == "approved"
    ensures r in ServiceStatuses
  {
    if current == "approved" then "approved" else "pending"
  }

  /**
    `PUT /services/:id`. 404 for an unknown listing, 403 for anyone but an
    admin or the owner. A provider's body status is replaced by the status
    rule; an admin's (or any other role's) passes through unchecked.
   */
  function UpdateService(s: Store, caller: Caller, id: Id, body: ServiceBody): (r: Reply)
    ensures id !in s.services ==> r == Refuse(s, 404)
    ensures id in s.services && !MayEdit(s.services[id], caller) ==> r == Refuse(s, 403)
    ensures r.code == 200 <==> id in s.services && MayEdit(s.services[id], caller)
    ensures r.code == 200 ==>
              && id in r.store.services
              && r.store == s.(services := s.services[id := r.store.services[id]])
              && (caller.role == ProviderRole ==> r.store.services[id].status == EditStatus(s.services[id].status))
              && (caller.role != ProviderRole ==> r.store.services[id].status == Or(body.status, s.services[id].status))
              && r.store.services[id].(status := s.services[id].status)
                   == Overwrite(s.services[id], body).(status := s.services[id].status)
    ensures r.code != 200 ==> r.store == s
    ensures r.effects == []
  {
    if id !in s.services then Refuse(s, 404)
    else
      var svc := s.services[id];
      if !MayEdit(svc, caller) then Refuse(s, 403)
      else
        var body' := if caller.role == ProviderRole then body.(status := Some(EditStatus(svc.status))) else body;
        Reply(s.(services := s.services[id := Overwrite(svc, body')]), 200, [])
  }

  /** A provider's edit never approves a listing and never withdraws an approval. */
  lemma ProviderEditKeepsApproval(s: Store, caller: Caller, id: Id, body: ServiceBody)
    requires caller.role == ProviderRole
    requires UpdateService(s, caller, id, body).code == 200
    ensures var after := UpdateService(s, caller, id, body).store.services[id];
            (after.status == "approved" <==> s.services[id].status == "approved")
            && after.status in ServiceStatuses
  {
  }

  // ------------------------------------------------------------ status patch

  /** What the status routes take as a verdict: only these two are accepted. */
  const Verdicts: seq<string> := ["approved", "rejected"]

  /** The listing as an approval writes it: approved, with the notes when they are given. */
  function Approve(svc: Service, notes: Option<string>): (r: Service)
    ensures r.status == "approved" && r.adminNotes == (if notes.Some? then notes else svc.adminNotes)
    ensures r.(status := svc.status, adminNotes := svc.adminNotes) == svc
  {
    svc.(status := "approved", adminNotes := if notes.Some? then notes else svc.adminNotes)
  }

  /**
    `PATCH /services/:id/status`. Admins only (403), and the status must be
    approved or rejected (400). Rejection looks the listing up with its
    provider (404 when gone), e-mails the provider, removes the id from the
    provider's list and deletes the listing; when the provider document is
    gone the rejection fails (500) before anything is removed. Approval
    writes the status and the notes (404 when the listing is gone) and then
    e-mails the provider; when the provider document is gone, reading its
    address fails and the request answers 500 with the write kept.
   */
  function PatchStatus(s: Store, caller: Caller, id: Id, status: Option<string>, notes: Option<string>): (r: Reply)
    ensures caller.role != AdminRole ==> r == Refuse(s, 403)
    ensures caller.role == AdminRole && (status.None? || status.value !in Verdicts) ==> r == Refuse(s, 400)
    ensures (caller.role == AdminRole && status.Some? && status.value in Verdicts && id !in s.services)
              ==> r == Refuse(s, 404)
    ensures r.code == 200 <==>
              && caller.role == AdminRole && status.Some? && status.value in Verdicts && id in s.services
              && s.services[id].provider in s.providers
    ensures (caller.role == AdminRole && status == Some("rejected") && id in s.services
             && s.services[id].provider !in s.providers) ==> r == Refuse(s, 500)
    ensures (caller.role == AdminRole && status == Some("approved") && id in s.services
             && s.services[id].provider !in s.providers) ==>
              && r.code == 500 && r.effects == []
              && r.store == s.(services := s.services[id := Approve(s.services[id], notes)])
    ensures r.code == 200 && status.value == "rejected" ==>
              var owner := s.services[id].provider;
              var p := s.providers[owner];
              && r.store.services == s.services - {id}
              && r.store.providers == s.providers[owner := p.(services := Pull(p.services, id))]
              && r.effects == [Send(SendServiceRejectionEmail,
                                    ServiceNotes(p.account.email, p.account.name, s.services[id].name, notes))]
    ensures r.code == 200 && status.value == "approved" ==>
              var svc := s.services[id];
              var p := s.providers[svc.provider];
              && r.store == s.(services := s.services[id := Approve(svc, notes)])
              && r.effects == [Send(SendServiceApprovalEmail,
                                    ServiceNotes(p.account.email, p.account.name, svc.name, notes))]
    ensures r.code != 200 ==> r.effects == []
  {
    if caller.role != AdminRole then Refuse(s, 403)
    else if status.None? || status.value !in Verdicts then Refuse(s, 400)
    else if id !in s.services then Refuse(s, 404)
    else
      var svc := s.services[id];
      if status.value == "rejected" then
        if svc.provider !in s.providers then Refuse(s, 500)
        else
          var p := s.providers[svc.provider];
          var email := Send(SendServiceRejectionEmail, ServiceNotes(p.account.email, p.account.name, svc.name, notes));
          Reply(s.(services := s.services - {id},
                   providers := s.providers[svc.provider := p.(services := Pull(p.services, id))]), 200, [email])
      else
        var written := s.(services := s.services[id := Approve(svc, notes)]);
        if svc.provider !in s.providers then Reply(written, 500, [])
        else
          var p := s.providers[svc.provider];
          Reply(written, 200, [Send(SendServiceApprovalEmail, ServiceNotes(p.account.email, p.account.name, svc.name, notes))])
  }

  // ------------------------------------------------------------------ delete

  /**
    `DELETE /services/:id`. 404 for an unknown listing, 403 for anyone but
    an admin or the owner; the listing is deleted and its id pulled from its
    provider's list (a provider document that is gone is left alone).
   */
  function DeleteService(s: Store, caller: Caller, id: Id): (r: Reply)
    ensures id !in s.services ==> r == Refuse(s, 404)
    ensures id in s.services && !MayEdit(s.services[id], caller) ==> r == Refuse(s, 403)
    ensures r.code == 200 <==> id in s.services && MayEdit(s.services[id], caller)
    ensures r.code == 200 ==>
              var owner := s.services[id].provider;
              && r.store.services == s.services - {id}
              && (owner in s.providers ==>
                    r.store.providers == s.providers[owner := s.providers[owner].(
                                                       services := Pull(s.providers[owner].services, id))])
              && (owner !in s.providers ==> r.store.providers == s.providers)
              && r.store.users == s.users && r.store.admins == s.admins && r.store.bookings == s.bookings
    ensures r.code != 200 ==> r.store == s
    ensures r.effects == []
  {
    if id !in s.services then Refuse(s, 404)
    else
      var svc := s.services[id];
      if !MayEdit(svc, caller) then Refuse(s, 403)
      else
        var providers := if svc.provider in s.providers
                         then s.providers[svc.provider := s.providers[svc.provider].(
                                            services := Pull(s.providers[svc.provider].services, id))]
                         else s.providers;
        Reply(s.(services := s.services - {id}, providers := providers), 200, [])
  }

  // -------------------------------------------------------------- invariant

  /**
    Every listing belongs to a stored provider and is on that provider's
    list, and every id on a provider's list names a listing of that provider.
   */
  predicate ServicesTracked(s: Store)
  {
    && (forall k :: k in s.services ==>
          s.services[k].provider in s.providers && k in s.providers[s.services[k].provider].services)
    && (forall p, i :: p in s.providers && 0 <= i < |s.providers[p].services| ==>
          s.providers[p].services[i] in s.services && s.services[s.providers[p].services[i]].provider == p)
  }

  lemma CreateKeepsTracked(s: Store, caller: Caller, body: ServiceBody)
    requires ServicesTracked(s)
    ensures ServicesTracked(CreateService(s, caller, body).store)
  {
    var r := CreateService(s, caller, body);
    if r.code == 201 {
      var id := s.NewId();
      var s' := r.store;
      forall p, i | p in s'.providers && 0 <= i < |s'.providers[p].services|
        ensures s'.providers[p].services[i] in s'.services
        ensures s'.services[s'.providers[p].services[i]].provider == p
      {
        if p == caller.id && i == |s.providers[p].services| {
          assert s'.providers[p].services[i] == id;
        } else {
          assert s'.providers[p].services[i] == s.providers[p].services[i];
          assert s.providers[p].services[i] in s.services;
        }
      }
    }
  }

  /** Removing listing `id` and pulling it from its owner's list keeps the invariant. */
  lemma RemovalKeepsTracked(s: Store, id: Id, s': Store)
    requires ServicesTracked(s) && id in s.services
    requires s'.services == s.services - {id}
    requires var owner := s.services[id].provider;
             && (owner in s.providers ==>
                   s'.providers == s.providers[owner := s.providers[owner].(
                                                 services := Pull(s.providers[owner].services, id))])
             && (owner !in s.providers ==> s'.providers == s.providers)
    ensures ServicesTracked(s')
  {
    var owner := s.services[id].provider;
    forall k | k in s'.services
      ensures s'.services[k].provider in s'.providers && k in s'.providers[s'.services[k].provider].services
    {
      var q := s.services[k].provider;
      assert k in s.providers[q].services;
    }
    forall p, i | p in s'.providers && 0 <= i < |s'.providers[p].services|
      ensures s'.providers[p].services[i] in s'.services
      ensures s'.services[s'.providers[p].services[i]].provider == p
    {
      var x := s'.providers[p].services[i];
      assert x in s.providers[p].services;
      var j :| 0 <= j < |s.providers[p].services| && s.providers[p].services[j] == x;
      assert x in s.services && s.services[x].provider == p;
    }
  }

  lemma DeleteKeepsTracked(s: Store, caller: Caller, id: Id)
    requires ServicesTracked(s)
    ensures ServicesTracked(DeleteService(s, caller, id).store)
  {
    if DeleteService(s, caller, id).code == 200 {
      RemovalKeepsTracked(s, id, DeleteService(s, caller, id).store);
    }
  }

  lemma PatchStatusKeepsTracked(s: Store, caller: Caller, id: Id, status: Option<string>, notes: Option<string>)
    requires ServicesTracked(s)
    ensures ServicesTracked(PatchStatus(s, caller, id, status, notes).store)
  {
    var r := PatchStatus(s, caller, id, status, notes);
    if r.code == 200 && status.value == "rejected" {
      RemovalKeepsTracked(s, id, r.store);
    } else if r.store != s {
      assert r.store.providers == s.providers;
      assert r.store.services.Keys == s.services.Keys;
      assert forall k :: k in s.services ==> r.store.services[k].provider == s.services[k].provider;
    }
  }

  /** An edit keeps the invariant as long as its body does not hand the listing to another provider. */
  lemma UpdateKeepsTracked(s: Store, caller: Caller, id: Id, body: ServiceBody)
    requires ServicesTracked(s)
    requires id in s.services ==> body.provider.None? || body.provider == Some(s.services[id].provider)
    ensures ServicesTracked(UpdateService(s, caller, id, body).store)
  {
    var r := UpdateService(s, caller, id, body);
    if r.code == 200 {
      assert r.store.providers == s.providers;
      assert r.store.services.Keys == s.services.Keys;
      assert forall k :: k in s.services ==> r.store.services[k].provider == s.services[k].provider;
    }
  }

  /** Creating a listing and then deleting it as its owner leaves the store as it was. */
  lemma CreateThenDeleteRestores(s: Store, caller: Caller, body: ServiceBody)
    requires ServicesTracked(s)
    requires CreateService(s, caller, body).code == 201
    ensures DeleteService(CreateService(s, caller, body).store, caller, s.NewId()) == Reply(s, 200, [])
  {
    var id := s.NewId();
    var s1 := CreateService(s, caller, body).store;
    var p := s.providers[caller.id];
    assert id !in p.services;
    assert Pull(p.services + [id], id) == p.services by {
      PullAppended(p.services, id);
    }
    assert s1.services - {id} == s.services;
    assert s1.providers[caller.id := s1.providers[caller.id].(services := p.services)] == s.providers;
  }

  lemma {:induction false} PullAppended(xs: seq<Id>, x: Id)
    requires x !in xs
    ensures Pull(xs + [x], x) == xs
  {
    if xs != [] {
      assert (xs + [x])[1..] == xs[1..] + [x];
      PullAppended(xs[1..], x);
    }
  }
}

=== FILE: store.dfy ===
/**
  The database as an immutable value: one id-keyed map per collection, and
  the handful of queries the handlers issue against it.
 */
module Store {
  import opened Common
  import opened Text
  import opened Schema

  datatype Store = Store(
    users: map<Id, Account>,
    providers: map<Id, Provider>,
    admins: map<Id, Account>,
    services: map<Id, Service>,
    bookings: map<Id, Booking>)
  {
    /** Every identifier in use, in any collection. */
    function AllIds(): set<Id> {
      users.Keys + providers.Keys + admins.Keys + services.Keys + bookings.Keys
    }

    /** The identifier the next inserted document receives: newer than every existing one. */
    function NewId(): (r: Id)
      ensures r !in users && r !in providers && r !in admins && r !in services && r !in bookings
      ensures forall x :: x in AllIds() ==> x < r
    {
      Fresh(AllIds())
    }

    /** The account collection a role selects, seen through the fields all three share. */
    function Accounts(role: Role): (m: map<Id, Account>)
      ensures role == ProviderRole ==> m.Keys == providers.Keys
      ensures role == ProviderRole ==> forall k :: k in m ==> m[k] == providers[k].account
      ensures role == UserRole ==> m == users
      ensures role == AdminRole ==> m == admins
    {
      match role
      case UserRole => users
      case AdminRole => admins
      case ProviderRole => map k | k in providers :: providers[k].account
    }

    /** Writes the shared account fields back into the collection a role selects. */
    function PutAccount(role: Role, id: Id, a: Account): (s': Store)
      requires id in Accounts(role)
      ensures s'.Accounts(role) == Accounts(role)[id := a]
      ensures role != UserRole ==> s'.users == users
      ensures role != AdminRole ==> s'.admins == admins
      ensures role != ProviderRole ==> s'.providers == providers
      ensures role == ProviderRole ==> s'.providers == providers[id := providers[id].(account := a)]
      ensures s'.services == services && s'.bookings == bookings
    {
      match role
      case UserRole => this.(users := users[id := a])
      case AdminRole => this.(admins := admins[id := a])
      case ProviderRole =>
        var s' := this.(providers := providers[id := providers[id].(account := a)]);
        assert s'.Accounts(role) == Accounts(role)[id := a];
        s'
    }

    /** Inserts a brand-new account document into the collection a role selects. */
    function InsertAccount(role: Role, id: Id, a: Account, company: Option<string>): (s': Store)
      requires id !in Accounts(role)
      ensures s'.Accounts(role) == Accounts(role)[id := a]
      ensures role != UserRole ==> s'.users == users
      ensures role != AdminRole ==> s'.admins == admins
      ensures role != ProviderRole ==> s'.providers == providers
      ensures role == ProviderRole ==> s'.providers == providers[id := NewProvider(a, company)]
      ensures s'.services == services && s'.bookings == bookings
    {
      match role
      case UserRole => this.(users := users[id := a])
      case AdminRole => this.(admins := admins[id := a])
      case ProviderRole =>
        var s' := this.(providers := providers[id := NewProvider(a, company)]);
        assert s'.Accounts(role) == Accounts(role)[id := a];
        s'
    }
  }

  /**
    `findOne({ email })`: the schema's `lowercase` setter also applies to the
    query, so the lower-cased address is looked up; the earliest match wins.
   */
  function FindByEmail(m: map<Id, Account>, email: string): (r: Option<Id>)
    ensures r.Some? ==> r.value in m && m[r.value].email == Lower(email)
    ensures r.Some? ==> forall k :: k in m && m[k].email == Lower(email) ==> r.value <= k
    ensures r.None? <==> forall k :: k in m ==> m[k].email != Lower(email)
  {
    var e := Lower(email);
    var hits := set k | k in m && m[k].email == e;
    assert forall k :: k in m && m[k].email == e ==> k in hits;
    if hits == {} then None else Some(Least(hits))
  }

  /** Replacing a provider document replaces its account in the providers' account view. */
  lemma ProviderWriteAccounts(s: Store, id: Id, p: Provider)
    requires id in s.providers
    ensures s.(providers := s.providers[id := p]).Accounts(ProviderRole) == s.Accounts(ProviderRole)[id := p.account]
  {
    var m' := s.(providers := s.providers[id := p]).Accounts(ProviderRole);
    var m := s.Accounts(ProviderRole)[id := p.account];
    assert m'.Keys == m.Keys;
    forall k | k in m'
      ensures m'[k] == m[k]
    {
    }
  }

  /** Rewriting the account a lookup finds, keeping its address, leaves the lookup finding it. */
  lemma FindAfterSameAddress(m: map<Id, Account>, k: Id, a: Account, email: string)
    requires FindByEmail(m, email) == Some(k) && a.email == m[k].email
    ensures FindByEmail(m[k := a], email) == Some(k)
  {
    var m' := m[k := a];
    assert k in m' && m'[k].email == Lower(email);
    var r := FindByEmail(m', email);
    assert r.Some? && r.value <= k;
  }

  /** The ids of the bookings satisfying `p`, in natural (ascending) order. */
  function BookingsWhere(m: map<Id, Booking>, p: Booking -> bool): (r: seq<Id>)
    ensures StrictlyAscending(r)
    ensures forall k :: k in r <==> k in m && p(m[k])
  {
    Ascending(set k | k in m && p(m[k]))
  }

  /** `findOne(filter)`: the earliest document satisfying `p`. */
  function FirstWhere<V>(m: map<Id, V>, p: V -> bool): (r: Option<Id>)
    ensures r.Some? ==> r.value in m && p(m[r.value])
    ensures r.Some? ==> forall k :: k in m && p(m[k]) ==> r.value <= k
    ensures r.None? <==> forall k :: k in m ==> !p(m[k])
  {
    var hits := set k | k in m && p(m[k]);
    assert forall k :: k in m && p(m[k]) ==> k in hits;
    if hits == {} then None else Some(Least(hits))
  }
}

=== FILE: text.dfy ===
/**
  The string primitives the handlers rely on: JavaScript's `trim`, ASCII case
  folding, the character classes of the schema's regular expressions, and the
  `split(' ')[1]` used to pull a token out of an Authorization header.
 */
module Text {
  import opened Common

  /** JavaScript's WhiteSpace and LineTerminator code points: what `String.prototype.trim` removes. */
  predicate IsSpace(c: char)
  {
    || c == '\t' || c == '\n' || c == '\U{000B}' || c == '\U{000C}' || c == '\r'
    || c == ' ' || c == '\U{00A0}' || c == '\U{1680}'
    || ('\U{2000}' <= c <= '\U{200A}')
    || c == '\U{2028}' || c == '\U{2029}' || c == '\U{202F}' || c == '\U{205F}'
    || c == '\U{3000}' || c == '\U{FEFF}'
  }

  /** The characters a regular expression's `.` refuses to match. */
  predicate IsLineTerminator(c: char)
  {
    c == '\n' || c == '\r' || c == '\U{2028}' || c == '\U{2029}'
  }

  predicate IsDigit(c: char) { '0' <= c <= '9' }
  predicate IsUpper(c: char) { 'A' <= c <= 'Z' }
  predicate IsLower(c: char) { 'a' <= c <= 'z' }

  /** The regular-expression class `\w`: ASCII letters, digits and the underscore. */
  predicate IsWordChar(c: char) { IsDigit(c) || IsUpper(c) || IsLower(c) || c == '_' }

  /** Number of leading characters `trim` removes. */
  function LeadingSpaces(s: string): (n: nat)
    ensures n <= |s|
    ensures forall k :: 0 <= k < n ==> IsSpace(s[k])
    ensures n < |s| ==> !IsSpace(s[n])
  {
    if s == [] || !IsSpace(s[0]) then 0 else 1 + LeadingSpaces(s[1..])
  }

  /** Number of trailing characters `trim` removes. */
  function TrailingSpaces(s: string): (n: nat)
    ensures n <= |s|
    ensures forall k :: |s| - n <= k < |s| ==> IsSpace(s[k])
    ensures n < |s| ==> !IsSpace(s[|s| - n - 1])
  {
    if s == [] || !IsSpace(s[|s| - 1]) then 0 else 1 + TrailingSpaces(s[..|s| - 1])
  }

  /** `String.prototype.trim`. */
  function Trim(s: string): (r: string)
    ensures |r| <= |s|
    ensures r == [] || (!IsSpace(r[0]) && !IsSpace(r[|r| - 1]))
    ensures r == [] <==> forall k :: 0 <= k < |s| ==> IsSpace(s[k])
  {
    var lead := LeadingSpaces(s);
    if lead == |s| then []
    else
      var trail := TrailingSpaces(s);
      s[lead .. |s| - trail]
  }

  /** Trimming twice changes nothing more. */
  lemma TrimIdempotent(s: string)
    ensures Trim(Trim(s)) == Trim(s)
  {
    var t := Trim(s);
    if t != [] {
      assert LeadingSpaces(t) == 0;
      assert TrailingSpaces(t) == 0;
    }
  }

  /** ASCII lower-casing of one character; every other character is kept. */
  function LowerChar(c: char): (d: char)
    ensures IsUpper(c) ==> IsLower(d)
    ensures !IsUpper(c) ==> d == c
  {
    if IsUpper(c) then (c as int + 32) as char else c
  }

  /** ASCII lower-casing, as the schema's `lowercase` setter does for ASCII e-mail addresses. */
  function Lower(s: string): (r: string)
    ensures |r| == |s|
    ensures forall k :: 0 <= k < |s| ==> r[k] == LowerChar(s[k])
    ensures forall k :: 0 <= k < |r| ==> !IsUpper(r[k])
  {
    seq(|s|, k requires 0 <= k < |s| => LowerChar(s[k]))
  }

  lemma LowerIdempotent(s: string)
    ensures Lower(Lower(s)) == Lower(s)
  {
  }

  /** A string with no upper-case ASCII letter is its own lower-case form. */
  lemma LowerOfLowerCase(s: string)
    requires forall k :: 0 <= k < |s| ==> !IsUpper(s[k])
    ensures Lower(s) == s
  {
  }

  predicate StartsWith(s: string, prefix: string)
  {
    |prefix| <= |s| && s[..|prefix|] == prefix
  }

  /** Index of the first occurrence of `c` in `s`, if any. */
  function IndexOf(s: string, c: char): (r: Option<nat>)
    ensures r.Some? ==> r.value < |s| && s[r.value] == c
    ensures r.Some? ==> forall k :: 0 <= k < r.value ==> s[k] != c
    ensures r.None? ==> forall k :: 0 <= k < |s| ==> s[k] != c
  {
    if s == [] then None
    else if s[0] == c then Some(0)
    else match IndexOf(s[1..], c)
      case None => None
      case Some(i) => Some(i + 1)
  }

  /** The first occurrence is the one with no earlier occurrence before it. */
  lemma IndexOfFirst(s: string, c: char, i: nat)
    requires i < |s| && s[i] == c && forall k :: 0 <= k < i ==> s[k] != c
    ensures IndexOf(s, c) == Some(i)
  {
  }

  /**
    `s.split(' ')[1]`: the field between the first and the second space, or
    nothing when `s` holds no space at all.
   */
  function SecondField(s: string): (r: Option<string>)
    ensures r.None? <==> ' ' !in s
    ensures r.Some? ==> ' ' !in r.value
    ensures r.Some? ==> exists i :: 0 <= i && i + 1 + |r.value| <= |s| && s[i] == ' ' && ' ' !in s[..i]
                                     && s[i + 1 .. i + 1 + |r.value|] == r.value
                                     && (i + 1 + |r.value| == |s| || s[i + 1 + |r.value|] == ' ')
  {
    match IndexOf(s, ' ')
    case None => None
    case Some(i) =>
      var tail := s[i + 1..];
      match IndexOf(tail, ' ')
      case None =>
        assert s[i + 1 .. i + 1 + |tail|] == tail;
        Some(tail)
      case Some(j) =>
        assert s[i + 1 .. i + 1 + j] == tail[..j];
        Some(tail[..j])
  }

  /** JavaScript truthiness of an optional string: present and not empty. */
  predicate Given(o: Option<string>)
  {
    o.Some? && o.value != ""
  }
}
